=== FILE: README.md ===
# A Dafny model of the nampython Web-Server request pipeline

This project models the request-processing core of nampython/Web-Server, a
small hand-written HTTP/1.1 server in Java. Each connection runs a chain of
request handlers, sorted by `order()`, over one shared-data bag.

1. **The request processor** (`RequestProcessor`) runs first.
   - It reads the request metadata byte by byte, with strict CR/LF rules.
   - It splits the request line into method, URL and query parameters, then
     reads the headers, cookies and `Content-Length`.
   - It refuses a body larger than `MAX_REQUEST_SIZE`, parses the body, and
     strips `..` runs from the path.
   - It stores the request and a fresh response under `HTTP_REQUEST` and
     `HTTP_RESPONSE`.
2. **The resource handler** (`ResourceHandler`) serves static files.
   - It resolves the application name and tries the webapps path, then the
     assets path.
   - It answers 200 and adds a `Cache-Control` header taken from the request
     or from the caching expression (a small `types @ directive & …`
     language).
3. **The dispatcher** (`Dispatcher`) serves controllers.
   - It finds a controller by exact route, then by the quoted "wildcard"
     pattern, then by the catch-all route.
   - It attaches the session, runs the controller fail-closed, and answers
     with the session cookie.
4. **The fallback handler** answers 404.

After the chain, the cleanup handlers close uploaded files. Around the chain
the project also models:

- the controller base class (`BaseHttp`): method dispatch and the 501 default;
- `sendRedirect`;
- the error handler;
- the controller configuration map (`DispatcherConfig`);
- the session manager;
- the handler loader (a stable sort by order);
- the configuration layers: defaults, then `config.ini`, then the
  environment, then a runtime map (`AdditionalConfig`).

Everything is modelled as immutable values and pure functions.
`parseMetadataLines` is a method whose loop is proved equal to a recursive
reference definition. Java's `String.split` over the fixed separators the
code uses is modelled exactly: leftmost matching, trailing empty strings
dropped, and the whole input returned when nothing matches.

Percent-decoding, `Integer.parseInt`, UTF-8 decoding, file existence,
media-type detection and similar services are function parameters.

One module per source component, one file each:

- supporting modules: `wrappers`, `text`, `split`, `http`, `shared_data`,
  `exchange`;
- the request processor and its parsers: `metadata`, `pairs`,
  `request_processor`, `form_data`;
- static resources: `caching`, `resource_handler`;
- controllers and the dispatcher: `attributes`, `base_http`, `session`,
  `dispatcher`;
- the end of the chain and its driver: `error_handling`, `fallback`,
  `destroy`, `connection`, `loading`;
- configuration: `config`.

Source paths below are under `src/main/java/org/nampython/`, written in full.

## Model

| member | source | states |
|---|---|---|
| Metadata.ParseMetadataLines | src/main/java/org/nampython/core/engine/RequestProcessor.java:264-331 | The byte-at-a-time loop agrees with the recursive line-splitting definition on every input and in both line-ending modes, including the lines, the position where the body starts and each error. |
| Metadata.LinesAreClean | src/main/java/org/nampython/core/engine/RequestProcessor.java:275-318 | No returned metadata line contains a CR or LF byte. |
| Metadata.LinesKeepPayload | src/main/java/org/nampython/core/engine/RequestProcessor.java:275-318 | The returned lines, joined, are exactly the non-terminator bytes consumed, in their original order; nothing is lost or repeated. |
| Metadata.ReturnAtEndRepeatsLine | src/main/java/org/nampython/core/engine/RequestProcessor.java:280-318 | As written, a stream ending `line CR` yields `line` twice, so the lines no longer match the bytes read; the corrected loop yields it once. |
| Metadata.IllegalCharAfterReturn | src/main/java/org/nampython/core/engine/RequestProcessor.java:277-294 | A CR followed by a byte other than LF is an "illegal character after return" error on that line. |
| Metadata.IllegalAfterReturnHasWitness | src/main/java/org/nampython/core/engine/RequestProcessor.java:277-294 | Conversely, that error is raised only when the stream holds a CR followed by a byte other than LF. |
| Metadata.BareNewLineRejected | src/main/java/org/nampython/core/engine/RequestProcessor.java:295-299 | With bare LF disallowed, a LF without a CR before it is an error on that line. |
| Metadata.StrictLineEndings | src/main/java/org/nampython/core/engine/RequestProcessor.java:295-299 | With bare LF disallowed, every LF in a successfully parsed block follows a CR. |
| Metadata.BlankLineEndsBlock | src/main/java/org/nampython/core/engine/RequestProcessor.java:280-288 | `line CR LF CR LF rest` gives just `[line]`; the block ends after the blank line and `rest` is left for the body. |
| Metadata.LeadingTerminatorIsEmpty | src/main/java/org/nampython/core/engine/RequestProcessor.java:270-322 | A terminator as the first byte ends the block at once, because `wasNewLine` starts true, and the request is then empty (or a bare-LF error). |
| Metadata.ShortStreamIsEmpty | src/main/java/org/nampython/core/engine/RequestProcessor.java:320-322 | A stream of fewer than two bytes is "Request is empty". |
| Metadata.SuccessHasRequestLine | src/main/java/org/nampython/core/engine/RequestProcessor.java:316-322 | A successful parse has at least one line, so the request line exists. |
| RequestProcessor.SegmentPairs | src/main/java/org/nampython/core/engine/RequestProcessor.java:237-245 | The segments parse exactly when every segment's `&`-split parses; a single segment contributes its pairs in order. |
| RequestProcessor.SegmentPairsAppend | src/main/java/org/nampython/core/engine/RequestProcessor.java:237-245 | The pairs of two runs of segments are the pairs of the first run followed by those of the second. A failure in the first run is the one reported, and otherwise a failure in the second. |
| RequestProcessor.ParamQuery | src/main/java/org/nampython/core/engine/RequestProcessor.java:233-247 | Without a second word the result is an error. Without `?` nothing changes. Otherwise the pairs of every segment after the first are put into the query map in order, and nothing else changes. |
| RequestProcessor.RequestLineWithoutQuery | src/main/java/org/nampython/core/engine/RequestProcessor.java:216-247 | For `M SP P SP V` the method is `M`, the URL is `P` decoded, and no query parameter is added. |
| RequestProcessor.RequestLineWithTwoQueries | src/main/java/org/nampython/core/engine/RequestProcessor.java:216-247 | For `M SP P?Q1?Q2 SP V` the pairs of `Q1` and then of `Q2` go into the query map, so a key in both ends with its `Q2` value. |
| RequestProcessor.RequestLineWithQuery | src/main/java/org/nampython/core/engine/RequestProcessor.java:216-247 | For `M SP P?Q SP V` the method is `M`, the URL is `P` decoded, and the query parameters are the pairs of `Q`. |
| RequestProcessor.HeaderPairs | src/main/java/org/nampython/core/engine/RequestProcessor.java:204-209 | Every line parses, in order, or the whole step fails. |
| RequestProcessor.Headers | src/main/java/org/nampython/core/engine/RequestProcessor.java:203-210 | The header lines after the request line are added in order, later names overwriting earlier ones, and the step fails if and only if some line has no `:\s+`. |
| RequestProcessor.WellFormedHeader | src/main/java/org/nampython/core/engine/RequestProcessor.java:205-208 | `Name: value` without further colons gives exactly `(Name, value)`. |
| RequestProcessor.HeaderWithoutColon | src/main/java/org/nampython/core/engine/RequestProcessor.java:205-207 | A header line without a colon makes the request fail. |
| RequestProcessor.HeaderValueCutAtColon | src/main/java/org/nampython/core/engine/RequestProcessor.java:205-207 | `Name: a: b` gives the value `a`; the text after a second `: ` is dropped. |
| RequestProcessor.Cookies | src/main/java/org/nampython/core/engine/RequestProcessor.java:180-190 | Without a `Cookie` header the request is unchanged. Otherwise the header is split on `;\s`, each pair on `=`, and the cookies are put in order; only the cookie map changes. |
| RequestProcessor.PutCookiesKeyedByName | src/main/java/org/nampython/core/engine/RequestProcessor.java:183-188 | Putting parsed cookies keeps every cookie stored under its own name. |
| RequestProcessor.CookiesStayKeyedByName | src/main/java/org/nampython/core/engine/RequestProcessor.java:180-190 | After `handlerCookies`, every cookie is still stored under its own name. |
| RequestProcessor.DecimalContentLength | src/main/java/org/nampython/core/engine/RequestProcessor.java:164-170 | A `Content-Length` holding the decimal text of `n` (within `int`) sets the content length to `n`, under a `parseInt` that reads decimal digits. |
| RequestProcessor.StripDotsLeavesNoDotDot | src/main/java/org/nampython/core/engine/RequestProcessor.java:148-152 | After `..`-stripping the path contains no two dots in a row. |
| RequestProcessor.StripDotsKeepsClean | src/main/java/org/nampython/core/engine/RequestProcessor.java:148-152 | A path without `..` is left exactly as it is. |
| RequestProcessor.StripDotsIdempotent | src/main/java/org/nampython/core/engine/RequestProcessor.java:148-152 | Stripping twice is stripping once. |
| RequestProcessor.ParseHead | src/main/java/org/nampython/core/engine/RequestProcessor.java:119-127 | For either metadata loop (the server's is the one as written): a metadata error surfaces as a cannot-parse error with the loop's message. On success, the body starts where the metadata ended. |
| RequestProcessor.ParseHttpRequest | src/main/java/org/nampython/core/engine/RequestProcessor.java:119-143 | Head errors propagate. A declared length over the limit is a request-too-big error and the body is not parsed. Otherwise the body parser decides the outcome, and a parsed request's URL is dot-stripped and has no `..`. |
| RequestProcessor.ParsedRequestFitsLimit | src/main/java/org/nampython/core/engine/RequestProcessor.java:128-135 | A request parsed by the default body parser never declares more than `maxRequestSize`. |
| RequestProcessor.HandleRequest | src/main/java/org/nampython/core/engine/RequestProcessor.java:82-95 | For either metadata loop: on success the request and a fresh response are stored, nothing is written, and the chain goes on. Too big: one 400 is written and the chain stops. Any other error: handled with 400 exactly when exception printing is on, and otherwise nothing is written. For an illegal character after a carriage return the source has already closed the socket, so that 400 never arrives (see Left out). |
| RequestProcessor.ReturnAtEndAnswersBadRequest | src/main/java/org/nampython/core/engine/RequestProcessor.java:82-95 | On a request line followed by a lone CR and the end of the stream, the server's loop fails the request with an index error and answers one 400 when exception printing is on, while the corrected loop parses the head. |
| RequestProcessor.DefaultLimitNeverTooBig | src/main/java/org/nampython/core/engine/RequestProcessor.java:128-130 | With `parseInt` bounded to `int` and the default limit `Integer.MAX_VALUE`, a parsed head never declares more than the limit, so the size check always passes. |
| RequestProcessor.DisposalNeverEnds | src/main/java/org/nampython/core/engine/RequestProcessor.java:101-111 | Once `leftToRead` exceeds the bytes still to come, the disposal loop never stops, for any number of turns. |
| RequestProcessor.ShortBodyNeverDisposed | src/main/java/org/nampython/core/engine/RequestProcessor.java:88-89 | A too-big request whose body is shorter than its `Content-Length` sends the handler into a loop that never stops. |
| RequestProcessor.DisposeCorrected | src/main/java/org/nampython/core/engine/RequestProcessor.java:101-111 | The corrected loop always stops, either with nothing left to read or with every sent byte read, and it keeps the gap between `leftToRead` and the bytes still to come. |
| RequestProcessor.CorrectedDisposalAgrees | src/main/java/org/nampython/core/engine/RequestProcessor.java:101-111 | When the whole declared body was sent, the loop that also stops on an empty read ends where the loop as written does, with nothing left to read; otherwise it stops after reading every byte sent. |
| FormData.ParseBodyParams | src/main/java/org/nampython/core/FormDataParserDefault.java:24-30 | A negative length is an illegal-argument error and a read fault a cannot-parse error. Otherwise the first `Content-Length` bytes (or all there are), decoded, set the body parameters, and only those change. |
| FormData.BlankBodyAddsNothing | src/main/java/org/nampython/core/FormDataParserDefault.java:54 | A body of white space only adds no parameter. |
| FormData.BodyPairsInOrder | src/main/java/org/nampython/core/FormDataParserDefault.java:55-61 | A non-blank body `p1&…&pn` whose pairs all parse puts each pair in order, so a repeated name ends with its last value. |
| FormData.ExtraTokensIgnored | src/main/java/org/nampython/core/FormDataParserDefault.java:57-59 | `k=v=w` yields `k -> v`. |
| UrlPairs.ParsePairs | src/main/java/org/nampython/core/engine/RequestProcessor.java:239-244 | All pairs parse, in order, or the step fails. |
| UrlPairs.PutAllLastWins | src/main/java/org/nampython/core/engine/RequestProcessor.java:239-244 | After putting pairs in order, a key holds its last value among them, or its earlier value when no pair names it. |
| UrlPairs.PairWithValue | src/main/java/org/nampython/core/engine/RequestProcessor.java:240-242 | `k=v` (with anything after a further `=`) gives the decoded `k` and `v`. |
| UrlPairs.PairWithoutValue | src/main/java/org/nampython/core/engine/RequestProcessor.java:240-242 | `k` and `k=` give the decoded `k` with no value. |
| UrlPairs.LoneEqualsFails | src/main/java/org/nampython/core/engine/RequestProcessor.java:240-241 | A lone `=` splits into no tokens, and reading token 0 fails. |
| CachingExpression.ExpressionEntriesOk | src/main/java/org/nampython/core/engine/ResourceHandler.java:266-274 | The expression parses exactly when every clause does. |
| CachingExpression.ParseExpression | src/main/java/org/nampython/core/engine/ResourceHandler.java:263-282 | The map holds the clauses' entries, put in order. Any failing clause makes the whole parse a cannot-parse-expression error naming the text, and no map is returned. |
| CachingExpression.ClauseWithoutAtFails | src/main/java/org/nampython/core/engine/ResourceHandler.java:268-280 | A clause without `@` makes the parse fail. |
| CachingExpression.ClauseRoundTrip | src/main/java/org/nampython/core/engine/ResourceHandler.java:268-273 | Rendering a well-formed clause and parsing it back gives its media types, each with its directive; commas inside the directive are kept. |
| CachingExpression.ParseRender | src/main/java/org/nampython/core/engine/ResourceHandler.java:263-282 | Parsing a rendered expression gives exactly the entries of its clauses, put in order. |
| CachingExpression.LastClauseWins | src/main/java/org/nampython/core/engine/ResourceHandler.java:271-273 | A media type maps to the directive of the last clause naming it. |
| CachingExpression.DefaultClausesRender | src/main/java/org/nampython/config/ConstantsPool.java:32-34 | The three default clauses render to exactly the default caching expression. |
| CachingExpression.DefaultExpressionMap | src/main/java/org/nampython/config/ConstantsPool.java:32-34 | The default expression parses to png, gif and jpeg -> `max-age=120`, css -> `max-age=84600, public`, javascript -> `max-age=7200`. |
| ResourceHandler.AppNameForRequest | src/main/java/org/nampython/core/engine/ResourceHandler.java:124-133 | The first name in list order whose `/name` prefixes the URL, or the main application when none does. |
| ResourceHandler.OnlyMainApp | src/main/java/org/nampython/core/engine/ResourceHandler.java:40 | With the single configured name, every URL belongs to the main application. |
| ResourceHandler.FirstNameWins | src/main/java/org/nampython/core/engine/ResourceHandler.java:124-133 | List order decides, not the longest prefix: with `a` before `ab`, `/ab/x` belongs to `a`. |
| ResourceHandler.RelativeUrlDropsPrefix | src/main/java/org/nampython/core/engine/ResourceHandler.java:84 | When the URL starts with `/app`, the first occurrence of `/app` is removed, so the rest of the URL is what remains. |
| ResourceHandler.LocateResource | src/main/java/org/nampython/core/engine/ResourceHandler.java:82-93 | The webapps file if it exists, else the assets file if it exists, else a not-found error about the relative URL. A found path is always an existing file. |
| ResourceHandler.AddCachingHeader | src/main/java/org/nampython/core/engine/ResourceHandler.java:228-239 | Nothing changes when caching is off or `Cache-Control` is already set. The request's own value comes before the media-type map, and the header is added if and only if one of them has a value. No other header changes. |
| ResourceHandler.AddCachingHeaderIdempotent | src/main/java/org/nampython/core/engine/ResourceHandler.java:228-239 | Adding the caching header twice is adding it once. |
| ResourceHandler.FoundResponse | src/main/java/org/nampython/core/engine/ResourceHandler.java:206-213 | 200, with the media type, the file size as text, `Content-Disposition: inline`, and otherwise only the caching header. |
| ResourceHandler.HandleRequest | src/main/java/org/nampython/core/engine/ResourceHandler.java:59-74 | A missing request is a null-pointer error. A missing file declines and writes nothing. With request and response present, the request is taken exactly when the file is found, and then the built response is written, then the file bytes, with the request kept. |
| Dispatching.ResolveAppName | src/main/java/org/nampython/core/engine/Dispatcher.java:228-245 | The first non-root name that prefixes the URL, or the empty string when none does. |
| Dispatching.ContextPathIsEmpty | src/main/java/org/nampython/core/engine/Dispatcher.java:228-245 | With the names `init` stores, the context path is always empty. |
| Dispatching.FindRoute | src/main/java/org/nampython/core/engine/Dispatcher.java:206-226 | The exact URL first, then the quoted wildcard key (when the URL contains the literal pattern text), then the catch-all key, else none. A found key is registered. |
| Dispatching.FindRouteNoneIff | src/main/java/org/nampython/core/engine/Dispatcher.java:206-226 | No controller is found exactly when none of the three tiers is registered. |
| Dispatching.WildcardNeedsBackslash | src/main/java/org/nampython/core/engine/Dispatcher.java:209-215 | Because the whole pattern is quoted, a URL without a backslash never reaches the wildcard tier. |
| Dispatching.UsersWildcardUnreached | src/main/java/org/nampython/core/engine/Dispatcher.java:209-219 | A controller registered as `/users/*` is not found for `/users/5`. |
| Dispatching.Prepared | src/main/java/org/nampython/core/engine/Dispatcher.java:82-84 | The request always has a session after lookup, with the resolved context path and the same method and URL. |
| Dispatching.HandleRequest | src/main/java/org/nampython/core/engine/Dispatcher.java:79-98 | A missing request is a null-pointer error. The session is attached before the decline check. A declined request writes nothing and keeps the session store. A handled one writes its response once, with a status. No route is added or removed. The handled path in full is stated by `Dispatching.RunningControllerHandles`. |
| Dispatching.RunningControllerHandles | src/main/java/org/nampython/core/engine/Dispatcher.java:87-96 | A controller that intercepted, or threw (fail-closed), ends the chain: a missing status becomes 200, the session is sent with its cookie, invalid sessions are swept, and that response is written exactly once. |
| Dispatching.NotInterceptedDeclines | src/main/java/org/nampython/core/engine/Dispatcher.java:87-88 | A controller that cleared its intercept flag declines: nothing is written and no session is stored. |
| Dispatching.ControllerConfig | src/main/java/org/nampython/core/engine/Dispatcher.java:268-277 | The controller's configuration copy sets the assets and working directories. It sets the `/app` name prefix only for a named non-root app, and otherwise equals the dispatcher's configuration. |
| Dispatching.LoadSolet | src/main/java/org/nampython/core/engine/Dispatcher.java:258-283 | A class without an annotation fails with the missing-annotation message. Otherwise the instance, initialised only if it was not already, is put under its prefixed route. |
| Dispatching.RegisteredUnderCreatedRoute | src/main/java/org/nampython/core/engine/Dispatcher.java:264-281 | A fresh controller is registered under the route its own `createRoute` gives. |
| Dispatching.LoadAll | src/main/java/org/nampython/core/engine/Dispatcher.java:118-135 | Loading succeeds exactly when every class is annotated, and the routes are the old ones plus every prefixed route. |
| Dispatching.LaterRegistrationWins | src/main/java/org/nampython/core/engine/Dispatcher.java:281 | Two classes on one route: the later one is kept. |
| Attributes.EmptyConfig | src/main/java/org/nampython/core/engine/Dispatcher.java:389-394 | A new configuration has no attribute. |
| Attributes.GetAttribute | src/main/java/org/nampython/core/engine/Dispatcher.java:412-414 | A value exactly when the attribute is present. |
| Attributes.SetAttribute | src/main/java/org/nampython/core/engine/Dispatcher.java:396-398 | The value is overwritten, and no other attribute changes. |
| Attributes.SetIfMissing | src/main/java/org/nampython/core/engine/Dispatcher.java:400-402 | An existing value is never replaced; an absent one is set; no other attribute changes. |
| Attributes.DeleteAttribute | src/main/java/org/nampython/core/engine/Dispatcher.java:404-406 | The attribute is gone, and no other attribute changes. |
| Attributes.AllAttributes | src/main/java/org/nampython/core/engine/Dispatcher.java:416-418 | The view holds exactly the present attributes with their values. |
| Attributes.SetIfMissingAfterSetOrDelete | src/main/java/org/nampython/core/engine/Dispatcher.java:396-406 | `setIfMissing` after `setAttribute` keeps the set value, and after `deleteAttribute` it sets the new one. |
| BaseHttp.Init | src/main/java/org/nampython/base/BaseHttp.java:67-71 | The controller is initialised with the configuration. The app-name prefix is set to the empty string only if it is missing, and every other attribute is kept. |
| BaseHttp.CreateRouteAfterInit | src/main/java/org/nampython/base/BaseHttp.java:22-24 | After `init`, a route is the prefix the configuration had (or nothing) followed by the route. |
| BaseHttp.FunctionalityNotFound | src/main/java/org/nampython/base/BaseHttp.java:119-127 | 501, `Content-Type: text/html`, and an HTML page containing the method and the URL. |
| BaseHttp.Service | src/main/java/org/nampython/base/BaseHttp.java:94-112 | The method is upper-cased and dispatched to GET, POST, PUT or DELETE; any other method gets 501. |
| BaseHttp.DefaultsAnswerNotImplemented | src/main/java/org/nampython/base/BaseHttp.java:31-60 | A controller overriding nothing answers every request with 501 and stays intercepting. |
| BaseHttp.LowerCaseGetIsGet | src/main/java/org/nampython/base/BaseHttp.java:94-112 | `get` and `Get` reach `doGet`. |
| BaseHttp.SendRedirect | src/main/java/org/nampython/base/HttpResponseImpl.java:19-23 | 303, the location as the content, and a `Location` header; nothing else changes. |
| Sessions.InitSession | src/main/java/org/nampython/core/SessionManagement.java:29-43 | The request always ends with a session. A valid stored session named by the cookie is attached. Otherwise the fresh session is attached, and for a stale cookie the cookie `JAVACHE_SESSION_ID` is removed. |
| Sessions.SendSession | src/main/java/org/nampython/core/SessionManagement.java:50-65 | Without a session nothing happens. Otherwise the session is stored under its id, and one cookie is added: keep (its id, path `/; expires=…`) or drop (`removed; expires=…`). |
| Sessions.SessionRoundTrip | src/main/java/org/nampython/core/SessionManagement.java:29-65 | A valid session that was sent is found again by the next request of the same context carrying the cookie. |
| Sessions.StaleCookieKeptUnderContext | src/main/java/org/nampython/core/SessionManagement.java:36-38 | With a context path, a stale session cookie is looked up under the suffixed name but removed under the bare name, so it stays on the request. |
| SharedData.Empty | src/main/java/org/nampython/core/RequestHandlerShareData.java:13-15 | A fresh instance holds nothing. |
| SharedData.AddObject | src/main/java/org/nampython/core/RequestHandlerShareData.java:54-60 | Answers true exactly when the key was absent, and stores the object only then. No other key changes. |
| SharedData.FirstWriteWins | src/main/java/org/nampython/core/RequestHandlerShareData.java:54-60 | After any run of `addObject` calls, a key holds its earlier object, or else the first one added under it. |
| Connection.RunChain | src/main/java/org/nampython/core/ConnectionHandler.java:41-46 | Handlers run in order on the state left before them. The first that takes the request is the last invoked. If none takes it, all are invoked once. An exception ends the chain. |
| Connection.ChainAppend | src/main/java/org/nampython/core/ConnectionHandler.java:41-46 | Running `h1 + h2` runs `h2` only when no handler of `h1` took the request, and only on the state `h1` left. |
| Connection.RunCleanup | src/main/java/org/nampython/core/ConnectionHandler.java:54-58 | Every cleanup handler runs in order on the same data until the first exception, which is the one reported. |
| Connection.HandlerRequest | src/main/java/org/nampython/core/ConnectionHandler.java:39-48 | The chain runs over a fresh instance. A handler's exception skips every cleanup, and otherwise the cleanup runs over the chain's data. |
| RequestDestroy.CloseAll | src/main/java/org/nampython/core/RequestDestroyHandler.java:23-29 | Files are closed in order. The first close fault becomes a runtime exception, and the files after it are left open. |
| RequestDestroy.StopsAtFirstFault | src/main/java/org/nampython/core/RequestDestroyHandler.java:23-29 | With the first fault at position k, exactly the files up to k are closed. |
| Fallback.HandleRequest | src/main/java/org/nampython/core/center/FallbackHandler.java:22-28 | Fails with a null-pointer error exactly when there is no response. Otherwise it always ends the chain: the response becomes 404 with the fixed text, it is written once, and the request is kept. |
| Fallback.WritesOneNotFound | src/main/java/org/nampython/core/center/FallbackHandler.java:22-28 | Exactly one 404 is appended to the output. |
| ErrorHandling.WriteException | src/main/java/org/nampython/core/ErrorHandling.java:85-91 | The stack trace becomes the body, and the response is written once. |
| ErrorHandling.HandleRequestTooBig | src/main/java/org/nampython/core/ErrorHandling.java:36-42 | Always 400, always written, always handled, whatever the printing flag says. |
| ErrorHandling.HandleException | src/main/java/org/nampython/core/ErrorHandling.java:66-76 | With printing off: not handled, the response untouched, nothing written. With printing on: the given status and the stack trace, written once. |
| ErrorHandling.WritesOnlyWhenHandled | src/main/java/org/nampython/core/ErrorHandling.java:66-76 | Every outcome writes exactly the response it returns when it handles the request, and nothing otherwise. |
| Loading.SortByOrder | src/main/java/org/nampython/core/LoadingRequestHandler.java:70 | The handlers are sorted ascending by order, as a permutation of the discovered list. |
| Loading.SortIsStable | src/main/java/org/nampython/core/LoadingRequestHandler.java:70 | Handlers with equal orders keep their discovery order. |
| Loading.InitEachOk | src/main/java/org/nampython/core/LoadingRequestHandler.java:81-85 | The `init` loop gets through exactly when no `init` throws, and then holds every handler's initialised self, in order. |
| Loading.InitEachFirstErr | src/main/java/org/nampython/core/LoadingRequestHandler.java:81-85 | When the handler at `k` is the first whose `init` throws, the loop ends with that exception. |
| Loading.LoadRequestHandlers | src/main/java/org/nampython/core/LoadingRequestHandler.java:64-72 | When no `init` throws, the loaded list has one entry per discovered handler, each the initialised self of the handler at that place in sorted order. |
| Loading.LoadFailsAtFirstThrowingInit | src/main/java/org/nampython/core/LoadingRequestHandler.java:64-85 | Loading fails with the exception of the first handler, in sorted order, whose `init` throws. |
| Loading.EachHandlerInitialisedOnce | src/main/java/org/nampython/core/LoadingRequestHandler.java:64-85 | Loading gets through exactly when no discovered handler's `init` throws, and the loaded list then holds the initialised self of every discovered handler, as often as it was discovered and of no other. |
| Loading.Load | src/main/java/org/nampython/core/LoadingRequestHandler.java:47-50 | The loader answers its two lists exactly when no `init` throws, with the cleanup handlers as discovered; otherwise it answers that exception, and the cleanup handlers are never collected. |
| Loading.DefaultChainOrder | src/main/java/org/nampython/core/LoadingRequestHandler.java:64-72 | Whatever the discovery order, the default chain is processor, resource handler, dispatcher, fallback. |
| Loading.DefaultChainLoaded | src/main/java/org/nampython/core/LoadingRequestHandler.java:47-85 | With the default handlers, the loader answers the initialised processor, resource handler, dispatcher and fallback, in that order, unless an `init` throws; then it answers the exception of the first of them, in that order, to throw. |
| Configuration.DefaultServerValues | src/main/java/org/nampython/config/ConfigHandler.java:49-74 | Among the defaults: `MAX_REQUEST_SIZE` = 2147483647, `PRINT_EXCEPTIONS` = true, `MAIN_APP_JAR_NAME` = `ROOT`, `JAVACHE_WORKING_DIRECTORY` = the working directory. |
| Configuration.DefaultResourceValues | src/main/java/org/nampython/config/ConfigHandler.java:49-74 | Also among the defaults: resource caching on, the default caching expression, and handler orders 1 (resources) and 2 (dispatcher). |
| Configuration.ApplyLine | src/main/java/org/nampython/config/ConfigHandler.java:92-105 | Lines that do not count, and keys without a default, are skipped. Otherwise the text is resolved for the current value's class and replaces it. The keys never change. |
| Configuration.ApplyLines | src/main/java/org/nampython/config/ConfigHandler.java:90-106 | The file cannot add keys. |
| Configuration.ApplyLinesValue | src/main/java/org/nampython/config/ConfigHandler.java:90-106 | When the file applies, a key keeps its value unless a line sets it; then it holds what the last such line resolves to. |
| Configuration.KeyValueLine | src/main/java/org/nampython/config/ConfigHandler.java:92-98 | A `key: value` line sets the upper-cased key to the value. |
| Configuration.ApplyEnvironment | src/main/java/org/nampython/config/ConfigHandler.java:112-127 | A set variable is resolved and replaces its setting, and other settings keep their values. The keys never change, and a set variable with no setting of that name is an error. |
| Configuration.HandlerListRoundTrip | src/main/java/org/nampython/config/ConfigHandler.java:132-145 | A handler list written as names joined by `, ` (names without `,` that do not start with white space) reads back as exactly those names, in order. |
| Configuration.Layered | src/main/java/org/nampython/config/ConfigHandler.java:38-40 | The file and environment layers over the defaults never add or remove a setting: the keys are exactly the defaults' keys. |
| Configuration.NewConfigHandler | src/main/java/org/nampython/config/ConfigHandler.java:35-44 | A missing handler file fails before any setting is read. Otherwise the handler list is the split file, and the settings are the layers. |
| Configuration.Precedence | src/main/java/org/nampython/config/ConfigHandler.java:35-44 | The environment beats the file, which beats the default. |
| Configuration.AddConfigParam | src/main/java/org/nampython/config/ConfigHandler.java:192-194 | The value is overwritten or added, and nothing else changes. |
| Configuration.GetConfigParamString | src/main/java/org/nampython/config/ConfigHandler.java:201-208 | The value's text, or none exactly when the setting is absent. |
| Configuration.NewAdditionalConfig | src/main/java/org/nampython/config/AdditionalConfig.java:6-9 | Runtime entries overwrite every earlier layer, and other keys keep their layered value. The handler list is never loaded, so a missing handler file never fails. |
| Configuration.RuntimeMayAddKeys | src/main/java/org/nampython/config/AdditionalConfig.java:6-19 | The runtime map can add a key without a default, which the file layer cannot, and the handler file is ignored. |
| Text.TrimEmptyIff | src/main/java/org/nampython/core/FormDataParserDefault.java:54 | `trim()` is empty exactly when every character is white space (at most a space). |
| Text.NatToStringRoundTrip | src/main/java/org/nampython/core/engine/ResourceHandler.java:210 | The decimal text of a size reads back as that size. |

## Left out

- Socket I/O, the accept loop, and threads are left out. A connection's output is a sequence of writes: a response snapshot or a file's bytes. `BaseHttpResponseImpl.getBytes` is not shown, so a response is written as the record itself.
- RequestProcessor.HandleRequest: the too-big path assumes that `disposeInputStream` ends without an I/O fault. The loop never ends when the body is shorter than its `Content-Length` (see Findings), and an `IOException` from it escapes the handler with no 400 written. The disposal loop is modelled on its own, with every byte the client sent counted as available. The model also does not close the socket. An illegal character after a carriage return makes the source close the input stream, and with it the socket, before it throws (`RequestProcessor.java:290`). So when exception printing is on, the write of that 400 fails, its `IOException` leaves the handler, and the cleanup handlers do not run. When printing is off, the next handler's stream access fails instead. Either way the connection ends in an I/O exception, while the model answers as for any other parse error.
- The metadata loop is a parameter of the request pipeline: the server runs the loop as written, and the corrected loop is there to state the finding.
- Connection.Run: an error from a handler ends the run with that error, and the writes made before it are not part of the result.
- `getContentType()` is not shown. It is taken to read the `Content-Type` header, which is what the multipart check in `parseHttpRequest` reads.
- `Integer.parseInt` is a parameter. Only `RequestProcessor.DefaultLimitNeverTooBig` bounds it to `int`. With that bound and the default `MAX_REQUEST_SIZE` of 2147483647, a request is never too big; the too-big path matters only for a smaller configured limit.
- `transferStream` is left out: streaming a file is one `FileBytes` write.
- File existence, the path templates (`PathUtil`), media-type detection (`TikaBase`) and the file size from `available()` are parameters.
- `URLDecoder.decode`, `Integer.parseInt`, UTF-8 decoding and `PrimitiveTypeDataResolver.resolve` are parameters. The model states only that a failure is an error.
- `toUpperCase` is modelled on ASCII letters only.
- `Throwable.printStackTrace` text, RFC 1123 expiry dates, `new Date(0).toString()` and fresh session ids are opaque inputs.
- The multipart body parser is a parameter. The `FormDataParserProvider` enum is unused by the code and is not modelled.
- `HttpSessionStorageImpl.refreshSessions` is a parameter applied once.
- Reflection and class scanning are left out: `loadClass`, `getSoletAnnotation`, `findControllerClasses`, `makeAppAssetDir`, `createDispatcherConfig`, startup and DI wiring, and `Logger`. A controller class is given as its annotation route and its instance.
- `HttpRequest.isResource` is a parameter.
- `SoletConstants.SOLET_CONFIG_APP_NAME_PREFIX` is not shown. It is taken to be the key `cfg.app.name.prefix`.
- The `HttpResponseImpl` setters and getters only forward to the wrapped response. The model has one response record, so forwarding is the identity, and the setters are the record updates `WithStatus`, `WithHeader`, `WithContent` and `WithCookie`.
- The `init()` of each handler is a parameter of the loader that may throw. The resource handler's start-up, which fails on a bad caching expression, is `ResourceHandler.NewHandler`, and the dispatcher's application loading is `Dispatching.LoadAll`. The loader's lemmas state only what loading does when one of them throws. After a throw the source's handler list holds the sorted, partly initialised handlers. That state is not modelled, because the exception leaves loading and the server start-up exits.
- `order()` of the resource handler and the dispatcher reads the configuration. The loader's lemma uses the defaults, 1 and 2.
- `ResourceHandler.initialize` reads `MAIN_APP_JAR_NAME` through `getConfigParamString`; the model takes the name as a string.
- Dispatching.HandleRequest: a missing response object on the path that runs a controller fails as a null-pointer error. In the source the wrapper would fail later, inside the controller; the controller's exception is swallowed there.
- Sessions.SendSession: stores the request's session under its id even when the id is already present, while the source adds it only when absent. The stored session is then the same Java object as the request's, so the stored content agrees; the model's store holds values, not shared objects.
- Configuration.ApplyLinesValue: states that the value was resolved from the winning line's text, not which class it was resolved for.
- Configuration.Precedence: states the resolved value in the same form.
- Configuration.ApplyEnvironment: states the resolved value in the same form.
- Configuration.ValueText: the text of an array value (`String[]`'s `toString()`) is a parameter.
- Configuration.Defaults: the size of the default map is not stated; the values the rest of the server reads are.
- A header is split on every `:\s+` and token 1 is kept, as the code does. An informal reading would split at the first colon only. `RequestProcessor.HeaderValueCutAtColon` states the behaviour of the code.

## Findings

| source | as written | input that shows it | evidently intended | confidence | as-written member | corrected member |
|---|---|---|---|---|---|---|
| src/main/java/org/nampython/core/engine/RequestProcessor.java:280-318 | When the stream ends right after a CR, the loop adds the current line and leaves with `break` before it resets the line buffer. The check after the loop then adds the same buffer again. | `GET / HTTP/1.1` followed by a single CR and the end of the stream. The request line comes back twice, the second copy is read as a header, it has no `:\s+`, and the request is answered 400 (`RequestProcessor.ReturnAtEndAnswersBadRequest`). | Each line is added once, so the lines are exactly the bytes read, without terminators. | not executed | Metadata.ReturnAtEndRepeatsLine | Metadata.LinesKeepPayload |
| src/main/java/org/nampython/core/engine/RequestProcessor.java:101-111 | `disposeInputStream` loops while `leftToRead > 0` and subtracts `min(2048, available())` each turn. Once the client has sent all it will send, every turn subtracts 0. | `MAX_REQUEST_SIZE` configured as 10, and a request declaring `Content-Length: 100` that sends 20 body bytes. After those 20 bytes `leftToRead` is 80, and no later turn changes it, so the connection's thread never returns. | The loop also stops when there is nothing left to read, after reading every byte sent. | not executed | RequestProcessor.ShortBodyNeverDisposed | RequestProcessor.DisposeCorrected |

=== FILE: attributes.dfy ===
/** `DispatcherConfig`: the attribute map handed to every controller at
    `init`. The controllers' own `SoletConfig` is read and written through
    the same operations. Attribute values are strings in this model. */
module Attributes {
  import opened Wrappers

  datatype Config = Config(attributes: map<string, string>)

  function EmptyConfig(): (c: Config)
    ensures forall k :: !HasAttribute(c, k)
  {
    Config(map[])
  }

  predicate HasAttribute(c: Config, name: string) {
    name in c.attributes
  }

  /** `getAttribute`: the value, or `None` (Java's `null`). */
  function GetAttribute(c: Config, name: string): (r: Option<string>)
    ensures r.Some? <==> HasAttribute(c, name)
  {
    Get(c.attributes, name)
  }

  /** `setAttribute`: `put`, so an existing value is overwritten. */
  function SetAttribute(c: Config, name: string, value: string): (r: Config)
    ensures GetAttribute(r, name) == Some(value)
    ensures forall k :: k != name ==> GetAttribute(r, k) == GetAttribute(c, k)
  {
    Config(c.attributes[name := value])
  }

  /** `setIfMissing`: `putIfAbsent`, so an existing value is never replaced. */
  function SetIfMissing(c: Config, name: string, value: string): (r: Config)
    ensures HasAttribute(c, name) ==> r == c
    ensures !HasAttribute(c, name) ==> GetAttribute(r, name) == Some(value)
    ensures forall k :: k != name ==> GetAttribute(r, k) == GetAttribute(c, k)
  {
    if name in c.attributes then c else Config(c.attributes[name := value])
  }

  /** `deleteAttribute`: `remove`; removing an absent name changes nothing. */
  function DeleteAttribute(c: Config, name: string): (r: Config)
    ensures !HasAttribute(r, name)
    ensures forall k :: k != name ==> GetAttribute(r, k) == GetAttribute(c, k)
    ensures !HasAttribute(c, name) ==> r == c
  {
    Config(c.attributes - {name})
  }

  /** `getAllAttributes`: a read-only view. The model's maps are values, so
      nothing done with the view can change the configuration. */
  function AllAttributes(c: Config): (r: map<string, string>)
    ensures forall k :: k in r <==> HasAttribute(c, k)
    ensures forall k :: k in r ==> GetAttribute(c, k) == Some(r[k])
  {
    c.attributes
  }

  /** `setIfMissing` after `setAttribute` of the same name keeps the set value,
      while after `deleteAttribute` it stores the new one. */
  lemma SetIfMissingAfterSetOrDelete(c: Config, name: string, v: string, w: string)
    ensures SetIfMissing(SetAttribute(c, name, v), name, w) == SetAttribute(c, name, v)
    ensures GetAttribute(SetIfMissing(DeleteAttribute(c, name), name, w), name) == Some(w)
  {
  }
}

=== FILE: base_http.dfy ===
/** `BaseHttp`, the base class of every controller ("solet"), and the
    `sendRedirect` of the response wrapper controllers are given. A
    controller's own `doGet`/`doPost`/`doPut`/`doDelete` are user code: each
    is either the inherited default or an abstract action. */
module BaseHttp {
  import opened Wrappers
  import opened Text
  import opened Http
  import opened Attributes

  /** `SoletConstants.SOLET_CONFIG_APP_NAME_PREFIX`, taken to be the key the
      dispatcher writes (`cfg.app.name.prefix`). */
  const AppNamePrefix := "cfg.app.name.prefix"

  /** What a controller method leaves behind: the `hasIntercepted` flag it may
      have set, the request and response as it left them, and the exception
      it threw, if any (changes made before the throw persist). */
  datatype Outcome = Outcome(intercepted: bool, request: Request, response: Response, thrown: Option<Exn>)

  /** An overriding `doX`: from the current flag, request and response. */
  type Action = (bool, Request, Response) -> Outcome

  /** A controller instance. `None` for a `doX` means it is not overridden. */
  datatype Controller = Controller(
    initialized: bool,
    intercepted: bool,
    config: Option<Config>,
    doGet: Option<Action>,
    doPost: Option<Action>,
    doPut: Option<Action>,
    doDelete: Option<Action>)

  /** The constructor: not initialised, and intercepting. */
  function NewController(doGet: Option<Action>, doPost: Option<Action>, doPut: Option<Action>, doDelete: Option<Action>): (c: Controller)
    ensures !c.initialized && c.intercepted && c.config.None?
    ensures c.doGet == doGet && c.doPost == doPost && c.doPut == doPut && c.doDelete == doDelete
  {
    Controller(false, true, None, doGet, doPost, doPut, doDelete)
  }

  /** `setHasIntercepted`: the value `hasIntercepted()` returns from now on. */
  function SetHasIntercepted(c: Controller, intercepted: bool): (r: Controller)
    ensures r.intercepted == intercepted
    ensures r == c.(intercepted := r.intercepted)
  {
    c.(intercepted := intercepted)
  }

  /** `init`: keeps the configuration, gives it an empty app-name prefix when
      it has none, and marks the controller initialised. */
  function Init(c: Controller, cfg: Config): (r: Controller)
    ensures r.initialized && r.config.Some?
    ensures GetAttribute(r.config.value, AppNamePrefix) ==
      if HasAttribute(cfg, AppNamePrefix) then GetAttribute(cfg, AppNamePrefix) else Some("")
    ensures forall k :: k != AppNamePrefix ==> GetAttribute(r.config.value, k) == GetAttribute(cfg, k)
    ensures r == c.(initialized := true, config := r.config)
  {
    c.(initialized := true, config := Some(SetIfMissing(cfg, AppNamePrefix, "")))
  }

  /** `createRoute`: the prefix attribute followed by the route. Before `init`
      there is no configuration (`NullPointerException`); a missing attribute
      is concatenated as the text `null`. */
  function CreateRoute(c: Controller, route: string): (r: Result<string, Exn>)
    ensures c.config.None? <==> r.Err?
    ensures r.Err? ==> r.error == NullPointer
    ensures r.Ok? ==> var p := GetAttribute(c.config.value, AppNamePrefix);
      r.value == (if p.Some? then p.value else "null") + route
  {
    match c.config
    case None => Err(NullPointer)
    case Some(cfg) =>
      match GetAttribute(cfg, AppNamePrefix)
      case Some(prefix) => Ok(prefix + route)
      case None => Ok("null" + route)
  }

  /** After `init`, a route is the prefix the configuration had (or nothing)
      followed by the route. */
  lemma CreateRouteAfterInit(c: Controller, cfg: Config, route: string)
    ensures var p := GetAttribute(cfg, AppNamePrefix);
      CreateRoute(Init(c, cfg), route) == Ok((if p.Some? then p.value else "") + route)
  {
  }

  const NotFoundOpen := "<h1>[ERROR] "
  const NotFoundClose := " </h1><br/><h3>[MESSAGE] The page or functionality you are looking for is not found.</h3>"

  /** `functionalityNotFound`: 501, an HTML content type, and a page naming
      the method and the URL. */
  function FunctionalityNotFound(request: Request, response: Response): (r: Response)
    ensures r.status == Some(NotImplemented)
    ensures r.headers == response.headers["Content-Type" := "text/html"]
    ensures r.cookies == response.cookies
    ensures r.content.TextContent?
    ensures StartsWith(r.content.text, NotFoundOpen)
    ensures OccursAt(r.content.text, request.verb + " " + request.url, |NotFoundOpen|)
    ensures |r.content.text| == |NotFoundOpen| + |request.verb| + 1 + |request.url| + |NotFoundClose|
  {
    var page := NotFoundOpen + request.verb + " " + request.url + NotFoundClose;
    assert page[|NotFoundOpen|..|NotFoundOpen| + |request.verb + " " + request.url|] == request.verb + " " + request.url;
    response.WithStatus(NotImplemented).WithHeader("Content-Type", "text/html").WithContent(TextContent(page))
  }

  /** One `doX`: the override when there is one, the 501 page otherwise. */
  function Run(action: Option<Action>, c: Controller, request: Request, response: Response): (o: Outcome)
    ensures action.None? ==> o == Outcome(c.intercepted, request, FunctionalityNotFound(request, response), None)
    ensures action.Some? ==> o == action.value(c.intercepted, request, response)
  {
    match action
    case None => Outcome(c.intercepted, request, FunctionalityNotFound(request, response), None)
    case Some(f) => f(c.intercepted, request, response)
  }

  /** The `doX` that `service` picks for a method, compared upper-cased. */
  function Handler(c: Controller, verb: string): Option<Action> {
    var v := Upper(verb);
    if v == "GET" then c.doGet
    else if v == "POST" then c.doPost
    else if v == "PUT" then c.doPut
    else if v == "DELETE" then c.doDelete
    else None
  }

  /** `service`: dispatches on the upper-cased method; any other method gets
      the 501 page. */
  function Service(c: Controller, request: Request, response: Response): (o: Outcome)
    ensures Upper(request.verb) !in {"GET", "POST", "PUT", "DELETE"} ==>
      o == Outcome(c.intercepted, request, FunctionalityNotFound(request, response), None)
    ensures Upper(request.verb) == "GET" ==> o == Run(c.doGet, c, request, response)
    ensures Upper(request.verb) == "POST" ==> o == Run(c.doPost, c, request, response)
    ensures Upper(request.verb) == "PUT" ==> o == Run(c.doPut, c, request, response)
    ensures Upper(request.verb) == "DELETE" ==> o == Run(c.doDelete, c, request, response)
  {
    Run(Handler(c, request.verb), c, request, response)
  }

  /** A controller that overrides nothing answers every request with 501 and
      keeps intercepting. */
  lemma DefaultsAnswerNotImplemented(request: Request, response: Response)
    ensures var o := Service(NewController(None, None, None, None), request, response);
      o.intercepted && o.thrown.None? && o.request == request &&
      o.response.status == Some(NotImplemented) && o.response.headers["Content-Type"] == "text/html"
  {
  }

  /** Method names are matched whatever their case: `get` and `Get` reach `doGet`. */
  lemma LowerCaseGetIsGet(c: Controller, request: Request, response: Response)
    requires request.verb == "get" || request.verb == "Get"
    ensures Service(c, request, response) == Run(c.doGet, c, request, response)
  {
    assert Upper(request.verb) == "GET";
  }

  /** `HttpResponseImpl.sendRedirect`: 303, the location as the content, and
      a `Location` header. The wrapper's other setters and getters forward to
      the wrapped response unchanged, which in this model is the response
      value itself. */
  function SendRedirect(response: Response, location: string): (r: Response)
    ensures r.status == Some(SeeOther)
    ensures r.content == TextContent(location)
    ensures Get(r.headers, "Location") == Some(location)
    ensures forall k :: k != "Location" ==> Get(r.headers, k) == Get(response.headers, k)
    ensures r.cookies == response.cookies
  {
    response.WithStatus(SeeOther).WithContent(TextContent(location)).WithHeader("Location", location)
  }
}

=== FILE: caching.dfy ===
/** `ResourceHandler.CachingExpressingParser`: the small language that maps
    media types to `Cache-Control` values, e.g.
    `image/png, image/gif @ max-age=120 & text/css @ max-age=84600, public`.
    Clauses are separated by `\s*&\s*`; in each, the media types before
    `\s*@\s*` are separated by `,\s*` and the directive after it is trimmed. */
module CachingExpression {
  import opened Wrappers
  import opened Text
  import opened Split
  import opened Http
  import opened UrlPairs

  /** `DEFAULT_CACHING_EXPRESSION` of `ConstantsPool`, assembled from its
      three clauses; the characters are exactly those of the Java literal. */
  const DefaultCachingExpression := ImageExpression + " & " + (CssExpression + " & " + ScriptExpression)
  const ImageExpression := "image/png" + ", " + ("image/gif" + ", " + "image/jpeg") + " @ " + "max-age=120"
  const CssExpression := "text/css" + " @ " + "max-age=84600, public"
  const ScriptExpression := "application/javascript" + " @ " + "max-age=7200"

  /** The `(media type, directive)` puts of one clause, in order. A clause
      without `@` has no token 1, and the lookup fails. */
  function ClauseEntries(clause: string): (r: Result<seq<(string, string)>, Exn>)
    ensures r.Ok? <==> |JavaSplit(clause, SpacedAt)| >= 2
    ensures r.Ok? ==> var tokens := JavaSplit(clause, SpacedAt);
      var types := JavaSplit(tokens[0], CommaAnySpaces);
      |r.value| == |types| &&
      forall i :: 0 <= i < |types| ==> r.value[i] == (Trim(types[i]), Trim(tokens[1]))
  {
    var tokens := JavaSplit(clause, SpacedAt);
    if |tokens| < 2 then Err(IndexOutOfBounds)
    else
      var directive := Trim(tokens[1]);
      var types := JavaSplit(tokens[0], CommaAnySpaces);
      Ok(seq(|types|, i requires 0 <= i < |types| => (Trim(types[i]), directive)))
  }

  /** The puts of all clauses, in order; the first bad clause stops the parse. */
  function ExpressionEntries(clauses: seq<string>): Result<seq<(string, string)>, Exn>
    decreases |clauses|
  {
    if |clauses| == 0 then Ok([])
    else
      var first :- ClauseEntries(clauses[0]);
      var rest :- ExpressionEntries(clauses[1..]);
      Ok(first + rest)
  }

  /** The parse of the clause list succeeds exactly when every clause does. */
  lemma {:induction false} ExpressionEntriesOk(clauses: seq<string>)
    ensures ExpressionEntries(clauses).Ok? <==> forall i :: 0 <= i < |clauses| ==> ClauseEntries(clauses[i]).Ok?
    decreases |clauses|
  {
    if |clauses| > 0 {
      ExpressionEntriesOk(clauses[1..]);
      assert forall i :: 1 <= i < |clauses| ==> clauses[i] == clauses[1..][i - 1];
    }
  }

  /** `parseExpression`: every failure inside the loop is rethrown as a
      `CannotParseExpressionException` about the whole expression. */
  function ParseExpression(text: string): (r: Result<map<string, string>, Exn>)
    ensures var clauses := JavaSplit(text, SpacedAmp);
      r.Ok? <==> forall i :: 0 <= i < |clauses| ==> |JavaSplit(clauses[i], SpacedAt)| >= 2
    ensures r.Err? ==> r.error == CannotParseExpression(text)
    ensures r.Ok? <==> ExpressionEntries(JavaSplit(text, SpacedAmp)).Ok?
    ensures r.Ok? ==> r.value == PutAll(map[], ExpressionEntries(JavaSplit(text, SpacedAmp)).value)
  {
    ExpressionEntriesOk(JavaSplit(text, SpacedAmp));
    match ExpressionEntries(JavaSplit(text, SpacedAmp))
    case Ok(entries) => Ok(PutAll(map[], entries))
    case Err(_) => Err(CannotParseExpression(text))
  }

  /** A clause without `@` makes the whole expression fail. */
  lemma ClauseWithoutAtFails(text: string, i: nat)
    requires i < |JavaSplit(text, SpacedAmp)| && '@' !in JavaSplit(text, SpacedAmp)[i]
    ensures ParseExpression(text) == Err(CannotParseExpression(text))
  {
    NoCoreOnePiece(JavaSplit(text, SpacedAmp)[i], '@', SpacedAt);
  }

  // ------------------------------------------------------------- rendering

  /** `String.join(d, ps)`. */
  function JoinWith(ps: seq<string>, d: string): string
    decreases |ps|
  {
    if |ps| == 0 then [] else if |ps| == 1 then ps[0] else ps[0] + d + JoinWith(ps[1..], d)
  }

  /** A clause as written by hand: its media types and its directive. */
  datatype Clause = Clause(types: seq<string>, directive: string)

  function RenderClause(c: Clause): string {
    JoinWith(c.types, ", ") + " @ " + c.directive
  }

  function RenderedClauses(cs: seq<Clause>): (r: seq<string>)
    ensures |r| == |cs| && forall i :: 0 <= i < |cs| ==> r[i] == RenderClause(cs[i])
    decreases |cs|
  {
    if |cs| == 0 then [] else [RenderClause(cs[0])] + RenderedClauses(cs[1..])
  }

  /** The expression text for `cs`: rendered clauses joined with ` & `. */
  function Render(cs: seq<Clause>): string {
    JoinWith(RenderedClauses(cs), " & ")
  }

  /** One put per media type, each with the clause's directive. */
  function Puts(types: seq<string>, directive: string): (r: seq<(string, string)>)
    ensures |r| == |types| && forall i :: 0 <= i < |types| ==> r[i] == (types[i], directive)
    decreases |types|
  {
    if |types| == 0 then [] else [(types[0], directive)] + Puts(types[1..], directive)
  }

  /** The puts a well-formed clause list stands for. */
  function Entries(cs: seq<Clause>): seq<(string, string)>
    decreases |cs|
  {
    if |cs| == 0 then []
    else Puts(cs[0].types, cs[0].directive) + Entries(cs[1..])
  }

  /** A media type: non-empty, no white space or control characters, and none
      of the separators `,`, `&`, `@`. */
  predicate MediaType(t: string) {
    t != [] && forall i :: 0 <= i < |t| ==> !Trimmable(t[i]) && t[i] != ',' && t[i] != '&' && t[i] != '@'
  }

  /** A directive: non-empty, trimmed, and free of `&` and `@`; it may hold
      commas and inner spaces. */
  predicate Directive(d: string) {
    d != [] && !Trimmable(d[0]) && !Trimmable(d[|d| - 1]) && '&' !in d && '@' !in d
  }

  predicate WellFormed(c: Clause) {
    |c.types| >= 1 && Directive(c.directive) && forall i :: 0 <= i < |c.types| ==> MediaType(c.types[i])
  }

  /** What splitting on `\s*c\s*` needs of a piece: it is non-empty, does
      not start or end with white space, and holds no `c`. */
  predicate Edged(s: string, c: char) {
    s != [] && !IsSpace(s[0]) && !IsSpace(s[|s| - 1]) && c !in s
  }

  lemma MediaTypeText(t: string)
    requires MediaType(t)
    ensures Edged(t, '@') && Edged(t, '&') && ',' !in t
  {
    assert !Trimmable(t[0]) && !Trimmable(t[|t| - 1]);
  }

  /** Joining keeps the outer characters, and adds no `c` that the parts
      and the delimiter do not hold. */
  lemma JoinedEdged(a: string, d: string, b: string, c: char)
    requires Edged(a, c) && Edged(b, c) && c !in d
    ensures Edged(a + d + b, c)
  {
    var s := a + d + b;
    assert s[0] == a[0] && s[|s| - 1] == b[|b| - 1];
    assert forall k :: 0 <= k < |s| ==> s[k] in a || s[k] in d || s[k] in b;
  }

  lemma {:induction false} TypesJoinShape(types: seq<string>)
    requires |types| >= 1 && forall i :: 0 <= i < |types| ==> MediaType(types[i])
    ensures Edged(JoinWith(types, ", "), '@') && Edged(JoinWith(types, ", "), '&')
    ensures Pieces(JoinWith(types, ", "), CommaAnySpaces) == types
    decreases |types|
  {
    MediaTypeText(types[0]);
    if |types| == 1 {
      NoCoreOnePiece(types[0], ',', CommaAnySpaces);
    } else {
      var rest := JoinWith(types[1..], ", ");
      TypesJoinShape(types[1..]);
      var s := types[0] + [','] + " " + rest;
      assert JoinWith(types, ", ") == s;
      TrailingSpacesPiecesCons(types[0], ',', rest, CommaAnySpaces);
      assert types == [types[0]] + types[1..];
      JoinedEdged(types[0], ", ", rest, '@');
      JoinedEdged(types[0], ", ", rest, '&');
    }
  }

  lemma ClauseTokens(c: Clause)
    requires WellFormed(c)
    ensures JavaSplit(RenderClause(c), SpacedAt) == [JoinWith(c.types, ", "), c.directive]
  {
    var a := JoinWith(c.types, ", ");
    TypesJoinShape(c.types);
    assert RenderClause(c) == a + " " + ['@'] + " " + c.directive;
    SpacedPiecesCons(a, '@', c.directive, SpacedAt);
    NoCoreOnePiece(c.directive, '@', SpacedAt);
    assert Pieces(RenderClause(c), SpacedAt) == [a, c.directive];
  }

  /** The media types of a rendered clause split and trim back to themselves. */
  lemma ClauseTypes(c: Clause)
    requires WellFormed(c)
    ensures JavaSplit(JoinWith(c.types, ", "), CommaAnySpaces) == c.types
    ensures forall i :: 0 <= i < |c.types| ==> Trim(c.types[i]) == c.types[i]
    ensures Trim(c.directive) == c.directive
  {
    TypesSplitBack(c.types);
    TrimKeeps(c.directive);
    forall i | 0 <= i < |c.types| ensures Trim(c.types[i]) == c.types[i] {
      MediaTypeTrimmed(c.types[i]);
    }
  }

  lemma TypesSplitBack(types: seq<string>)
    requires |types| >= 1 && forall i :: 0 <= i < |types| ==> MediaType(types[i])
    ensures JavaSplit(JoinWith(types, ", "), CommaAnySpaces) == types
  {
    TypesJoinShape(types);
    assert types[|types| - 1] != [];
    JavaSplitKeeps(JoinWith(types, ", "), CommaAnySpaces, |types| - 1);
  }

  lemma MediaTypeTrimmed(t: string)
    requires MediaType(t)
    ensures Trim(t) == t
  {
    assert !Trimmable(t[0]) && !Trimmable(t[|t| - 1]);
    TrimKeeps(t);
  }

  /** A clause whose two tokens split and trim back to `types` and `directive`
      yields one put per media type. */
  lemma EntriesOfTokens(clause: string, types: seq<string>, directive: string)
    requires |JavaSplit(clause, SpacedAt)| == 2
    requires Trim(JavaSplit(clause, SpacedAt)[1]) == directive
    requires JavaSplit(JavaSplit(clause, SpacedAt)[0], CommaAnySpaces) == types
    requires forall i :: 0 <= i < |types| ==> Trim(types[i]) == types[i]
    ensures ClauseEntries(clause) == Ok(Puts(types, directive))
  {
    var r := ClauseEntries(clause);
    var expected := Puts(types, directive);
    assert r.Ok? && |r.value| == |expected|;
    assert forall i :: 0 <= i < |types| ==> r.value[i] == expected[i];
    assert r.value == expected;
  }

  /** A rendered clause parses back into its own puts. */
  lemma ClauseRoundTrip(c: Clause)
    requires WellFormed(c)
    ensures ClauseEntries(RenderClause(c)) == Ok(Puts(c.types, c.directive))
  {
    var tokens := JavaSplit(RenderClause(c), SpacedAt);
    ClauseTokens(c);
    assert tokens[0] == JoinWith(c.types, ", ") && tokens[1] == c.directive;
    ClauseTypes(c);
    EntriesOfTokens(RenderClause(c), c.types, c.directive);
  }

  lemma ClauseText(c: Clause)
    requires WellFormed(c)
    ensures Edged(RenderClause(c), '&')
  {
    TypesJoinShape(c.types);
    var d := c.directive;
    assert Edged(d, '&') by {
      assert !Trimmable(d[0]) && !Trimmable(d[|d| - 1]);
    }
    JoinedEdged(JoinWith(c.types, ", "), " @ ", d, '&');
  }

  lemma {:induction false} RenderShape(cs: seq<Clause>)
    requires |cs| >= 1 && forall i :: 0 <= i < |cs| ==> WellFormed(cs[i])
    ensures !IsSpace(Render(cs)[0]) && !IsSpace(Render(cs)[|Render(cs)| - 1]) && Render(cs) != []
    ensures Pieces(Render(cs), SpacedAmp) == RenderedClauses(cs)
    decreases |cs|
  {
    var head := RenderClause(cs[0]);
    ClauseText(cs[0]);
    if |cs| == 1 {
      NoCoreOnePiece(head, '&', SpacedAmp);
    } else {
      RenderShape(cs[1..]);
      var rest := Render(cs[1..]);
      assert RenderedClauses(cs) == [head] + RenderedClauses(cs[1..]);
      assert Render(cs) == head + " " + ['&'] + " " + rest;
      SpacedPiecesCons(head, '&', rest, SpacedAmp);
      var r := Render(cs);
      assert r[0] == head[0] && r[|r| - 1] == rest[|rest| - 1];
    }
  }

  lemma {:induction false} ExpressionEntriesOfRender(cs: seq<Clause>)
    requires forall i :: 0 <= i < |cs| ==> WellFormed(cs[i])
    ensures ExpressionEntries(RenderedClauses(cs)) == Ok(Entries(cs))
    decreases |cs|
  {
    if |cs| > 0 {
      ExpressionEntriesOfRender(cs[1..]);
      assert RenderedClauses(cs)[1..] == RenderedClauses(cs[1..]);
      ClauseRoundTrip(cs[0]);
    }
  }

  /** Parsing inverts rendering: a well-formed expression yields exactly
      the puts of its clauses, in order, so a later clause wins. */
  lemma ParseRender(cs: seq<Clause>)
    requires |cs| >= 1 && forall i :: 0 <= i < |cs| ==> WellFormed(cs[i])
    ensures ParseExpression(Render(cs)) == Ok(PutAll(map[], Entries(cs)))
  {
    RenderShape(cs);
    var clauses := RenderedClauses(cs);
    ClauseText(cs[|cs| - 1]);
    assert clauses[|cs| - 1] != [];
    assert JavaSplit(Render(cs), SpacedAmp) == clauses;
    ExpressionEntriesOfRender(cs);
  }

  /** In a well-formed expression a media type gets the directive of the
      last clause that names it, and no entry at all when no clause does. */
  lemma LastClauseWins(cs: seq<Clause>, t: string)
    requires |cs| >= 1 && forall i :: 0 <= i < |cs| ==> WellFormed(cs[i])
    ensures ParseExpression(Render(cs)).Ok?
    ensures Get(ParseExpression(Render(cs)).value, t) == LastFor(Entries(cs), t)
  {
    ParseRender(cs);
    PutAllLastWins(map[], Entries(cs), t);
  }

  /** The clauses of the default expression. */
  function DefaultClauses(): seq<Clause> {
    [ImageClause, CssClause, ScriptClause]
  }

  const ImageClause := Clause(["image/png", "image/gif", "image/jpeg"], "max-age=120")
  const CssClause := Clause(["text/css"], "max-age=84600, public")
  const ScriptClause := Clause(["application/javascript"], "max-age=7200")

  lemma ImageTypes()
    ensures MediaType("image/png") && MediaType("image/gif") && MediaType("image/jpeg")
  {
    assert MediaType("image/png");
    assert MediaType("image/gif");
  }

  lemma ImageTypesJoined()
    ensures JoinWith(ImageClause.types, ", ") == "image/png" + ", " + ("image/gif" + ", " + "image/jpeg")
  {
    var ts := ImageClause.types;
    assert ts[1..][1..] == ["image/jpeg"];
    assert JoinWith(ts[1..], ", ") == "image/gif" + ", " + "image/jpeg";
  }

  lemma ImageClauseText()
    ensures WellFormed(ImageClause)
    ensures RenderClause(ImageClause) == ImageExpression
  {
    ImageTypes();
    assert Directive("max-age=120");
    ImageTypesJoined();
  }

  lemma CssClauseText()
    ensures WellFormed(CssClause)
    ensures RenderClause(CssClause) == CssExpression
  {
    assert MediaType("text/css");
    assert Directive("max-age=84600, public");
  }

  lemma ScriptClauseText()
    ensures WellFormed(ScriptClause)
    ensures RenderClause(ScriptClause) == ScriptExpression
  {
    assert MediaType("application/javascript");
  }

  lemma DefaultClausesWellFormed()
    ensures forall i :: 0 <= i < |DefaultClauses()| ==> WellFormed(DefaultClauses()[i])
  {
    ImageClauseText();
    CssClauseText();
    ScriptClauseText();
  }

  lemma DefaultClausesRender()
    ensures Render(DefaultClauses()) == DefaultCachingExpression
  {
    var cs := DefaultClauses();
    ImageClauseText();
    CssClauseText();
    ScriptClauseText();
    var ps := [ImageExpression, CssExpression, ScriptExpression];
    assert RenderedClauses(cs) == ps;
    assert ps[1..][1..] == [ScriptExpression];
    assert JoinWith(ps[1..], " & ") == CssExpression + " & " + ScriptExpression;
  }

  lemma DefaultClausesEntries()
    ensures PutAll(map[], Entries(DefaultClauses())) == map[
      "image/png" := "max-age=120", "image/gif" := "max-age=120", "image/jpeg" := "max-age=120",
      "text/css" := "max-age=84600, public", "application/javascript" := "max-age=7200"]
  {
    var cs := DefaultClauses();
    var es := [("image/png", "max-age=120"), ("image/gif", "max-age=120"), ("image/jpeg", "max-age=120"),
               ("text/css", "max-age=84600, public"), ("application/javascript", "max-age=7200")];
    assert Entries(cs[2..]) == [("application/javascript", "max-age=7200")];
    assert Entries(cs[1..]) == [("text/css", "max-age=84600, public")] + Entries(cs[2..]);
    assert Entries(cs) == es;
    var m1 := map["image/png" := "max-age=120"];
    var m2 := m1["image/gif" := "max-age=120"];
    var m3 := m2["image/jpeg" := "max-age=120"];
    var m4 := m3["text/css" := "max-age=84600, public"];
    assert es[..1][..0] == [];
    assert PutAll(map[], es[..1]) == m1;
    assert es[..2][..1] == es[..1];
    assert PutAll(map[], es[..2]) == m2;
    assert es[..3][..2] == es[..2];
    assert PutAll(map[], es[..3]) == m3;
    assert es[..4][..3] == es[..3];
    assert PutAll(map[], es[..4]) == m4;
    assert es[..4] == es[..|es| - 1];
  }

  /** The default expression gives `max-age=120` to the three image types,
      `max-age=84600, public` to CSS and `max-age=7200` to JavaScript. */
  lemma DefaultExpressionMap()
    ensures ParseExpression(DefaultCachingExpression) == Ok(map[
      "image/png" := "max-age=120", "image/gif" := "max-age=120", "image/jpeg" := "max-age=120",
      "text/css" := "max-age=84600, public", "application/javascript" := "max-age=7200"])
  {
    DefaultClausesWellFormed();
    DefaultClausesRender();
    DefaultClausesEntries();
    ParseRender(DefaultClauses());
  }
}

=== FILE: config.dfy ===
/** `ConfigHandler` and `AdditionalConfig`: the server's settings, layered as
    built-in defaults, then the lines of `config.ini`, then environment
    variables, then (for `AdditionalConfig`) a runtime map; and the list of
    request-handler names read from `request-handlers.ini`. */
module Configuration {
  import opened Wrappers
  import opened Text
  import opened Split
  import opened Http
  import RequestProcessor
  import CachingExpression

  /** A setting's value; its constructor is its Java class. */
  datatype Value = IntValue(i: int) | BoolValue(b: bool) | TextValue(s: string) | TextsValue(ts: seq<string>)

  datatype Kind = IntKind | BoolKind | TextKind | TextsKind

  function KindOf(v: Value): Kind {
    match v
    case IntValue(_) => IntKind
    case BoolValue(_) => BoolKind
    case TextValue(_) => TextKind
    case TextsValue(_) => TextsKind
  }

  /** `PrimitiveTypeDataResolver.resolve(class, text)`, which is outside this
      model; an `Err` is the exception it raises. */
  type Resolver = (Kind, string) -> Result<Value, Exn>

  /** The value `resolve` makes of `text` for some class. */
  ghost predicate ResolvedFrom(resolve: Resolver, text: string, v: Value) {
    exists k :: resolve(k, text) == Ok(v)
  }

  /** `ConstantsPool.EMPTY_PORT`. */
  const EmptyPort := -1

  /** `initDefaultConfigParams`. `workingDir` is `ConstantsPool.WORKING_DIRECTORY`,
      computed from the location of the server's jar. */
  function Defaults(workingDir: string): map<string, Value>
  {
    map[
      "MAX_REQUEST_SIZE" := IntValue(MaxInt),
      "SHOW_REQUEST_LOG" := BoolValue(false),
      "ASSETS_DIR_NAME" := TextValue("assets/"),
      "WEB_APPS_DIR_NAME" := TextValue("webapps/"),
      "APP_COMPILE_OUTPUT_DIR_NAME" := TextValue("classes"),
      "APP_RESOURCES_DIR_NAME" := TextValue("webapp"),
      "MAIN_APP_JAR_NAME" := TextValue("ROOT"),
      "APPLICATION_DEPENDENCIES_FOLDER_NAME" := TextValue("lib"),
      "BROCOLLINA_SKIP_EXTRACTING_IF_FOLDER_EXISTS" := BoolValue(false),
      "BROCCOLINA_FORCE_OVERWRITE_FILES" := BoolValue(true),
      "BROCCOLINA_TRACK_RESOURCES" := BoolValue(true),
      "SERVER_PORT" := IntValue(EmptyPort),
      "SERVER_STARTUP_ARGS" := TextsValue([]),
      "JAVACHE_WORKING_DIRECTORY" := TextValue(workingDir),
      "LIB_DIR_NAME" := TextValue("lib/"),
      "API_DIR_NAME" := TextValue("api/"),
      "LOGS_DIR_NAME" := TextValue("logs/"),
      "PRINT_EXCEPTIONS" := BoolValue(true),
      "RESOURCE_HANDLER_ORDER" := IntValue(1),
      "DISPATCHER_ORDER" := IntValue(2),
      "ENABLE_RESOURCE_CACHING" := BoolValue(true),
      "RESOURCE_CACHING_EXPRESSION" := TextValue(CachingExpression.DefaultCachingExpression)
    ]
  }

  /** The defaults the rest of the server relies on: request size, error
      pages, the root application and the working directory. */
  lemma DefaultServerValues(workingDir: string)
    ensures var m := Defaults(workingDir);
      "MAX_REQUEST_SIZE" in m && m["MAX_REQUEST_SIZE"] == IntValue(MaxInt) &&
      "PRINT_EXCEPTIONS" in m && m["PRINT_EXCEPTIONS"] == BoolValue(true) &&
      "MAIN_APP_JAR_NAME" in m && m["MAIN_APP_JAR_NAME"] == TextValue("ROOT") &&
      "JAVACHE_WORKING_DIRECTORY" in m && m["JAVACHE_WORKING_DIRECTORY"] == TextValue(workingDir)
  {
  }

  /** The default resource settings and handler orders. */
  lemma DefaultResourceValues(workingDir: string)
    ensures var m := Defaults(workingDir);
      "ENABLE_RESOURCE_CACHING" in m && m["ENABLE_RESOURCE_CACHING"] == BoolValue(true) &&
      "BROCCOLINA_TRACK_RESOURCES" in m && m["BROCCOLINA_TRACK_RESOURCES"] == BoolValue(true) &&
      "RESOURCE_CACHING_EXPRESSION" in m &&
      m["RESOURCE_CACHING_EXPRESSION"] == TextValue(CachingExpression.DefaultCachingExpression) &&
      "RESOURCE_HANDLER_ORDER" in m && m["RESOURCE_HANDLER_ORDER"] == IntValue(1) &&
      "DISPATCHER_ORDER" in m && m["DISPATCHER_ORDER"] == IntValue(2)
  {
  }

  // ----------------------------------------------------------- config.ini

  /** One line of `config.ini`: trimmed and split on `:\s+`; only a line of
      exactly two tokens counts, with its key upper-cased. */
  function ConfigLine(line: string): (r: Option<(string, string)>)
    ensures var toks := JavaSplit(Trim(line), ColonSpaces);
      (r.Some? <==> |toks| == 2) && (r.Some? ==> r.value == (Upper(toks[0]), toks[1]))
  {
    var toks := JavaSplit(Trim(line), ColonSpaces);
    if |toks| != 2 then None else Some((Upper(toks[0]), toks[1]))
  }

  /** A line for a key that has no default is skipped; otherwise the text is
      resolved to the class of the current value and replaces it. */
  function ApplyLine(params: map<string, Value>, resolve: Resolver, line: string): (r: Result<map<string, Value>, Exn>)
    ensures r.Ok? ==> r.value.Keys == params.Keys
    ensures ConfigLine(line).None? || ConfigLine(line).value.0 !in params ==> r == Ok(params)
    ensures (ConfigLine(line).Some? && ConfigLine(line).value.0 in params) ==>
      var (k, text) := ConfigLine(line).value;
      r.Ok? <==> resolve(KindOf(params[k]), text).Ok?
    ensures (r.Ok? && ConfigLine(line).Some? && ConfigLine(line).value.0 in params) ==>
      var (k, text) := ConfigLine(line).value;
      r.value == params[k := resolve(KindOf(params[k]), text).value]
  {
    match ConfigLine(line)
    case None => Ok(params)
    case Some((k, text)) =>
      if k !in params then Ok(params)
      else
        var v :- resolve(KindOf(params[k]), text);
        Ok(params[k := v])
  }

  /** The text of the last line that sets `k`, if any. */
  function LastLineFor(lines: seq<string>, k: string): Option<string>
    decreases |lines|
  {
    if |lines| == 0 then None
    else
      match LastLineFor(lines[1..], k)
      case Some(t) => Some(t)
      case None =>
        if ConfigLine(lines[0]).Some? && ConfigLine(lines[0]).value.0 == k then Some(ConfigLine(lines[0]).value.1)
        else None
  }

  /** The `while (ready())` loop over the lines of `config.ini`. The file
      cannot add keys; a key keeps its value unless a line sets it, and then
      holds what the last such line resolves to. */
  function ApplyLines(params: map<string, Value>, resolve: Resolver, lines: seq<string>): (r: Result<map<string, Value>, Exn>)
    ensures r.Ok? ==> r.value.Keys == params.Keys
    decreases |lines|
  {
    if |lines| == 0 then Ok(params)
    else
      var first :- ApplyLine(params, resolve, lines[0]);
      ApplyLines(first, resolve, lines[1..])
  }

  /** A key keeps its value unless a line sets it, and then holds what the
      last such line resolves to. */
  lemma {:induction false} ApplyLinesValue(params: map<string, Value>, resolve: Resolver, lines: seq<string>, k: string)
    requires k in params
    ensures ApplyLines(params, resolve, lines).Ok? ==> var r := ApplyLines(params, resolve, lines).value;
      (LastLineFor(lines, k).None? ==> r[k] == params[k]) &&
      (LastLineFor(lines, k).Some? ==> ResolvedFrom(resolve, LastLineFor(lines, k).value, r[k]))
    decreases |lines|
  {
    if |lines| > 0 && ApplyLines(params, resolve, lines).Ok? {
      var first := ApplyLine(params, resolve, lines[0]).value;
      ApplyLinesValue(first, resolve, lines[1..], k);
      var r := ApplyLines(params, resolve, lines).value;
      if LastLineFor(lines[1..], k).None? {
        var line := ConfigLine(lines[0]);
        if line.Some? && line.value.0 == k {
          assert resolve(KindOf(params[k]), line.value.1) == Ok(r[k]);
        }
      }
    }
  }

  /** `initConfigParams`: a missing `config.ini` (`None`) changes nothing. */
  function InitConfigParams(params: map<string, Value>, resolve: Resolver, file: Option<seq<string>>): (r: Result<map<string, Value>, Exn>)
    ensures file.None? ==> r == Ok(params)
    ensures file.Some? ==> r == ApplyLines(params, resolve, file.value)
  {
    match file
    case None => Ok(params)
    case Some(lines) => ApplyLines(params, resolve, lines)
  }

  /** A `key: value` line sets that key, upper-cased. */
  lemma KeyValueLine(key: string, value: string)
    requires key != [] && ':' !in key && !Trimmable(key[0])
    requires value != [] && ':' !in value && !IsSpace(value[0]) && !Trimmable(value[|value| - 1])
    ensures ConfigLine(key + ": " + value) == Some((Upper(key), value))
  {
    var line := key + ": " + value;
    assert line[0] == key[0] && line[|line| - 1] == value[|value| - 1];
    TrimKeeps(line);
    RequestProcessor.ColonSpaceStep(key, value);
    RequestProcessor.NoColonOnePiece(value);
    JavaSplitKeeps(line, ColonSpaces, 1);
  }

  // ---------------------------------------------------- environment layer

  /** `applyEnvironmentVariables`: for each setting name, in order, a set
      environment variable is resolved to the class of the current value and
      replaces it. A name without a current value fails, as `getClass()` on
      `null` would. `names` stands for `ConfigValue.values()`. */
  function ApplyEnvironment(params: map<string, Value>, resolve: Resolver, names: seq<string>, env: string -> Option<string>): (r: Result<map<string, Value>, Exn>)
    ensures r.Ok? ==> r.value.Keys == params.Keys
    ensures r.Ok? ==> forall k :: k in params && (k !in names || env(k).None?) ==> r.value[k] == params[k]
    ensures r.Ok? ==> forall k :: k in params && k in names && env(k).Some? ==>
      ResolvedFrom(resolve, env(k).value, r.value[k])
    ensures (exists i :: 0 <= i < |names| && env(names[i]).Some? && names[i] !in params) ==> r.Err?
    decreases |names|
  {
    if |names| == 0 then Ok(params)
    else
      var first: map<string, Value> :-
        match env(names[0])
        case None => Ok(params)
        case Some(text) =>
          if names[0] !in params then Err(NullPointer)
          else
            var v :- resolve(KindOf(params[names[0]]), text);
            Ok(params[names[0] := v]);
      var rest := ApplyEnvironment(first, resolve, names[1..], env);
      assert forall i :: 1 <= i < |names| ==> names[i] == names[1..][i - 1];
      rest
  }

  // ------------------------------------------------- request-handlers.ini

  const ConfigFolder := "config/"

  /** `loadRequestHandlerConfig`: the file's content split on `,\s+`; a
      missing file (`None`) is an `IllegalArgumentException` naming the
      configuration folder. */
  function LoadRequestHandlerConfig(workingDir: string, file: Option<string>): (r: Result<seq<string>, Exn>)
    ensures r.Err? <==> file.None?
    ensures r.Err? ==> r.error == IllegalArgument(
      "Request Handler priority configuration file does not exist for \"" + workingDir + ConfigFolder + "\".")
    ensures r.Ok? ==> r.value == JavaSplit(file.value, CommaSpaces)
  {
    match file
    case None => Err(IllegalArgument("Request Handler priority configuration file does not exist for \"" + workingDir + ConfigFolder + "\"."))
    case Some(content) => Ok(JavaSplit(content, CommaSpaces))
  }

  /** A handler list written as `A, B, C` reads back as exactly those
      names, in order. */
  lemma HandlerListRoundTrip(workingDir: string, names: seq<string>)
    requires |names| >= 1
    requires forall i :: 0 <= i < |names| ==> ',' !in names[i] && names[i] != [] && !IsSpace(names[i][0])
    ensures LoadRequestHandlerConfig(workingDir, Some(JoinWith(names, ", "))) == Ok(names)
  {
    assert [','] + " " == ", ";
    SomeSpacesSplitOfJoin(names, ',');
  }

  // ------------------------------------------------------------ the whole

  /** What the constructor reads: the working directory, `config.ini` as
      lines, `request-handlers.ini` as text (`None` when missing), the
      setting names and the environment. */
  datatype Sources = Sources(
    workingDir: string,
    configFile: Option<seq<string>>,
    handlersFile: Option<string>,
    names: seq<string>,
    env: string -> Option<string>)

  /** `requestHandlers` stays `None` (Java's `null`) when it is never loaded. */
  datatype ConfigHandler = ConfigHandler(requestHandlers: Option<seq<string>>, params: map<string, Value>)

  /** The layers over the defaults: file, then environment. */
  function Layered(src: Sources, resolve: Resolver): (r: Result<map<string, Value>, Exn>)
    ensures r.Ok? ==> r.value.Keys == Defaults(src.workingDir).Keys
  {
    var fromFile :- InitConfigParams(Defaults(src.workingDir), resolve, src.configFile);
    ApplyEnvironment(fromFile, resolve, src.names, src.env)
  }

  /** `new ConfigHandler()`: the handler list first (so a missing file fails
      before any setting is read), then the layers. */
  function NewConfigHandler(src: Sources, resolve: Resolver): (r: Result<ConfigHandler, Exn>)
    ensures src.handlersFile.None? ==> r == Err(LoadRequestHandlerConfig(src.workingDir, None).error)
    ensures r.Ok? ==> r.value.requestHandlers == Some(JavaSplit(src.handlersFile.value, CommaSpaces))
    ensures r.Ok? ==> Layered(src, resolve) == Ok(r.value.params)
    ensures src.handlersFile.Some? ==> (r.Ok? <==> Layered(src, resolve).Ok?)
  {
    var handlers :- LoadRequestHandlerConfig(src.workingDir, src.handlersFile);
    var params :- Layered(src, resolve);
    Ok(ConfigHandler(Some(handlers), params))
  }

  /** The settings precedence: a setting named in the environment holds what
      the environment says; otherwise one set in `config.ini` holds what its
      last line says; otherwise it keeps its default. */
  lemma Precedence(src: Sources, resolve: Resolver, k: string)
    requires src.handlersFile.Some? && NewConfigHandler(src, resolve).Ok?
    requires k in Defaults(src.workingDir)
    ensures var params := NewConfigHandler(src, resolve).value.params;
      k in params &&
      (k in src.names && src.env(k).Some? ==> ResolvedFrom(resolve, src.env(k).value, params[k])) &&
      (!(k in src.names && src.env(k).Some?) && src.configFile.Some? && LastLineFor(src.configFile.value, k).Some? ==>
         ResolvedFrom(resolve, LastLineFor(src.configFile.value, k).value, params[k])) &&
      (!(k in src.names && src.env(k).Some?) && (src.configFile.None? || LastLineFor(src.configFile.value, k).None?) ==>
         params[k] == Defaults(src.workingDir)[k])
  {
    var fromFile := InitConfigParams(Defaults(src.workingDir), resolve, src.configFile);
    assert fromFile.Ok?;
    if src.configFile.Some? {
      ApplyLinesValue(Defaults(src.workingDir), resolve, src.configFile.value, k);
    }
  }

  /** `addConfigParam`: `put`, so it overwrites, and may add a new key. */
  function AddConfigParam(c: ConfigHandler, name: string, value: Value): (r: ConfigHandler)
    ensures r.params.Keys == c.params.Keys + {name}
    ensures r.params[name] == value
    ensures forall k :: k in c.params && k != name ==> r.params[k] == c.params[k]
    ensures r.requestHandlers == c.requestHandlers
  {
    c.(params := c.params[name := value])
  }

  /** `toString()` of a value; an array's text is outside this model. */
  function ValueText(v: Value, arrayText: seq<string> -> string): string {
    match v
    case IntValue(i) => IntToString(i)
    case BoolValue(b) => if b then "true" else "false"
    case TextValue(s) => s
    case TextsValue(ts) => arrayText(ts)
  }

  /** `getConfigParamString`: the value's text, or `None` (Java's `null`). */
  function GetConfigParamString(c: ConfigHandler, name: string, arrayText: seq<string> -> string): (r: Option<string>)
    ensures r.Some? <==> name in c.params
    ensures name in c.params && c.params[name].TextValue? ==> r == Some(c.params[name].s)
    ensures name in c.params && c.params[name].IntValue? ==> r == Some(IntToString(c.params[name].i))
    ensures name in c.params && c.params[name].BoolValue? ==> r == Some(if c.params[name].b then "true" else "false")
    ensures name in c.params && c.params[name].TextsValue? ==> r == Some(arrayText(c.params[name].ts))
  {
    match Get(c.params, name)
    case None => None
    case Some(v) => Some(ValueText(v, arrayText))
  }

  /** `new AdditionalConfig(configs)`: its `loadRequestHandlerConfig` does
      nothing, so the handler list stays `null` and a missing
      `request-handlers.ini` is no error; then every runtime entry is put over
      the layered settings. */
  function NewAdditionalConfig(src: Sources, resolve: Resolver, runtime: map<string, Value>): (r: Result<ConfigHandler, Exn>)
    ensures r.Ok? <==> Layered(src, resolve).Ok?
    ensures r.Ok? ==> r.value.requestHandlers.None?
    ensures r.Ok? ==> r.value.params.Keys == Defaults(src.workingDir).Keys + runtime.Keys
    ensures r.Ok? ==> forall k :: k in runtime ==> r.value.params[k] == runtime[k]
    ensures r.Ok? ==> forall k :: k in Layered(src, resolve).value && k !in runtime ==>
      r.value.params[k] == Layered(src, resolve).value[k]
  {
    var params :- Layered(src, resolve);
    Ok(ConfigHandler(None, params + runtime))
  }

  /** The runtime map can add a setting that has no default, which no line of
      `config.ini` can; and the handler file plays no part. */
  lemma RuntimeMayAddKeys(src: Sources, resolve: Resolver, runtime: map<string, Value>, k: string, contents: Option<string>)
    requires Layered(src, resolve).Ok?
    requires k in runtime && k !in Defaults(src.workingDir)
    ensures NewAdditionalConfig(src, resolve, runtime).Ok?
    ensures k in NewAdditionalConfig(src, resolve, runtime).value.params
    ensures k !in Layered(src, resolve).value
    ensures NewAdditionalConfig(src.(handlersFile := contents), resolve, runtime) == NewAdditionalConfig(src, resolve, runtime)
  {
  }
}

=== FILE: connection.dfy ===
/** `ConnectionHandler`: one connection runs the sorted request handlers in
    order over one fresh shared-data instance until a handler takes the
    request, then runs every cleanup handler over that same instance. The
    socket itself is outside this model. */
module Connection {
  import opened Wrappers
  import opened Http
  import opened SharedData
  import opened Exchange

  /** A request handler's `handleRequest` on the shared state: whether it
      took the request, and the state it leaves, or the exception it threw. */
  type Step<!S> = S -> Result<(bool, S), Exn>

  /** How many handlers were invoked, whether the last one took the request,
      and the state after it. */
  datatype Chain<S> = Chain(invoked: nat, handled: bool, state: S)

  /** The `for` loop with its `break`: an exception ends the loop and is passed on. */
  function RunChain<S>(hs: seq<Step<S>>, s: S): (r: Result<Chain<S>, Exn>)
    ensures r.Ok? ==> r.value.invoked <= |hs|
    ensures r.Ok? && !r.value.handled ==> r.value.invoked == |hs|
    ensures r.Ok? && r.value.handled ==> r.value.invoked > 0
    ensures |hs| > 0 && hs[0](s).Ok? && hs[0](s).value.0 ==> r == Ok(Chain(1, true, hs[0](s).value.1))
    ensures |hs| > 0 && hs[0](s).Err? ==> r == Err(hs[0](s).error)
    decreases |hs|
  {
    if |hs| == 0 then Ok(Chain(0, false, s))
    else
      var first :- hs[0](s);
      if first.0 then Ok(Chain(1, true, first.1))
      else
        var rest :- RunChain(hs[1..], first.1);
        Ok(rest.(invoked := rest.invoked + 1))
  }

  /** Running `hs1 + hs2` is running `hs1`, and then `hs2` only when no
      handler of `hs1` took the request: handlers after the taker are never
      invoked, and the others run in list order on the state left before them. */
  lemma {:induction false} ChainAppend<S>(hs1: seq<Step<S>>, hs2: seq<Step<S>>, s: S)
    ensures RunChain(hs1, s).Err? ==> RunChain(hs1 + hs2, s) == RunChain(hs1, s)
    ensures RunChain(hs1, s).Ok? && RunChain(hs1, s).value.handled ==> RunChain(hs1 + hs2, s) == RunChain(hs1, s)
    ensures RunChain(hs1, s).Ok? && !RunChain(hs1, s).value.handled ==>
      var c := RunChain(hs1, s).value;
      RunChain(hs1 + hs2, s) ==
        match RunChain(hs2, c.state)
        case Err(e) => Err(e)
        case Ok(d) => Ok(d.(invoked := d.invoked + |hs1|))
    decreases |hs1|
  {
    if |hs1| == 0 {
      assert hs1 + hs2 == hs2;
      match RunChain(hs2, s)
      case Err(e) =>
      case Ok(d) => assert d.(invoked := d.invoked + 0) == d;
    } else {
      assert (hs1 + hs2)[0] == hs1[0];
      assert (hs1 + hs2)[1..] == hs1[1..] + hs2;
      var first := hs1[0](s);
      if first.Ok? && !first.value.0 {
        ChainAppend(hs1[1..], hs2, first.value.1);
      }
    }
  }

  /** A cleanup handler's `destroy` on the shared data: the exception it
      throws, if any. */
  type Cleanup = Store<Obj> -> Option<Exn>

  /** `handlerDestroy`: every cleanup handler in order, each given the same
      shared data; the first exception ends the loop. Answers how many ran,
      and the exception. */
  function RunCleanup(ds: seq<Cleanup>, data: Store<Obj>): (r: (nat, Option<Exn>))
    ensures r.0 <= |ds|
    ensures r.1.None? <==> forall i :: 0 <= i < |ds| ==> ds[i](data).None?
    ensures r.1.None? ==> r.0 == |ds|
    ensures r.1.Some? ==> 0 < r.0 && r.1 == ds[r.0 - 1](data) && forall i :: 0 <= i < r.0 - 1 ==> ds[i](data).None?
    decreases |ds|
  {
    if |ds| == 0 then (0, None)
    else if ds[0](data).Some? then (1, ds[0](data))
    else
      var rest := RunCleanup(ds[1..], data);
      assert forall i :: 1 <= i < |ds| ==> ds[i] == ds[1..][i - 1];
      (rest.0 + 1, rest.1)
  }

  /** `handlerRequest`: the chain over a fresh shared-data instance and an
      empty output, then the cleanup. Cleanup is not in a `finally`: when a
      handler throws, no cleanup handler runs. */
  function HandlerRequest(hs: seq<Step<Conn>>, ds: seq<Cleanup>): (r: Result<Chain<Conn>, Exn>)
    ensures RunChain(hs, NewConn()).Err? ==> r == Err(RunChain(hs, NewConn()).error)
    ensures r.Ok? ==> RunChain(hs, NewConn()) == r
    ensures r.Ok? ==> forall i :: 0 <= i < |ds| ==> ds[i](r.value.state.data).None?
    ensures RunChain(hs, NewConn()).Ok? ==>
      var data := RunChain(hs, NewConn()).value.state.data;
      r.Err? <==> exists i :: 0 <= i < |ds| && ds[i](data).Some?
  {
    var c :- RunChain(hs, NewConn());
    var cleanup := RunCleanup(ds, c.state.data);
    if cleanup.1.Some? then Err(cleanup.1.value) else Ok(c)
  }

  /** `run`: the socket is closed only when `handlerRequest` returned normally. */
  datatype Finished = Finished(socketClosed: bool, outcome: Result<Chain<Conn>, Exn>)

  function Run(hs: seq<Step<Conn>>, ds: seq<Cleanup>): (r: Finished)
    ensures r.outcome == HandlerRequest(hs, ds)
    ensures r.socketClosed <==> r.outcome.Ok?
  {
    var outcome := HandlerRequest(hs, ds);
    Finished(outcome.Ok?, outcome)
  }
}

=== FILE: destroy.dfy ===
/** `RequestDestroyHandler`: after the chain, closes the input stream of every
    uploaded file of the request. */
module RequestDestroy {
  import opened Wrappers
  import opened Http
  import opened SharedData
  import opened Exchange

  /** The files whose `close` was called, in order, and the exception that
      ended the loop, if any. */
  datatype Closing = Closing(attempted: seq<MultipartFile>, fault: Option<Exn>)

  /** The loop over the files: each is closed in list order; the first
      `IOException` is rethrown as a `RuntimeException` and the files after
      it stay open. */
  function CloseAll(files: seq<MultipartFile>): (r: Closing)
    ensures r.attempted <= files
    ensures r.fault.None? <==> forall i :: 0 <= i < |files| ==> files[i].closeFault.None?
    ensures r.fault.None? ==> r.attempted == files
    ensures r.fault.Some? ==>
      |r.attempted| > 0 &&
      var last := r.attempted[|r.attempted| - 1];
      last.closeFault.Some? && r.fault == Some(Runtime(last.closeFault.value)) &&
      forall i :: 0 <= i < |r.attempted| - 1 ==> r.attempted[i].closeFault.None?
    decreases |files|
  {
    if |files| == 0 then Closing([], None)
    else if files[0].closeFault.Some? then Closing([files[0]], Some(Runtime(files[0].closeFault.value)))
    else
      var rest := CloseAll(files[1..]);
      assert forall i :: 1 <= i < |files| ==> files[i] == files[1..][i - 1];
      Closing([files[0]] + rest.attempted, rest.fault)
  }

  /** `destroy`: nothing without a request or without a multipart list. */
  function Destroy(data: Store<Obj>): (r: Closing)
    ensures RequestOf(data).None? || RequestOf(data).value.files.None? ==> r == Closing([], None)
    ensures RequestOf(data).Some? && RequestOf(data).value.files.Some? ==>
      r == CloseAll(RequestOf(data).value.files.value)
  {
    match RequestOf(data)
    case None => Closing([], None)
    case Some(request) =>
      match request.files
      case None => Closing([], None)
      case Some(files) => CloseAll(files)
  }

  /** With a fault at position `k` (and none before), exactly the files up to
      and including it are closed. */
  lemma {:induction false} StopsAtFirstFault(files: seq<MultipartFile>, k: nat)
    requires k < |files| && files[k].closeFault.Some?
    requires forall i :: 0 <= i < k ==> files[i].closeFault.None?
    ensures CloseAll(files) == Closing(files[..k + 1], Some(Runtime(files[k].closeFault.value)))
    decreases k
  {
    if k > 0 {
      StopsAtFirstFault(files[1..], k - 1);
      assert [files[0]] + files[1..][..k] == files[..k + 1];
    }
  }
}

=== FILE: dispatcher.dfy ===
/** `Dispatcher`: finds the controller registered for a URL, runs it, and
    answers with its response and the session cookie. Controllers are
    registered under their annotated route, prefixed by their application
    name when that is not the root application. */
module Dispatching {
  import opened Wrappers
  import opened Text
  import opened Http
  import opened Attributes
  import opened BaseHttp
  import opened Sessions
  import opened SharedData
  import opened Exchange

  const AssetsDirKey := "cfg.assets.dir"
  const WorkingDirKey := "cfg.working.dir"

  /** The text `\/[a-zA-Z0-9]+\/`. `Pattern.quote` is applied to the whole
      context path plus this text, so it is matched literally, not as a regex. */
  const RoutePattern := "\\/[a-zA-Z0-9]+\\/"

  /** `rootApp` is `MAIN_APP_JAR_NAME`; `appNames` is what `init` stored from
      `getApplicationNames`; `config` is the `DispatcherConfig` copied into
      every controller's configuration. */
  datatype Dispatcher = Dispatcher(
    rootApp: string,
    appNames: seq<string>,
    trackResources: bool,
    controllers: map<string, Controller>,
    config: Config)

  /** `getApplicationNames`: only the root application. */
  function ApplicationNames(d: Dispatcher): (r: seq<string>)
    ensures r == [d.rootApp]
  {
    [d.rootApp]
  }

  // ----------------------------------------------------- route resolution

  /** `resolveCurrentRequestAppName`: the first listed name, other than the
      root, that prefixes the URL; the empty context path otherwise. */
  function ResolveAppName(appNames: seq<string>, rootApp: string, url: string): (r: string)
    ensures (exists i :: 0 <= i < |appNames| && r == appNames[i] && StartsWith(url, appNames[i]) && appNames[i] != rootApp
               && forall j :: 0 <= j < i ==> !StartsWith(url, appNames[j]) || appNames[j] == rootApp)
            || (r == "" && forall i :: 0 <= i < |appNames| ==> !StartsWith(url, appNames[i]) || appNames[i] == rootApp)
    decreases |appNames|
  {
    if |appNames| == 0 then ""
    else if StartsWith(url, appNames[0]) && appNames[0] != rootApp then appNames[0]
    else
      var r := ResolveAppName(appNames[1..], rootApp, url);
      assert forall i :: 1 <= i < |appNames| ==> appNames[i] == appNames[1..][i - 1];
      r
  }

  /** With the names `init` stores, every request has the empty context path. */
  lemma {:induction false} ContextPathIsEmpty(d: Dispatcher, url: string)
    requires d.appNames == ApplicationNames(d)
    ensures ResolveAppName(d.appNames, d.rootApp, url) == ""
  {
    assert d.appNames[1..] == [];
  }

  /** The key the second tier tries: the literal text it searched for, then `*`. */
  function WildcardKey(ctx: string): string {
    ctx + RoutePattern + "*"
  }

  /** `findSoletCandidate` over the registered routes: the URL itself; else,
      when the URL contains the quoted text, that text followed by `*`; else
      the context path followed by the catch-all `/` `*`; else nothing. */
  function FindRoute<V>(routes: map<string, V>, ctx: string, url: string): (r: Option<string>)
    ensures r.Some? ==> r.value in routes
    ensures url in routes ==> r == Some(url)
    ensures url !in routes && Contains(url, ctx + RoutePattern) && WildcardKey(ctx) in routes ==>
      r == Some(WildcardKey(ctx))
    ensures url !in routes && !(Contains(url, ctx + RoutePattern) && WildcardKey(ctx) in routes) ==>
      r == (if ctx + "/*" in routes then Some(ctx + "/*") else None)
  {
    if url in routes then Some(url)
    else if Contains(url, ctx + RoutePattern) && WildcardKey(ctx) in routes then Some(WildcardKey(ctx))
    else if ctx + "/*" in routes then Some(ctx + "/*")
    else None
  }

  /** The tiers as a reference: a route is found exactly when one of the three
      keys is registered and, for the second, the URL holds the quoted text. */
  lemma FindRouteNoneIff<V>(routes: map<string, V>, ctx: string, url: string)
    ensures FindRoute(routes, ctx, url).None? <==>
      url !in routes && !(Contains(url, ctx + RoutePattern) && WildcardKey(ctx) in routes) && ctx + "/*" !in routes
    ensures FindRoute(routes, ctx, url).Some? ==>
      FindRoute(routes, ctx, url).value in {url, WildcardKey(ctx), ctx + "/*"}
  {
  }

  /** Since the quoted text holds a backslash, the second tier never fires for
      a URL without one. */
  lemma WildcardNeedsBackslash(ctx: string, url: string)
    requires '\\' !in url
    ensures !Contains(url, ctx + RoutePattern)
  {
    var p := ctx + RoutePattern;
    assert p[|ctx|] == '\\';
    forall j | 0 <= j
      ensures !OccursAt(url, p, j)
    {
      if j + |p| <= |url| {
        assert url[j..j + |p|][|ctx|] == url[j + |ctx|] != '\\';
      }
    }
  }

  /** So a controller registered for every URL under `/users/` (the key `/users/` followed by `*`) is not found for `/users/5`. */
  lemma UsersWildcardUnreached<V>(v: V)
    ensures FindRoute(map["/users/*" := v], "", "/users/5") == None
  {
    WildcardNeedsBackslash("", "/users/5");
    assert "/users/5" != "/users/*";
    assert "" + "/*" != "/users/*";
    assert WildcardKey("") != "/users/*";
  }

  /** `findSoletCandidate`: sets the request's context path, then looks the
      route up under it. */
  function FindSoletCandidate(d: Dispatcher, request: Request): (r: (Request, Option<string>))
    ensures r.0 == request.(contextPath := ResolveAppName(d.appNames, d.rootApp, request.url))
    ensures r.1 == FindRoute(d.controllers, r.0.contextPath, request.url)
    ensures r.1.Some? ==> r.1.value in d.controllers
  {
    var ctx := ResolveAppName(d.appNames, d.rootApp, request.url);
    (request.(contextPath := ctx), FindRoute(d.controllers, ctx, request.url))
  }

  // --------------------------------------------------------------- serving

  /** `runSolet`: the controller's `hasIntercepted()` after `service`, or
      true when `service` threw (the exception is swallowed). */
  predicate RunSolet(o: Outcome) {
    o.thrown.Some? || o.intercepted
  }

  /** The session inputs that are outside this model: the `HttpSessionImpl` a
      request without a valid session gets, the cookie expiry texts, and the
      store's sweep. */
  datatype SessionEnv = SessionEnv(
    newSession: Session,
    expires: string,
    epoch: string,
    refresh: map<string, Session> -> map<string, Session>)

  /** Whether the dispatcher took the request, and the state it leaves: the
      controllers (whose intercept flags persist), the session store and the
      connection. */
  datatype Served = Served(handled: bool, dispatcher: Dispatcher, sessions: Manager, conn: Conn)

  /** The request after `findSoletCandidate` and `initSessionIfExistent`. */
  function Prepared(d: Dispatcher, m: Manager, senv: SessionEnv, request: Request): (r: Request)
    ensures r.session.Some?
    ensures r.contextPath == ResolveAppName(d.appNames, d.rootApp, request.url)
    ensures r.url == request.url && r.verb == request.verb
  {
    InitSession(m, FindSoletCandidate(d, request).0, senv.newSession)
  }

  /** Whether the request is declined before any controller runs. */
  predicate Declines(d: Dispatcher, isResource: Request -> bool, request: Request, route: Option<string>) {
    route.None? || (isResource(request) && !d.trackResources)
  }

  /** `handleRequest`. `isResource` stands for `HttpRequest.isResource`,
      which is outside this model. The session is attached before the
      request can be declined; a declined request writes nothing. When the
      controller ran and intercepted (or threw), a missing status becomes
      200, the session cookie is added, invalid sessions are swept, and the
      response is written once. A missing response object fails only on the
      paths that use it. */
  function HandleRequest(d: Dispatcher, m: Manager, senv: SessionEnv, isResource: Request -> bool, conn: Conn): (r: Result<Served, Exn>)
    ensures RequestOf(conn.data).None? ==> r == Err(NullPointer)
    ensures r.Ok? ==> RequestOf(conn.data).Some? && RequestOf(r.value.conn.data).Some?
    ensures (RequestOf(conn.data).Some? &&
             var request := Prepared(d, m, senv, RequestOf(conn.data).value);
             Declines(d, isResource, request, FindSoletCandidate(d, RequestOf(conn.data).value).1)) ==>
      r == Ok(Served(false, d, m, Conn(SetRequest(conn.data, Prepared(d, m, senv, RequestOf(conn.data).value)), conn.out)))
    ensures r.Ok? && !r.value.handled ==> r.value.conn.out == conn.out && r.value.sessions == m
    ensures r.Ok? && r.value.handled ==>
      ResponseOf(r.value.conn.data).Some? &&
      r.value.conn.out == conn.out + [ResponseBytes(ResponseOf(r.value.conn.data).value)] &&
      ResponseOf(r.value.conn.data).value.status.Some?
    ensures r.Ok? ==> r.value.dispatcher.controllers.Keys == d.controllers.Keys
  {
    match RequestOf(conn.data)
    case None => Err(NullPointer)
    case Some(request0) =>
      var route := FindSoletCandidate(d, request0).1;
      var request := Prepared(d, m, senv, request0);
      var data := SetRequest(conn.data, request);
      if Declines(d, isResource, request, route) then
        Ok(Served(false, d, m, Conn(data, conn.out)))
      else
        match ResponseOf(data)
        case None => Err(NullPointer)
        case Some(response0) =>
          var c := d.controllers[route.value];
          var o := Service(c, request, response0);
          var d' := d.(controllers := d.controllers[route.value := SetHasIntercepted(c, o.intercepted)]);
          var ran := SetResponse(SetRequest(data, o.request), o.response);
          if !RunSolet(o) then Ok(Served(false, d', m, Conn(ran, conn.out)))
          else
            var response := if o.response.status.None? then o.response.WithStatus(StatusOk) else o.response;
            var sent := SendSession(m, o.request, response, senv.expires, senv.epoch);
            var swept := ClearInvalidSessions(sent.0, senv.refresh);
            Ok(Served(true, d', swept, Conn(SetResponse(ran, sent.1), conn.out + [ResponseBytes(sent.1)])))
  }

  /** A controller that intercepted, or threw (fail-closed), ends the chain:
      a missing status becomes 200, the session cookie is added and the
      session stored, invalid sessions are swept, and that response is
      written once. */
  lemma RunningControllerHandles(d: Dispatcher, m: Manager, senv: SessionEnv, isResource: Request -> bool, conn: Conn)
    requires RequestOf(conn.data).Some? && ResponseOf(conn.data).Some?
    requires var request := Prepared(d, m, senv, RequestOf(conn.data).value);
      var route := FindSoletCandidate(d, RequestOf(conn.data).value).1;
      !Declines(d, isResource, request, route) &&
      RunSolet(Service(d.controllers[route.value], request, ResponseOf(conn.data).value))
    ensures HandleRequest(d, m, senv, isResource, conn).Ok?
    ensures var r := HandleRequest(d, m, senv, isResource, conn).value;
      var request := Prepared(d, m, senv, RequestOf(conn.data).value);
      var route := FindSoletCandidate(d, RequestOf(conn.data).value).1;
      var o := Service(d.controllers[route.value], request, ResponseOf(conn.data).value);
      var response := if o.response.status.None? then o.response.WithStatus(StatusOk) else o.response;
      var sent := SendSession(m, o.request, response, senv.expires, senv.epoch);
      r.handled && r.sessions == ClearInvalidSessions(sent.0, senv.refresh) &&
      r.conn.out == conn.out + [ResponseBytes(sent.1)] &&
      r.conn.out[|conn.out|].response.status == (if o.response.status.Some? then o.response.status else Some(StatusOk))
  {
    var request := Prepared(d, m, senv, RequestOf(conn.data).value);
    var data := SetRequest(conn.data, request);
    assert ResponseOf(data) == ResponseOf(conn.data);
  }

  /** A controller that ran and cleared its intercept flag without throwing
      declines: nothing is written and no session is stored. */
  lemma NotInterceptedDeclines(d: Dispatcher, m: Manager, senv: SessionEnv, isResource: Request -> bool, conn: Conn)
    requires RequestOf(conn.data).Some? && ResponseOf(conn.data).Some?
    requires var request := Prepared(d, m, senv, RequestOf(conn.data).value);
      var route := FindSoletCandidate(d, RequestOf(conn.data).value).1;
      !Declines(d, isResource, request, route) &&
      !RunSolet(Service(d.controllers[route.value], request, ResponseOf(conn.data).value))
    ensures HandleRequest(d, m, senv, isResource, conn).Ok?
    ensures var r := HandleRequest(d, m, senv, isResource, conn).value;
      !r.handled && r.conn.out == conn.out && r.sessions == m
  {
    var request := Prepared(d, m, senv, RequestOf(conn.data).value);
    var data := SetRequest(conn.data, request);
    assert ResponseOf(data) == ResponseOf(conn.data);
  }

  // ---------------------------------------------------------- registration

  /** A controller class as the dispatcher sees it: its name, the route of its
      `@Controller` annotation (found on it or a superclass; `None` when
      there is none), and the instance its constructor makes. */
  datatype ControllerClass = ControllerClass(name: string, route: Option<string>, instance: Controller)

  /** Directory paths built with `PathUtil`, which is outside this model:
      the application's assets directory and its working directory. */
  datatype Paths = Paths(assetsDir: string -> string, workingDir: string -> string)

  /** The route a controller is stored under: prefixed by `/app` exactly when
      the application is not the root one. */
  function RouteFor(d: Dispatcher, app: string, route: string): (r: string)
    ensures app == d.rootApp ==> r == route
    ensures app != d.rootApp ==> r == "/" + app + route && StartsWith(r, "/" + app)
  {
    if app != d.rootApp then "/" + app + route else route
  }

  /** The configuration a controller is initialised with: a copy of the
      dispatcher's, plus its assets and working directories and, for a named
      non-root application, the `/app` prefix. */
  function ControllerConfig(d: Dispatcher, paths: Paths, app: string): (c: Config)
    ensures GetAttribute(c, AssetsDirKey) == Some(paths.assetsDir(app))
    ensures GetAttribute(c, WorkingDirKey) == Some(paths.workingDir(app))
    ensures app != "" && app != d.rootApp ==> GetAttribute(c, AppNamePrefix) == Some("/" + app)
    ensures !(app != "" && app != d.rootApp) ==> GetAttribute(c, AppNamePrefix) == GetAttribute(d.config, AppNamePrefix)
    ensures forall k :: k !in {AssetsDirKey, WorkingDirKey, AppNamePrefix} ==> GetAttribute(c, k) == GetAttribute(d.config, k)
  {
    var c := SetAttribute(SetAttribute(d.config, AssetsDirKey, paths.assetsDir(app)), WorkingDirKey, paths.workingDir(app));
    if app != "" && app != d.rootApp then SetAttribute(c, AppNamePrefix, "/" + app) else c
  }

  function MissingAnnotation(className: string): string {
    "Missing solet annotation for class named " + className + "."
  }

  /** `loadSolet`: fails without an annotation; otherwise stores the instance,
      initialised unless it already was, under its route, replacing any
      controller stored there before. */
  function LoadSolet(d: Dispatcher, paths: Paths, cls: ControllerClass, app: string): (r: Result<Dispatcher, Exn>)
    ensures r.Err? <==> cls.route.None?
    ensures r.Err? ==> r.error == IllegalArgument(MissingAnnotation(cls.name))
    ensures r.Ok? ==> var key := RouteFor(d, app, cls.route.value);
      r.value == d.(controllers := r.value.controllers) &&
      r.value.controllers.Keys == d.controllers.Keys + {key} &&
      (forall k :: k in d.controllers && k != key ==> r.value.controllers[k] == d.controllers[k]) &&
      r.value.controllers[key].initialized &&
      (cls.instance.initialized ==> r.value.controllers[key] == cls.instance) &&
      (!cls.instance.initialized ==> r.value.controllers[key] == Init(cls.instance, ControllerConfig(d, paths, app)))
  {
    match cls.route
    case None => Err(IllegalArgument(MissingAnnotation(cls.name)))
    case Some(route) =>
      var instance := if cls.instance.initialized then cls.instance else Init(cls.instance, ControllerConfig(d, paths, app));
      Ok(d.(controllers := d.controllers[RouteFor(d, app, route) := instance]))
  }

  /** The route a controller is registered under is the one its own
      `createRoute` builds from the annotated route, as long as the
      dispatcher's configuration sets no prefix and the application is
      named (or is the root one). */
  lemma RegisteredUnderCreatedRoute(d: Dispatcher, paths: Paths, cls: ControllerClass, app: string)
    requires cls.route.Some? && !cls.instance.initialized
    requires !HasAttribute(d.config, AppNamePrefix)
    requires app != "" || app == d.rootApp
    ensures LoadSolet(d, paths, cls, app).Ok?
    ensures var key := RouteFor(d, app, cls.route.value);
      CreateRoute(LoadSolet(d, paths, cls, app).value.controllers[key], cls.route.value) == Ok(key)
  {
    var cfg := ControllerConfig(d, paths, app);
    var route := cls.route.value;
    CreateRouteAfterInit(cls.instance, cfg, route);
    if app == d.rootApp {
      assert GetAttribute(cfg, AppNamePrefix) == None;
      assert "" + route == route;
    } else {
      assert GetAttribute(cfg, AppNamePrefix) == Some("/" + app);
    }
  }

  /** `loadApplications`: every class of every application, in order,
      stopping at the first class without an annotation. */
  function LoadAll(d: Dispatcher, paths: Paths, classes: seq<(ControllerClass, string)>): (r: Result<Dispatcher, Exn>)
    ensures r.Ok? <==> forall i :: 0 <= i < |classes| ==> classes[i].0.route.Some?
    ensures r.Ok? ==> r.value == d.(controllers := r.value.controllers)
    ensures r.Ok? ==> (r.value.controllers.Keys ==
      d.controllers.Keys + (set i | 0 <= i < |classes| :: RouteFor(d, classes[i].1, classes[i].0.route.value)))
    decreases |classes|
  {
    if |classes| == 0 then Ok(d)
    else
      var first :- LoadSolet(d, paths, classes[0].0, classes[0].1);
      var rest := LoadAll(first, paths, classes[1..]);
      assert forall i :: 1 <= i < |classes| ==> classes[i] == classes[1..][i - 1];
      if rest.Err? then rest
      else
        LoadAllKeys(d, first, classes);
        rest
  }

  lemma LoadAllKeys(d: Dispatcher, first: Dispatcher, classes: seq<(ControllerClass, string)>)
    requires |classes| > 0 && classes[0].0.route.Some?
    requires forall i :: 0 <= i < |classes| ==> classes[i].0.route.Some?
    requires first.controllers.Keys == d.controllers.Keys + {RouteFor(d, classes[0].1, classes[0].0.route.value)}
    requires first.rootApp == d.rootApp
    ensures first.controllers.Keys + (set i | 0 <= i < |classes[1..]| :: RouteFor(first, classes[1..][i].1, classes[1..][i].0.route.value))
         == d.controllers.Keys + (set i | 0 <= i < |classes| :: RouteFor(d, classes[i].1, classes[i].0.route.value))
  {
    var tail := set i | 0 <= i < |classes[1..]| :: RouteFor(first, classes[1..][i].1, classes[1..][i].0.route.value);
    var all := set i | 0 <= i < |classes| :: RouteFor(d, classes[i].1, classes[i].0.route.value);
    forall x | x in all ensures x in first.controllers.Keys + tail {
      var i :| 0 <= i < |classes| && x == RouteFor(d, classes[i].1, classes[i].0.route.value);
      if i > 0 {
        assert classes[1..][i - 1] == classes[i];
      }
    }
  }

  /** Two classes registered under the same route: the later one is served. */
  lemma LaterRegistrationWins(d: Dispatcher, paths: Paths, a: ControllerClass, b: ControllerClass, app: string)
    requires a.route.Some? && a.route == b.route && b.instance.initialized
    ensures LoadAll(d, paths, [(a, app), (b, app)]).Ok?
    ensures LoadAll(d, paths, [(a, app), (b, app)]).value.controllers[RouteFor(d, app, a.route.value)] == b.instance
  {
    var key := RouteFor(d, app, a.route.value);
    var first := LoadSolet(d, paths, a, app).value;
    var second := LoadSolet(first, paths, b, app).value;
    assert RouteFor(first, app, b.route.value) == key;
    assert second.controllers[key] == b.instance;
    assert [(a, app), (b, app)][1..] == [(b, app)];
    assert [(b, app)][1..] == [];
    assert LoadAll(second, paths, []) == Ok(second);
    assert LoadAll(first, paths, [(b, app)]) == Ok(second);
  }
}

=== FILE: error_handling.dfy ===
/** `ErrorHandling`: turns an exception raised while a request is handled into
    a response, or declines when exception printing is switched off. */
module ErrorHandling {
  import opened Wrappers
  import opened Text
  import opened Http

  /** `printStackTrace` is read from `PRINT_EXCEPTIONS` once, at construction;
      `stackTrace` stands for `Throwable.printStackTrace`, whose text is not
      part of this model. */
  datatype ErrorHandler = ErrorHandler(printStackTrace: bool, stackTrace: Exn -> seq<Byte>)

  /** Whether the handler took the request, the response it built, and what
      it wrote to the connection. */
  datatype Handled = Handled(handled: bool, response: Response, writes: seq<Write>)

  /** `writeException`: the stack trace becomes the body, and the response is
      written once. */
  function WriteException(eh: ErrorHandler, ex: Exn, response: Response): (h: Handled)
    ensures h.handled
    ensures h.response.content == ByteContent(eh.stackTrace(ex))
    ensures h.response.status == response.status && h.response.headers == response.headers
    ensures h.response.cookies == response.cookies
    ensures h.writes == [ResponseBytes(h.response)]
  {
    var r := response.WithContent(ByteContent(eh.stackTrace(ex)));
    Handled(true, r, [ResponseBytes(r)])
  }

  /** `handleRequestTooBig`: always 400, always written, always handled,
      whatever `printStackTrace` says. */
  function HandleRequestTooBig(eh: ErrorHandler, ex: Exn, response: Response): (h: Handled)
    ensures h.handled && h.response.status == Some(BadRequest)
    ensures h.response.content == ByteContent(eh.stackTrace(ex))
    ensures h.writes == [ResponseBytes(h.response)]
  {
    WriteException(eh, ex, response.WithStatus(BadRequest))
  }

  /** `handleException(out, throwable, response, status)`: with printing off
      it declines and leaves everything alone; with printing on it answers
      with `status` and the stack trace. */
  function HandleException(eh: ErrorHandler, ex: Exn, response: Response, status: Status): (h: Handled)
    ensures h.handled == eh.printStackTrace
    ensures !h.handled ==> h.response == response && h.writes == []
    ensures h.handled ==> h.response.status == Some(status)
    ensures h.handled ==> h.response.content == ByteContent(eh.stackTrace(ex))
    ensures h.handled ==> h.writes == [ResponseBytes(h.response)]
  {
    if !eh.printStackTrace then Handled(false, response, [])
    else WriteException(eh, ex, response.WithStatus(status))
  }

  /** The three-argument `handleException` answers 500. */
  function HandleInternalError(eh: ErrorHandler, ex: Exn, response: Response): (h: Handled)
    ensures h == HandleException(eh, ex, response, InternalServerError)
    ensures h.handled ==> h.response.status == Some(InternalServerError)
  {
    HandleException(eh, ex, response, InternalServerError)
  }

  /** Every outcome writes exactly the response it returns when it handles the
      request, and nothing when it declines. */
  lemma WritesOnlyWhenHandled(eh: ErrorHandler, ex: Exn, response: Response, status: Status)
    ensures var h := HandleException(eh, ex, response, status);
      (h.handled <==> h.writes != []) && (h.handled ==> h.writes == [ResponseBytes(h.response)])
    ensures var h := HandleRequestTooBig(eh, ex, response);
      h.writes == [ResponseBytes(h.response)]
  {
  }
}

=== FILE: exchange.dfy ===
/** What one connection's handlers share: the request-scoped objects in
    `RequestHandlerShareData`, and the bytes written to the socket so far. */
module Exchange {
  import opened Wrappers
  import opened Http
  import opened SharedData

  /** The objects stored in the shared data: the parsed request under
      `HTTP_REQUEST` and the response under `HTTP_RESPONSE`. */
  datatype Obj = RequestObj(request: Request) | ResponseObj(response: Response)

  datatype Conn = Conn(data: Store<Obj>, out: seq<Write>)

  function NewConn(): (c: Conn)
    ensures c.out == [] && forall k :: GetObject(c.data, k) == None
  {
    Conn(Empty(), [])
  }

  /** `getObject(HTTP_REQUEST, BaseHttpRequest.class)`; `None` is `null`. */
  function RequestOf(d: Store<Obj>): (r: Option<Request>)
    ensures r.Some? <==> GetObject(d, HttpRequestKey).Some? && GetObject(d, HttpRequestKey).value.RequestObj?
    ensures r.Some? ==> GetObject(d, HttpRequestKey) == Some(RequestObj(r.value))
  {
    var o: Option<Obj> := GetObject(d, HttpRequestKey);
    if o.Some? && o.value.RequestObj? then Some(o.value.request) else None
  }

  /** `getObject(HTTP_RESPONSE, BaseHttpResponse.class)`; `None` is `null`. */
  function ResponseOf(d: Store<Obj>): (r: Option<Response>)
    ensures r.Some? <==> GetObject(d, HttpResponseKey).Some? && GetObject(d, HttpResponseKey).value.ResponseObj?
    ensures r.Some? ==> GetObject(d, HttpResponseKey) == Some(ResponseObj(r.value))
  {
    var o: Option<Obj> := GetObject(d, HttpResponseKey);
    if o.Some? && o.value.ResponseObj? then Some(o.value.response) else None
  }

  /** A handler changing the stored response in place. */
  function SetResponse(d: Store<Obj>, response: Response): (r: Store<Obj>)
    requires ResponseOf(d).Some?
    ensures ResponseOf(r) == Some(response) && RequestOf(r) == RequestOf(d)
    ensures forall k :: k != HttpResponseKey ==> GetObject(r, k) == GetObject(d, k)
  {
    Mutate(d, HttpResponseKey, ResponseObj(response))
  }

  /** A handler changing the stored request in place. */
  function SetRequest(d: Store<Obj>, request: Request): (r: Store<Obj>)
    requires RequestOf(d).Some?
    ensures RequestOf(r) == Some(request) && ResponseOf(r) == ResponseOf(d)
    ensures forall k :: k != HttpRequestKey ==> GetObject(r, k) == GetObject(d, k)
  {
    Mutate(d, HttpRequestKey, RequestObj(request))
  }
}

=== FILE: fallback.dfy ===
/** `FallbackHandler`: the last handler of the chain. Whatever reaches it is
    answered 404 with a fixed text. */
module Fallback {
  import opened Wrappers
  import opened Http
  import opened SharedData
  import opened Exchange

  /** `Integer.MAX_VALUE`: sorted after every other handler. */
  const Order := 0x7fff_ffff

  const NotFoundText := "The resource you are looking for could not be found!"

  /** `handleRequest`: a missing response object fails as Java's
      `NullPointerException` would; otherwise the response becomes 404 with
      the fixed text, is written once, and the chain ends. */
  function HandleRequest(conn: Conn): (r: Result<(bool, Conn), Exn>)
    ensures r.Err? <==> ResponseOf(conn.data).None?
    ensures r.Err? ==> r.error == NullPointer
    ensures r.Ok? ==> r.value.0
    ensures r.Ok? ==> var before := ResponseOf(conn.data).value;
      var after := before.(status := Some(NotFound), content := TextContent(NotFoundText));
      ResponseOf(r.value.1.data) == Some(after) &&
      r.value.1.out == conn.out + [ResponseBytes(after)] &&
      RequestOf(r.value.1.data) == RequestOf(conn.data)
  {
    match ResponseOf(conn.data)
    case None => Err(NullPointer)
    case Some(response) =>
      var answered := response.WithStatus(NotFound).WithContent(TextContent(NotFoundText));
      Ok((true, Conn(SetResponse(conn.data, answered), conn.out + [ResponseBytes(answered)])))
  }

  /** Whatever the response held, exactly one 404 is written. */
  lemma WritesOneNotFound(conn: Conn)
    requires ResponseOf(conn.data).Some?
    ensures var r := HandleRequest(conn);
      r.Ok? && |r.value.1.out| == |conn.out| + 1 && r.value.1.out[..|conn.out|] == conn.out &&
      WritesStatus(r.value.1.out[|conn.out|], NotFound)
  {
  }
}

=== FILE: form_data.dfy ===
/** `FormDataParserDefault`: reads `Content-Length` bytes of body and adds the
    url-encoded `name=value` pairs to the request's body parameters. */
module FormData {
  import opened Wrappers
  import opened Text
  import opened Split
  import opened Http
  import opened UrlPairs

  /** The request's input stream from where the body starts: its bytes, and
      the message of the `IOException` reading it raises, if any. */
  datatype Body = Body(bytes: seq<Byte>, fault: Option<string>)

  function Min(a: int, b: int): int {
    if a <= b then a else b
  }

  /** `InputStream.readNBytes(len)`: a negative length is an
      `IllegalArgumentException`; otherwise up to `len` bytes, fewer when the
      stream ends first. */
  function ReadNBytes(body: Body, len: int): (r: Result<seq<Byte>, Exn>)
    ensures len < 0 ==> r == Err(IllegalArgument("len < 0"))
    ensures len >= 0 && body.fault.Some? ==> r == Err(CannotParseRequest(body.fault.value))
    ensures r.Ok? ==> |r.value| == Min(len, |body.bytes|) && r.value == body.bytes[..|r.value|]
  {
    if len < 0 then Err(IllegalArgument("len < 0"))
    else if body.fault.Some? then Err(CannotParseRequest(body.fault.value))
    else Ok(body.bytes[..Min(len, |body.bytes|)])
  }

  /** `setBodyParameters`: a body that is empty or all white space adds
      nothing; otherwise every `&`-separated pair is put, in order. */
  function SetBodyParameters(dec: Decoder, text: string, params: map<string, Option<string>>)
    : (r: Result<map<string, Option<string>>, Exn>)
    ensures Trim(text) == [] ==> r == Ok(params)
    ensures Trim(text) != [] ==> r.Ok? == ParsePairs(dec, JavaSplit(text, Amp)).Ok?
    ensures Trim(text) != [] && r.Ok? ==> r.value == PutAll(params, ParsePairs(dec, JavaSplit(text, Amp)).value)
  {
    if |text| == 0 || |Trim(text)| == 0 then Ok(params)
    else
      var kvs :- ParsePairs(dec, JavaSplit(text, Amp));
      Ok(PutAll(params, kvs))
  }

  /** `parseBodyParams`: `readBody`, decoded as UTF-8 (`utf8`, not part of this
      model), then `setBodyParameters`; an `IOException` is rethrown as
      `CannotParseRequestException`. */
  function ParseBodyParams(dec: Decoder, utf8: seq<Byte> -> string, body: Body, request: Request)
    : (r: Result<Request, Exn>)
    ensures request.contentLength < 0 ==> r == Err(IllegalArgument("len < 0"))
    ensures request.contentLength >= 0 && body.fault.Some? ==> r == Err(CannotParseRequest(body.fault.value))
    ensures r.Ok? ==> r.value == request.(bodyParams := r.value.bodyParams)
    ensures r.Ok? ==> var read := body.bytes[..Min(request.contentLength, |body.bytes|)];
      SetBodyParameters(dec, utf8(read), request.bodyParams) == Ok(r.value.bodyParams)
  {
    var bytes :- ReadNBytes(body, request.contentLength);
    var params :- SetBodyParameters(dec, utf8(bytes), request.bodyParams);
    Ok(request.(bodyParams := params))
  }

  /** A body made only of white space adds no parameter. */
  lemma BlankBodyAddsNothing(dec: Decoder, text: string, params: map<string, Option<string>>)
    requires forall i :: 0 <= i < |text| ==> Trimmable(text[i])
    ensures SetBodyParameters(dec, text, params) == Ok(params)
  {
    TrimEmptyIff(text);
  }

  /** A body `p1&p2&...&pn` that is not blank (it has a character above
      space at position `n`) puts each pair in order, so a repeated name
      ends with its last value. */
  lemma BodyPairsInOrder(dec: Decoder, pairs: seq<string>, params: map<string, Option<string>>, n: nat)
    requires |pairs| >= 1 && pairs[|pairs| - 1] != []
    requires forall i :: 0 <= i < |pairs| ==> '&' !in pairs[i]
    requires n < |Join(pairs, '&')| && !Trimmable(Join(pairs, '&')[n])
    ensures ParsePairs(dec, pairs).Ok? ==> SetBodyParameters(dec, Join(pairs, '&'), params) == Ok(PutAll(params, ParsePairs(dec, pairs).value))
  {
    var text := Join(pairs, '&');
    TrimEmptyIff(text);
    LitSplitOfJoin(pairs, '&');
  }

  /** `k=v=w` yields `k -> v`: the tokens after the second are ignored. */
  lemma ExtraTokensIgnored(dec: Decoder, k: string, v: string, w: string, params: map<string, Option<string>>)
    requires '=' !in k && '=' !in v && v != [] && '&' !in k + "=" + v + "=" + w
    requires dec(k).Some? && dec(v).Some?
    ensures SetBodyParameters(dec, k + "=" + v + "=" + w, params) == Ok(params[dec(k).value := Some(dec(v).value)])
  {
    var text := k + "=" + v + "=" + w;
    assert text == k + "=" + v + ("=" + w);
    PairWithValue(dec, k, v, "=" + w);
    var kv := (dec(k).value, Some(dec(v).value));
    var one: seq<string> := [text];
    assert ParsePair(dec, text) == Ok(kv);
    assert ParsePairs(dec, one) == Ok([kv]) by {
      assert one[0] == text && one[1..] == [];
      assert ParsePairs(dec, one[1..]) == Ok([]);
      assert [kv] + [] == [kv];
    }
    assert Join([text], '&') == text;
    assert text[|k|] == '=';
    BodyPairsInOrder(dec, [text], params, |k|);
    assert PutAll(params, [kv]) == PutAll(params, [])[kv.0 := kv.1];
  }
}

=== FILE: http.dfy ===
/** The request and response records the handler chain passes around, the
    exceptions the core raises, and what a handler writes to the socket. */
module Http {
  import opened Wrappers
  import opened Text

  datatype Status = StatusOk | SeeOther | BadRequest | NotFound | InternalServerError | NotImplemented

  /** An HTTP cookie; a `None` value is Java's `null` (a `name` without `=`). */
  datatype Cookie = Cookie(name: string, value: Option<string>, path: Option<string>)

  datatype Session = Session(id: string, valid: bool)

  /** An uploaded file; `closeFault` is the IOException its stream raises on close, if any. */
  datatype MultipartFile = MultipartFile(fieldName: string, fileName: string, closeFault: Option<string>)

  datatype Request = Request(
    verb: string,
    url: string,
    query: map<string, Option<string>>,
    headers: map<string, string>,
    cookies: map<string, Cookie>,
    contentLength: int,
    bodyParams: map<string, Option<string>>,
    files: Option<seq<MultipartFile>>,
    contextPath: string,
    session: Option<Session>)
  {
    /** `getHeader(name)`: exact-case lookup, `None` when absent. */
    function Header(name: string): Option<string> {
      Get(headers, name)
    }
  }

  function NewRequest(): Request {
    Request("", "", map[], map[], map[], 0, map[], None, "", None)
  }

  datatype Content = NoContent | TextContent(text: string) | ByteContent(bytes: seq<Byte>)

  datatype Response = Response(
    status: Option<Status>,
    headers: map<string, string>,
    content: Content,
    cookies: seq<Cookie>)
  {
    function WithStatus(s: Status): (r: Response)
      ensures r.status == Some(s)
      ensures r.headers == headers && r.content == content && r.cookies == cookies
    {
      this.(status := Some(s))
    }

    function WithHeader(name: string, value: string): (r: Response)
      ensures r.headers == headers[name := value]
      ensures r.status == status && r.content == content && r.cookies == cookies
    {
      this.(headers := headers[name := value])
    }

    function WithContent(c: Content): (r: Response)
      ensures r.content == c
      ensures r.status == status && r.headers == headers && r.cookies == cookies
    {
      this.(content := c)
    }

    function WithCookie(c: Cookie): (r: Response)
      ensures r.cookies == cookies + [c]
      ensures r.status == status && r.headers == headers && r.content == content
    {
      this.(cookies := cookies + [c])
    }
  }

  function NewResponse(): Response {
    Response(None, map[], NoContent, [])
  }

  /** One write to the connection's output stream: a serialized response
      (`getBytes()`), or the bytes of a static file streamed after it. */
  datatype Write = ResponseBytes(response: Response) | FileBytes(path: string)

  /** `w` is a serialized response carrying status `s`. */
  predicate WritesStatus(w: Write, s: Status) {
    w.ResponseBytes? && w.response.status == Some(s)
  }

  /** The exceptions the core raises, with the source's messages where it has them. */
  datatype Exn =
    | CannotParseRequest(message: string)
    | RequestTooBig(contentLength: int)
    | IndexOutOfBounds
    | IllegalArgument(message: string)
    | NumberFormat(text: string)
    | NullPointer
    | CannotParseExpression(expression: string)
    | ResourceNotFound(url: string)
    | Runtime(message: string)
}

=== FILE: loading.dfy ===
/** `LoadingRequestHandler`: collects the request handlers the dependency
    container found, sorts them by `order()` with Java's stable list sort,
    and initialises them in that order; the cleanup handlers are kept in
    discovery order. A handler is paired here with its `order()` value. */
module Loading {
  import opened Wrappers
  import RequestProcessor
  import Fallback

  /** `RESOURCE_HANDLER_ORDER` and `DISPATCHER_ORDER` by default. */
  const ResourceOrder := 1
  const DispatcherOrder := 2

  predicate Sorted<H>(xs: seq<(H, int)>) {
    forall i, j :: 0 <= i < j < |xs| ==> xs[i].1 <= xs[j].1
  }

  /** The handlers of one order value, in their relative order. */
  function WithOrder<H>(xs: seq<(H, int)>, k: int): seq<(H, int)>
    decreases |xs|
  {
    if |xs| == 0 then []
    else (if xs[0].1 == k then [xs[0]] else []) + WithOrder(xs[1..], k)
  }

  /** Puts `x` before the first element whose order is not smaller. */
  function Insert<H>(x: (H, int), ys: seq<(H, int)>): (r: seq<(H, int)>)
    ensures |r| == |ys| + 1
    ensures multiset(r) == multiset(ys) + multiset{x}
    decreases |ys|
  {
    if |ys| == 0 then [x]
    else if x.1 <= ys[0].1 then [x] + ys
    else
      assert ys == [ys[0]] + ys[1..];
      [ys[0]] + Insert(x, ys[1..])
  }

  lemma {:induction false} InsertKeepsSorted<H>(x: (H, int), ys: seq<(H, int)>)
    requires Sorted(ys)
    ensures Sorted(Insert(x, ys))
    decreases |ys|
  {
    if |ys| > 0 && x.1 > ys[0].1 {
      var rest := Insert(x, ys[1..]);
      InsertKeepsSorted(x, ys[1..]);
      forall k | 0 <= k < |rest| ensures ys[0].1 <= rest[k].1 {
        assert rest[k] in multiset(rest);
        assert rest[k] == x || rest[k] in multiset(ys[1..]);
        if rest[k] != x {
          var m :| 0 <= m < |ys[1..]| && ys[1..][m] == rest[k];
          assert ys[m + 1] == rest[k];
        }
      }
      var r := [ys[0]] + rest;
      forall i, j | 0 <= i < j < |r| ensures r[i].1 <= r[j].1 {
        if i > 0 {
          assert r[i] == rest[i - 1] && r[j] == rest[j - 1];
        } else {
          assert r[j] == rest[j - 1];
        }
      }
    }
  }

  /** `requestHandlers.sort(comparingInt(order))`. */
  function SortByOrder<H>(xs: seq<(H, int)>): (r: seq<(H, int)>)
    ensures |r| == |xs|
    ensures Sorted(r)
    ensures multiset(r) == multiset(xs)
    decreases |xs|
  {
    if |xs| == 0 then []
    else
      assert xs == [xs[0]] + xs[1..];
      InsertKeepsSorted(xs[0], SortByOrder(xs[1..]));
      Insert(xs[0], SortByOrder(xs[1..]))
  }

  lemma {:induction false} WithOrderInsert<H>(x: (H, int), ys: seq<(H, int)>, k: int)
    requires Sorted(ys)
    ensures WithOrder(Insert(x, ys), k) == if x.1 == k then [x] + WithOrder(ys, k) else WithOrder(ys, k)
    decreases |ys|
  {
    if |ys| > 0 && x.1 > ys[0].1 {
      WithOrderInsert(x, ys[1..], k);
      var rest := Insert(x, ys[1..]);
      assert ([ys[0]] + rest)[1..] == rest;
      assert ([ys[0]] + rest)[0] == ys[0];
    } else if |ys| > 0 {
      assert ([x] + ys)[1..] == ys;
    }
  }

  /** The sort is stable: for every order value, the handlers with that
      order appear in the same relative order as they were discovered. */
  lemma {:induction false} SortIsStable<H>(xs: seq<(H, int)>, k: int)
    ensures WithOrder(SortByOrder(xs), k) == WithOrder(xs, k)
    decreases |xs|
  {
    if |xs| > 0 {
      SortIsStable(xs[1..], k);
      WithOrderInsert(xs[0], SortByOrder(xs[1..]), k);
    }
  }

  /** Handlers with equal orders are the same handler. */
  ghost predicate OrdersIdentify<H>(xs: seq<(H, int)>) {
    forall i, j :: 0 <= i < |xs| && 0 <= j < |xs| && xs[i].1 == xs[j].1 ==> xs[i] == xs[j]
  }

  lemma HeadsAgree<H>(a: seq<(H, int)>, b: seq<(H, int)>)
    requires |a| > 0 && |b| > 0
    requires Sorted(a) && Sorted(b) && multiset(a) == multiset(b) && OrdersIdentify(a)
    ensures a[0] == b[0]
  {
    assert a[0] in multiset(b);
    var j :| 0 <= j < |b| && b[j] == a[0];
    assert b[0] in multiset(a);
    var i :| 0 <= i < |a| && a[i] == b[0];
    assert a[0].1 <= a[i].1 == b[0].1 <= b[j].1 == a[0].1;
  }

  lemma TailsAgree<H>(a: seq<(H, int)>, b: seq<(H, int)>)
    requires |a| > 0 && |b| > 0 && a[0] == b[0] && multiset(a) == multiset(b)
    ensures multiset(a[1..]) == multiset(b[1..])
  {
    assert a == [a[0]] + a[1..] && b == [b[0]] + b[1..];
    assert multiset(a[1..]) == multiset(a) - multiset{a[0]};
    assert multiset(b[1..]) == multiset(b) - multiset{a[0]};
  }

  /** Two sorted arrangements of the same handlers are equal when no two
      different handlers share an order. */
  lemma {:induction false} SortedUnique<H>(a: seq<(H, int)>, b: seq<(H, int)>)
    requires Sorted(a) && Sorted(b) && multiset(a) == multiset(b) && OrdersIdentify(a)
    ensures a == b
    decreases |a|
  {
    assert |b| == |multiset(b)| == |multiset(a)| == |a|;
    if |a| > 0 {
      HeadsAgree(a, b);
      TailsAgree(a, b);
      assert OrdersIdentify(a[1..]) by {
        forall i, j | 0 <= i < |a| - 1 && 0 <= j < |a| - 1 && a[1..][i].1 == a[1..][j].1
          ensures a[1..][i] == a[1..][j]
        {
          assert a[1..][i] == a[i + 1] && a[1..][j] == a[j + 1];
        }
      }
      SortedUnique(a[1..], b[1..]);
      assert a == [a[0]] + a[1..] && b == [b[0]] + b[1..];
    }
  }

  /** The default chain: whatever order the container finds them in, the
      request processor (`Integer.MIN_VALUE`), the resource handler (1), the
      dispatcher (2) and the fallback (`Integer.MAX_VALUE`) run in that order. */
  lemma DefaultChainOrder<H>(discovered: seq<(H, int)>, processor: H, resource: H, dispatcher: H, fallback: H)
    requires multiset(discovered) == multiset([(processor, RequestProcessor.Order), (resource, ResourceOrder),
                                               (dispatcher, DispatcherOrder), (fallback, Fallback.Order)])
    ensures SortByOrder(discovered) == [(processor, RequestProcessor.Order), (resource, ResourceOrder),
                                        (dispatcher, DispatcherOrder), (fallback, Fallback.Order)]
  {
    var chain := [(processor, RequestProcessor.Order), (resource, ResourceOrder),
                  (dispatcher, DispatcherOrder), (fallback, Fallback.Order)];
    assert Sorted(chain);
    assert OrdersIdentify(chain);
    SortedUnique(chain, SortByOrder(discovered));
  }

  /** `f` on each handler, in the order given. */
  function InitAll<H, R>(xs: seq<(H, int)>, f: H -> R): (r: seq<R>)
    ensures |r| == |xs| && forall i :: 0 <= i < |xs| ==> r[i] == f(xs[i].0)
    decreases |xs|
  {
    if |xs| == 0 then [] else [f(xs[0].0)] + InitAll(xs[1..], f)
  }

  lemma {:induction false} InitAllInsert<H, R>(x: (H, int), ys: seq<(H, int)>, f: H -> R)
    ensures multiset(InitAll(Insert(x, ys), f)) == multiset{f(x.0)} + multiset(InitAll(ys, f))
    decreases |ys|
  {
    if |ys| > 0 && x.1 > ys[0].1 {
      InitAllInsert(x, ys[1..], f);
      assert ([ys[0]] + Insert(x, ys[1..]))[1..] == Insert(x, ys[1..]);
      assert InitAll(ys, f) == [f(ys[0].0)] + InitAll(ys[1..], f);
    } else if |ys| > 0 {
      assert ([x] + ys)[1..] == ys;
    }
  }

  lemma {:induction false} InitAllSorted<H, R>(xs: seq<(H, int)>, f: H -> R)
    ensures multiset(InitAll(SortByOrder(xs), f)) == multiset(InitAll(xs, f))
    decreases |xs|
  {
    if |xs| > 0 {
      InitAllSorted(xs[1..], f);
      InitAllInsert(xs[0], SortByOrder(xs[1..]), f);
    }
  }

  /** Handlers as the successful outcomes of their `init()`. */
  function AllOk<H, E>(hs: seq<H>): (r: seq<Result<H, E>>)
    ensures |r| == |hs| && forall i :: 0 <= i < |hs| ==> r[i] == Ok(hs[i])
  {
    seq(|hs|, i requires 0 <= i < |hs| => Ok(hs[i]))
  }

  /** `callInitRequestHandler`: `init()` on each handler in the order given.
      `init` stands for the handler's own `init()`, which may throw (the
      resource handler on a bad caching expression, the dispatcher when it
      cannot load the application); the first exception ends the loop and
      leaves the loader. */
  function InitEach<H, E>(xs: seq<(H, int)>, init: H -> Result<H, E>): (r: Result<seq<H>, E>)
    ensures r.Ok? ==> |r.value| == |xs|
    decreases |xs|
  {
    if |xs| == 0 then Ok([])
    else
      var first :- init(xs[0].0);
      var rest :- InitEach(xs[1..], init);
      Ok([first] + rest)
  }

  /** The loop gets through exactly when no `init` throws, and then holds
      every handler's initialised self, in order. */
  lemma {:induction false} InitEachOk<H, E>(xs: seq<(H, int)>, init: H -> Result<H, E>)
    ensures InitEach(xs, init).Ok? <==> forall i :: 0 <= i < |xs| ==> init(xs[i].0).Ok?
    ensures InitEach(xs, init).Ok? ==> AllOk(InitEach(xs, init).value) == InitAll(xs, init)
    decreases |xs|
  {
    if |xs| > 0 {
      InitEachOk(xs[1..], init);
      forall i | 0 <= i < |xs| - 1 ensures xs[1..][i] == xs[i + 1] { }
      if InitEach(xs, init).Ok? {
        var v := InitEach(xs, init).value;
        assert v == [init(xs[0].0).value] + InitEach(xs[1..], init).value;
        assert AllOk(v) == [init(xs[0].0)] + AllOk(InitEach(xs[1..], init).value);
        assert InitAll(xs, init) == [init(xs[0].0)] + InitAll(xs[1..], init);
      }
    }
  }

  /** When the handler at `k` is the first whose `init` throws, the loop
      ends with that exception. */
  lemma {:induction false} InitEachFirstErr<H, E>(xs: seq<(H, int)>, init: H -> Result<H, E>, k: nat)
    requires k < |xs| && init(xs[k].0).Err?
    requires forall i :: 0 <= i < k ==> init(xs[i].0).Ok?
    ensures InitEach(xs, init) == Err(init(xs[k].0).error)
    decreases k
  {
    if k > 0 {
      forall i | 0 <= i < k - 1 ensures init(xs[1..][i].0).Ok? {
        assert xs[1..][i] == xs[i + 1];
      }
      InitEachFirstErr(xs[1..], init, k - 1);
      assert xs[1..][k - 1] == xs[k];
    }
  }

  /** `handlerRequestHandlers`: sorted, then `init` on each, in that order. */
  function LoadRequestHandlers<H, E>(discovered: seq<(H, int)>, init: H -> Result<H, E>): (r: Result<seq<H>, E>)
    ensures r.Ok? ==> |r.value| == |discovered|
    ensures r.Ok? ==> forall i :: 0 <= i < |r.value| ==> Ok(r.value[i]) == init(SortByOrder(discovered)[i].0)
  {
    var sorted := SortByOrder(discovered);
    InitEachOk(sorted, init);
    var r := InitEach(sorted, init);
    if r.Ok? then
      assert forall i :: 0 <= i < |r.value| ==> Ok(r.value[i]) == AllOk<H, E>(r.value)[i];
      r
    else r
  }

  /** Loading fails with the exception of the first handler, in sorted
      order, whose `init` throws. */
  lemma LoadFailsAtFirstThrowingInit<H, E>(discovered: seq<(H, int)>, init: H -> Result<H, E>, k: nat)
    requires k < |discovered|
    requires init(SortByOrder(discovered)[k].0).Err?
    requires forall i :: 0 <= i < k ==> init(SortByOrder(discovered)[i].0).Ok?
    ensures LoadRequestHandlers(discovered, init) == Err(init(SortByOrder(discovered)[k].0).error)
  {
    InitEachFirstErr(SortByOrder(discovered), init, k);
  }

  /** Every discovered handler is initialised exactly once: loading gets
      through exactly when no discovered handler's `init` throws, and the
      loaded list then holds the initialised self of each discovered
      handler, as often as it was found. */
  lemma EachHandlerInitialisedOnce<H, E>(discovered: seq<(H, int)>, init: H -> Result<H, E>)
    ensures LoadRequestHandlers(discovered, init).Ok? <==>
      forall i :: 0 <= i < |discovered| ==> init(discovered[i].0).Ok?
    ensures LoadRequestHandlers(discovered, init).Ok? ==>
      multiset(AllOk(LoadRequestHandlers(discovered, init).value)) == multiset(InitAll(discovered, init))
  {
    var sorted := SortByOrder(discovered);
    InitEachOk(sorted, init);
    InitAllSorted(discovered, init);
    var inSorted, inFound := InitAll(sorted, init), InitAll(discovered, init);
    assert multiset(inSorted) == multiset(inFound);
    if forall i :: 0 <= i < |discovered| ==> init(discovered[i].0).Ok? {
      forall j | 0 <= j < |sorted| ensures init(sorted[j].0).Ok? {
        assert inSorted[j] in multiset(inFound);
        var i :| 0 <= i < |inFound| && inFound[i] == inSorted[j];
      }
    }
    if forall j :: 0 <= j < |sorted| ==> init(sorted[j].0).Ok? {
      forall i | 0 <= i < |discovered| ensures init(discovered[i].0).Ok? {
        assert inFound[i] in multiset(inSorted);
        var j :| 0 <= j < |inSorted| && inSorted[j] == inFound[i];
      }
    }
  }

  /** What the loader keeps: `getRequestHandlers` and
      `getRequestDestroyHandlers` answer these lists. */
  datatype Loaded<H, D> = Loaded(requestHandlers: seq<H>, destroyHandlers: seq<D>)

  /** `loadRequestHandlers`: the sorted, initialised request handlers, and the
      cleanup handlers exactly as discovered. An `init` that throws leaves
      before the cleanup handlers are collected, and the server start-up
      gives up on that exception. */
  function Load<H, D, E>(discovered: seq<(H, int)>, init: H -> Result<H, E>, destroys: seq<D>): (r: Result<Loaded<H, D>, E>)
    ensures r.Ok? <==> LoadRequestHandlers(discovered, init).Ok?
    ensures r.Ok? ==> r.value.requestHandlers == LoadRequestHandlers(discovered, init).value
    ensures r.Ok? ==> r.value.destroyHandlers == destroys
    ensures r.Err? ==> r.error == LoadRequestHandlers(discovered, init).error
  {
    var hs :- LoadRequestHandlers(discovered, init);
    Ok(Loaded(hs, destroys))
  }

  /** One step of the loop: the first handler, then the rest. */
  lemma InitEachCons<H, E>(x: (H, int), ys: seq<(H, int)>, init: H -> Result<H, E>)
    ensures InitEach([x] + ys, init) ==
      if init(x.0).Err? then Err(init(x.0).error)
      else if InitEach(ys, init).Err? then Err(InitEach(ys, init).error)
      else Ok([init(x.0).value] + InitEach(ys, init).value)
  {
    assert ([x] + ys)[1..] == ys;
  }

  /** The loop over four handlers, unrolled. */
  lemma InitEachOfFour<H, E>(a: (H, int), b: (H, int), c: (H, int), d: (H, int), init: H -> Result<H, E>)
    ensures InitEach([a, b, c, d], init) ==
      if init(a.0).Err? then Err(init(a.0).error)
      else if init(b.0).Err? then Err(init(b.0).error)
      else if init(c.0).Err? then Err(init(c.0).error)
      else if init(d.0).Err? then Err(init(d.0).error)
      else Ok([init(a.0).value, init(b.0).value, init(c.0).value, init(d.0).value])
  {
    assert InitEach([], init) == Ok([]);
    InitEachCons(d, [], init);
    assert [d] == [d] + [];
    InitEachCons(c, [d], init);
    assert [c, d] == [c] + [d];
    InitEachCons(b, [c, d], init);
    assert [b, c, d] == [b] + [c, d];
    InitEachCons(a, [b, c, d], init);
    assert [a, b, c, d] == [a] + [b, c, d];
    if init(a.0).Ok? && init(b.0).Ok? && init(c.0).Ok? && init(d.0).Ok? {
      var va, vb, vc, vd := init(a.0).value, init(b.0).value, init(c.0).value, init(d.0).value;
      assert [vd] + [] == [vd];
      assert InitEach([d], init) == Ok([vd]);
      assert InitEach([c, d], init) == Ok([vc] + [vd]);
      assert [vc] + [vd] == [vc, vd];
      assert InitEach([b, c, d], init) == Ok([vb] + [vc, vd]);
      assert [vb] + [vc, vd] == [vb, vc, vd];
      assert [va] + [vb, vc, vd] == [va, vb, vc, vd];
    }
  }

  /** With the default handlers, the loader answers the initialised request
      processor, resource handler, dispatcher and fallback, in that order,
      unless one of their `init` calls throws; then it answers the
      exception of the first to throw in that order. */
  lemma DefaultChainLoaded<H, D, E>(discovered: seq<(H, int)>, init: H -> Result<H, E>, destroys: seq<D>,
                                    processor: H, resource: H, dispatcher: H, fallback: H)
    requires multiset(discovered) == multiset([(processor, RequestProcessor.Order), (resource, ResourceOrder),
                                               (dispatcher, DispatcherOrder), (fallback, Fallback.Order)])
    ensures Load(discovered, init, destroys) ==
      if init(processor).Err? then Err(init(processor).error)
      else if init(resource).Err? then Err(init(resource).error)
      else if init(dispatcher).Err? then Err(init(dispatcher).error)
      else if init(fallback).Err? then Err(init(fallback).error)
      else Ok(Loaded([init(processor).value, init(resource).value, init(dispatcher).value,
                      init(fallback).value], destroys))
  {
    DefaultChainOrder(discovered, processor, resource, dispatcher, fallback);
    InitEachOfFour((processor, RequestProcessor.Order), (resource, ResourceOrder),
                   (dispatcher, DispatcherOrder), (fallback, Fallback.Order), init);
  }
}

=== FILE: metadata.dfy ===
/** `RequestProcessor.parseMetadataLines`: reads the request line and header
    lines from the socket one byte at a time, up to the first blank line.

    A line ends at CR LF, or at a CR that is the last byte of the stream. A CR
    followed by anything else is an error, and so is a LF without a CR before
    it unless `allowBareLF` is set. A line terminator with nothing before it
    ends the block. Fewer than two bytes counted at the loop head (the LF of a
    CR LF pair is read separately and not counted) means the request is empty.

    When the stream ends right after a CR, the code as written adds the last
    line, leaves the loop without clearing the line buffer, and then adds the
    buffer a second time. `Variant` selects that behaviour (`AsWritten`) or the
    evidently intended one (`Corrected`); the request pipeline runs
    `AsWritten`, as the server does. */
module Metadata {
  import opened Wrappers
  import opened Text

  datatype Variant = AsWritten | Corrected

  datatype ParseError = IllegalAfterReturn(line: int) | BareNewLine(line: int) | EmptyRequest

  /** The message of the `CannotParseRequestException` each error raises. */
  function Message(e: ParseError): string {
    match e
    case IllegalAfterReturn(n) => "Illegal character after return on line " + IntToString(n) + "."
    case BareNewLine(n) => "Illegal new-line character without preceding return on line " + IntToString(n) + "."
    case EmptyRequest => "Request is empty"
  }

  /** The metadata lines, and the stream position where the body starts. */
  datatype Block = Block(lines: seq<string>, next: nat)

  predicate IsTerminator(b: Byte) {
    b == CR || b == LF
  }

  /** Index of the first line terminator at or after `i`, or `|bs|`. */
  function LineEnd(bs: seq<Byte>, i: nat): (e: nat)
    requires i <= |bs|
    ensures i <= e <= |bs|
    ensures forall j :: i <= j < e ==> !IsTerminator(bs[j])
    ensures e < |bs| ==> IsTerminator(bs[e])
    decreases |bs| - i
  {
    if i == |bs| || IsTerminator(bs[i]) then i else LineEnd(bs, i + 1)
  }

  /** Lines read so far, where the block ended, and how many bytes were counted. */
  datatype Scan = Scan(lines: seq<string>, next: nat, counted: nat)

  function Prefixed(lines: seq<string>, r: Result<Scan, ParseError>): Result<Scan, ParseError> {
    match r
    case Ok(sc) => Ok(sc.(lines := lines + sc.lines))
    case Err(e) => Err(e)
  }

  /** Reference definition, one line per step: the line starting at `s` runs
      to the next terminator, which decides what happens next. */
  function ScanLines(bs: seq<Byte>, allowBareLF: bool, v: Variant, s: nat, lineNo: int, counted: nat)
    : Result<Scan, ParseError>
    requires s <= |bs|
    decreases |bs| - s
  {
    var e := LineEnd(bs, s);
    var line := FromBytes(bs[s..e]);
    var c := counted + (e - s);
    if e == |bs| then
      Ok(Scan(if |line| > 0 then [line] else [], e, c))
    else if bs[e] == CR then
      if e + 1 < |bs| && bs[e + 1] != LF then Err(IllegalAfterReturn(lineNo))
      else if |line| == 0 then Ok(Scan([], if e + 1 < |bs| then e + 2 else e + 1, c + 1))
      else if e + 1 == |bs| then Ok(Scan(if v == AsWritten then [line, line] else [line], e + 1, c + 1))
      else Prefixed([line], ScanLines(bs, allowBareLF, v, e + 2, lineNo + 1, c + 1))
    else if !allowBareLF then Err(BareNewLine(lineNo))
    else if |line| == 0 then Ok(Scan([], e + 1, c + 1))
    else Prefixed([line], ScanLines(bs, allowBareLF, v, e + 1, lineNo + 1, c + 1))
  }

  lemma PrefixedNothing(r: Result<Scan, ParseError>)
    ensures Prefixed([], r) == r
  {
    if r.Ok? {
      assert [] + r.value.lines == r.value.lines;
    }
  }

  /** The check after the loop: too few counted bytes means an empty request. */
  function Finish(lines: seq<string>, counted: nat, next: nat): Result<Block, ParseError> {
    if counted < 2 then Err(EmptyRequest) else Ok(Block(lines, next))
  }

  function Conclude(r: Result<Scan, ParseError>): Result<Block, ParseError> {
    match r
    case Err(e) => Err(e)
    case Ok(sc) => Finish(sc.lines, sc.counted, sc.next)
  }

  function Parse(bs: seq<Byte>, allowBareLF: bool, v: Variant): Result<Block, ParseError> {
    Conclude(ScanLines(bs, allowBareLF, v, 0, 1, 0))
  }

  /** The locals of the loop in `parseMetadataLines`; `p` is the stream position. */
  datatype Reader = Reader(
    lines: seq<string>, builder: string, wasNewLine: bool, lineNumber: int, readBytesCount: nat, p: nat)

  /** After one byte the loop either goes on, or leaves with the method's result. */
  datatype Step = Next(reader: Reader) | Stop(result: Result<Block, ParseError>)

  /** How the locals relate to the reference definition: the current line
      started at `s` with `base` bytes counted before it. */
  ghost predicate Tracks(bs: seq<Byte>, rd: Reader, s: nat, base: nat) {
    s <= rd.p <= |bs|
    && rd.builder == FromBytes(bs[s..rd.p])
    && (rd.wasNewLine <==> s == rd.p)
    && LineEnd(bs, s) == LineEnd(bs, rd.p)
    && rd.readBytesCount == base + (rd.p - s)
  }

  /** What remains to be read from `rd`, as the reference definition sees it. */
  ghost function Rest(bs: seq<Byte>, allowBareLF: bool, v: Variant, rd: Reader, s: nat, base: nat): Result<Scan, ParseError>
    requires s <= |bs|
  {
    Prefixed(rd.lines, ScanLines(bs, allowBareLF, v, s, rd.lineNumber, base))
  }

  /** The loop of `parseMetadataLines`, reading `bs` one byte at a time;
      reading past the end yields -1, so `p == |bs|` plays that role. */
  method ParseMetadataLines(bs: seq<Byte>, allowBareLF: bool, v: Variant) returns (r: Result<Block, ParseError>)
    ensures r == Parse(bs, allowBareLF, v)
  {
    var rd := Reader([], [], true, 1, 0, 0);
    ghost var s: nat := 0;
    ghost var base: nat := 0;
    PrefixedNothing(ScanLines(bs, allowBareLF, v, 0, 1, 0));
    while rd.p < |bs|
      invariant Tracks(bs, rd, s, base)
      invariant ScanLines(bs, allowBareLF, v, 0, 1, 0) == Rest(bs, allowBareLF, v, rd, s, base)
      decreases |bs| - rd.p
    {
      var step;
      step, s, base := ReadByte(bs, allowBareLF, v, rd, s, base);
      if step.Stop? {
        return step.result;
      }
      rd := step.reader;
    }
    StreamEndsInLine(bs, allowBareLF, v, rd.lines, s, rd.lineNumber, base);
    assert bs[s..rd.p] == bs[s..|bs|];
    var lines := rd.lines;
    if |rd.builder| > 0 {
      lines := lines + [rd.builder];
    }
    return Finish(lines, rd.readBytesCount, rd.p);
  }

  /** One pass of the loop body: reads the byte at `rd.p`. */
  method ReadByte(bs: seq<Byte>, allowBareLF: bool, v: Variant, rd: Reader, ghost s: nat, ghost base: nat)
    returns (step: Step, ghost s': nat, ghost base': nat)
    requires rd.p < |bs| && Tracks(bs, rd, s, base)
    ensures step.Next? ==> rd.p < step.reader.p && Tracks(bs, step.reader, s', base')
    ensures step.Next? ==>
      Rest(bs, allowBareLF, v, rd, s, base) == Rest(bs, allowBareLF, v, step.reader, s', base')
    ensures step.Stop? ==> step.result == Conclude(Rest(bs, allowBareLF, v, rd, s, base))
  {
    var b := bs[rd.p];
    if b == CR {
      step, s', base' := ReadReturn(bs, allowBareLF, v, rd, s, base);
    } else if b == LF {
      step, s', base' := ReadNewLine(bs, allowBareLF, v, rd, s, base);
    } else {
      OrdinaryByte(bs, rd, s, base);
      step := Next(rd.(builder := rd.builder + [b as char], wasNewLine := false,
                       readBytesCount := rd.readBytesCount + 1, p := rd.p + 1));
      s', base' := s, base;
    }
  }

  /** The loop body when the byte read is a CR: it must be followed by LF or
      by the end of the stream. */
  method ReadReturn(bs: seq<Byte>, allowBareLF: bool, v: Variant, rd: Reader, ghost s: nat, ghost base: nat)
    returns (step: Step, ghost s': nat, ghost base': nat)
    requires rd.p < |bs| && bs[rd.p] == CR && Tracks(bs, rd, s, base)
    ensures step.Next? ==> rd.p < step.reader.p && Tracks(bs, step.reader, s', base')
    ensures step.Next? ==>
      Rest(bs, allowBareLF, v, rd, s, base) == Rest(bs, allowBareLF, v, step.reader, s', base')
    ensures step.Stop? ==> step.result == Conclude(Rest(bs, allowBareLF, v, rd, s, base))
  {
    var e := rd.p;
    var p := e + 1;
    var readBytesCount := rd.readBytesCount + 1;
    s', base' := s, base;
    assert LineEnd(bs, s) == e;
    if p == |bs| || bs[p] == LF {
      var atEnd := p == |bs|;
      if !atEnd {
        p := p + 1;
      }
      if rd.wasNewLine {
        BlankAfterReturn(bs, allowBareLF, v, rd.lines, s, rd.lineNumber, base);
        return Stop(Finish(rd.lines, readBytesCount, p)), s', base';
      }
      if atEnd {
        ReturnAtEnd(bs, allowBareLF, v, rd.lines, s, e, rd.lineNumber, base);
        // The source leaves the loop here without clearing the buffer,
        // so the check after the loop adds the same line again.
        var lines := rd.lines + [rd.builder];
        if v == AsWritten {
          lines := lines + [rd.builder];
        }
        return Stop(Finish(lines, readBytesCount, p)), s', base';
      }
      LineAfterReturn(bs, allowBareLF, v, rd.lines, s, e, rd.lineNumber, base);
      step := Next(Reader(rd.lines + [rd.builder], [], true, rd.lineNumber + 1, readBytesCount, p));
      s', base' := p, readBytesCount;
      assert bs[p..p] == [];
    } else {
      IllegalAfterReturnStep(bs, allowBareLF, v, rd.lines, s, e, rd.lineNumber, base);
      step := Stop(Err(IllegalAfterReturn(rd.lineNumber)));
    }
  }

  /** The loop body when the byte read is a LF without a CR before it. */
  method ReadNewLine(bs: seq<Byte>, allowBareLF: bool, v: Variant, rd: Reader, ghost s: nat, ghost base: nat)
    returns (step: Step, ghost s': nat, ghost base': nat)
    requires rd.p < |bs| && bs[rd.p] == LF && Tracks(bs, rd, s, base)
    ensures step.Next? ==> rd.p < step.reader.p && Tracks(bs, step.reader, s', base')
    ensures step.Next? ==>
      Rest(bs, allowBareLF, v, rd, s, base) == Rest(bs, allowBareLF, v, step.reader, s', base')
    ensures step.Stop? ==> step.result == Conclude(Rest(bs, allowBareLF, v, rd, s, base))
  {
    var e := rd.p;
    var p := e + 1;
    var readBytesCount := rd.readBytesCount + 1;
    s', base' := s, base;
    assert LineEnd(bs, s) == e;
    if !allowBareLF {
      BareNewLineStep(bs, v, rd.lines, s, e, rd.lineNumber, base);
      return Stop(Err(BareNewLine(rd.lineNumber))), s', base';
    }
    if rd.wasNewLine {
      BlankAfterNewLine(bs, v, rd.lines, s, rd.lineNumber, base);
      return Stop(Finish(rd.lines, readBytesCount, p)), s', base';
    }
    LineAfterNewLine(bs, v, rd.lines, s, e, rd.lineNumber, base);
    step := Next(Reader(rd.lines + [rd.builder], [], true, rd.lineNumber + 1, readBytesCount, p));
    s', base' := p, readBytesCount;
    assert bs[p..p] == [];
  }

  /** An ordinary byte extends the current line. */
  lemma OrdinaryByte(bs: seq<Byte>, rd: Reader, s: nat, base: nat)
    requires rd.p < |bs| && !IsTerminator(bs[rd.p]) && Tracks(bs, rd, s, base)
    ensures Tracks(bs, rd.(builder := rd.builder + [bs[rd.p] as char], wasNewLine := false,
                           readBytesCount := rd.readBytesCount + 1, p := rd.p + 1), s, base)
  {
    assert bs[s..rd.p + 1] == bs[s..rd.p] + [bs[rd.p]];
  }

  // One lemma per way a loop iteration of `ParseMetadataLines` can end.

  lemma BlankAfterReturn(bs: seq<Byte>, allowBareLF: bool, v: Variant, lines: seq<string>, s: nat, lineNo: int, base: nat)
    requires s < |bs| && bs[s] == CR && (s + 1 == |bs| || bs[s + 1] == LF)
    ensures Conclude(Prefixed(lines, ScanLines(bs, allowBareLF, v, s, lineNo, base))) ==
      Finish(lines, base + 1, if s + 1 < |bs| then s + 2 else s + 1)
  {
    assert lines + [] == lines;
  }

  lemma ReturnAtEnd(bs: seq<Byte>, allowBareLF: bool, v: Variant, lines: seq<string>, s: nat, e: nat, lineNo: int, base: nat)
    requires s < e && e + 1 == |bs| && LineEnd(bs, s) == e && bs[e] == CR
    ensures var line := FromBytes(bs[s..e]);
      Conclude(Prefixed(lines, ScanLines(bs, allowBareLF, v, s, lineNo, base))) ==
        Finish(if v == AsWritten then lines + [line] + [line] else lines + [line], base + (e - s) + 1, e + 1)
  {
    var line := FromBytes(bs[s..e]);
    assert lines + [line, line] == lines + [line] + [line];
  }

  lemma LineAfterReturn(bs: seq<Byte>, allowBareLF: bool, v: Variant, lines: seq<string>, s: nat, e: nat, lineNo: int, base: nat)
    requires s < e && e + 1 < |bs| && LineEnd(bs, s) == e && bs[e] == CR && bs[e + 1] == LF
    ensures Prefixed(lines, ScanLines(bs, allowBareLF, v, s, lineNo, base)) ==
      Prefixed(lines + [FromBytes(bs[s..e])], ScanLines(bs, allowBareLF, v, e + 2, lineNo + 1, base + (e - s) + 1))
  {
    PrefixedTwice(lines, [FromBytes(bs[s..e])], ScanLines(bs, allowBareLF, v, e + 2, lineNo + 1, base + (e - s) + 1));
  }

  lemma IllegalAfterReturnStep(bs: seq<Byte>, allowBareLF: bool, v: Variant, lines: seq<string>, s: nat, e: nat, lineNo: int, base: nat)
    requires s <= e && e + 1 < |bs| && LineEnd(bs, s) == e && bs[e] == CR && bs[e + 1] != LF
    ensures Conclude(Prefixed(lines, ScanLines(bs, allowBareLF, v, s, lineNo, base))) == Err(IllegalAfterReturn(lineNo))
  {
  }

  lemma BareNewLineStep(bs: seq<Byte>, v: Variant, lines: seq<string>, s: nat, e: nat, lineNo: int, base: nat)
    requires s <= e < |bs| && LineEnd(bs, s) == e && bs[e] == LF
    ensures Conclude(Prefixed(lines, ScanLines(bs, false, v, s, lineNo, base))) == Err(BareNewLine(lineNo))
  {
  }

  lemma BlankAfterNewLine(bs: seq<Byte>, v: Variant, lines: seq<string>, s: nat, lineNo: int, base: nat)
    requires s < |bs| && bs[s] == LF
    ensures Conclude(Prefixed(lines, ScanLines(bs, true, v, s, lineNo, base))) == Finish(lines, base + 1, s + 1)
  {
    assert lines + [] == lines;
  }

  lemma LineAfterNewLine(bs: seq<Byte>, v: Variant, lines: seq<string>, s: nat, e: nat, lineNo: int, base: nat)
    requires s < e < |bs| && LineEnd(bs, s) == e && bs[e] == LF
    ensures Prefixed(lines, ScanLines(bs, true, v, s, lineNo, base)) ==
      Prefixed(lines + [FromBytes(bs[s..e])], ScanLines(bs, true, v, e + 1, lineNo + 1, base + (e - s) + 1))
  {
    PrefixedTwice(lines, [FromBytes(bs[s..e])], ScanLines(bs, true, v, e + 1, lineNo + 1, base + (e - s) + 1));
  }

  lemma StreamEndsInLine(bs: seq<Byte>, allowBareLF: bool, v: Variant, lines: seq<string>, s: nat, lineNo: int, base: nat)
    requires s <= |bs| && LineEnd(bs, s) == |bs|
    ensures var line := FromBytes(bs[s..|bs|]);
      Conclude(Prefixed(lines, ScanLines(bs, allowBareLF, v, s, lineNo, base))) ==
        Finish(if |line| > 0 then lines + [line] else lines, base + (|bs| - s), |bs|)
  {
    assert lines + [] == lines;
  }

  lemma PrefixedTwice(a: seq<string>, b: seq<string>, r: Result<Scan, ParseError>)
    ensures Prefixed(a, Prefixed(b, r)) == Prefixed(a + b, r)
  {
    if r.Ok? {
      assert a + (b + r.value.lines) == (a + b) + r.value.lines;
    }
  }

  // ------------------------------------------------------------ properties

  /** The bytes of `bs` that are not line terminators, in order. */
  function Payload(bs: seq<Byte>): seq<Byte> {
    if |bs| == 0 then [] else (if IsTerminator(bs[0]) then [] else [bs[0]]) + Payload(bs[1..])
  }

  function Concat(lines: seq<string>): string {
    if |lines| == 0 then [] else lines[0] + Concat(lines[1..])
  }

  lemma {:induction false} PayloadAppend(a: seq<Byte>, b: seq<Byte>)
    ensures Payload(a + b) == Payload(a) + Payload(b)
    decreases |a|
  {
    if |a| == 0 {
      assert a + b == b;
    } else {
      var head: seq<Byte> := if IsTerminator(a[0]) then [] else [a[0]];
      assert (a + b)[0] == a[0];
      assert (a + b)[1..] == a[1..] + b;
      PayloadAppend(a[1..], b);
      assert Payload(a + b) == head + (Payload(a[1..]) + Payload(b));
      assert head + (Payload(a[1..]) + Payload(b)) == (head + Payload(a[1..])) + Payload(b);
    }
  }

  lemma {:induction false} PayloadClean(a: seq<Byte>)
    requires forall j :: 0 <= j < |a| ==> !IsTerminator(a[j])
    ensures Payload(a) == a
    decreases |a|
  {
    if |a| > 0 {
      PayloadClean(a[1..]);
    }
  }

  lemma {:induction false} PayloadOfTerminators(a: seq<Byte>)
    requires forall j :: 0 <= j < |a| ==> IsTerminator(a[j])
    ensures Payload(a) == []
    decreases |a|
  {
    if |a| > 0 {
      PayloadOfTerminators(a[1..]);
    }
  }

  lemma FromBytesAppend(a: seq<Byte>, b: seq<Byte>)
    ensures FromBytes(a + b) == FromBytes(a) + FromBytes(b)
  {
  }

  /** A line holds neither CR nor LF and is never empty. */
  predicate CleanLine(line: string) {
    |line| > 0 && forall j :: 0 <= j < |line| ==> line[j] as int != CR && line[j] as int != LF
  }

  /** The text between a line's start and its terminator is a clean line
      unless it is empty. */
  lemma LineIsClean(bs: seq<Byte>, s: nat)
    requires s <= |bs|
    ensures var line := FromBytes(bs[s..LineEnd(bs, s)]);
      |line| > 0 ==> CleanLine(line)
  {
    var e := LineEnd(bs, s);
    var line := FromBytes(bs[s..e]);
    forall j | 0 <= j < |line| ensures line[j] as int != CR && line[j] as int != LF {
      assert line[j] as int == bs[s + j];
    }
  }

  /** Putting a clean line before a scan of clean lines keeps them clean. */
  lemma PrefixedClean(line: string, r: Result<Scan, ParseError>)
    requires CleanLine(line)
    requires r.Ok? ==> forall i :: 0 <= i < |r.value.lines| ==> CleanLine(r.value.lines[i])
    ensures var p := Prefixed([line], r);
      p.Ok? ==> p.value.next == r.value.next && forall i :: 0 <= i < |p.value.lines| ==> CleanLine(p.value.lines[i])
  {
    if r.Ok? {
      var p := Prefixed([line], r).value.lines;
      forall i | 0 <= i < |p| ensures CleanLine(p[i]) {
        if i > 0 {
          assert p[i] == r.value.lines[i - 1];
        }
      }
    }
  }

  lemma {:induction false} ScanLinesClean(bs: seq<Byte>, allowBareLF: bool, v: Variant, s: nat, lineNo: int, counted: nat)
    requires s <= |bs|
    ensures var r := ScanLines(bs, allowBareLF, v, s, lineNo, counted);
      r.Ok? ==> s <= r.value.next <= |bs| && forall i :: 0 <= i < |r.value.lines| ==> CleanLine(r.value.lines[i])
    decreases |bs| - s
  {
    var e := LineEnd(bs, s);
    var line := FromBytes(bs[s..e]);
    LineIsClean(bs, s);
    if e < |bs| && |line| > 0 {
      var t := if bs[e] == CR && e + 1 < |bs| then e + 2 else e + 1;
      if t <= |bs| {
        ScanLinesClean(bs, allowBareLF, v, t, lineNo + 1, counted + (e - s) + 1);
        PrefixedClean(line, ScanLines(bs, allowBareLF, v, t, lineNo + 1, counted + (e - s) + 1));
      }
    }
  }

  /** Every metadata line returned is non-empty and free of CR and LF, and the
      block ends inside the stream; this holds for both variants. */
  lemma LinesAreClean(bs: seq<Byte>, allowBareLF: bool, v: Variant)
    ensures var r := Parse(bs, allowBareLF, v);
      r.Ok? ==> r.value.next <= |bs| && forall i :: 0 <= i < |r.value.lines| ==> CleanLine(r.value.lines[i])
  {
    ScanLinesClean(bs, allowBareLF, v, 0, 1, 0);
  }

  /** Where the line after the terminator at `e` starts: CR LF is skipped as one. */
  function NextStart(bs: seq<Byte>, e: nat): nat
    requires e < |bs|
  {
    if bs[e] == CR && e + 1 < |bs| then e + 2 else e + 1
  }

  /** One step of the corrected scan: a non-empty line followed by more input
      is put before the scan of the rest; otherwise the scan ends here with
      that line, or with none when it is empty. */
  lemma CorrectedStep(bs: seq<Byte>, allowBareLF: bool, s: nat, lineNo: int, counted: nat)
    requires s <= |bs|
    ensures var r := ScanLines(bs, allowBareLF, Corrected, s, lineNo, counted);
      var e := LineEnd(bs, s);
      var line := FromBytes(bs[s..e]);
      r.Ok? ==>
        if e < |bs| && |line| > 0 && !(bs[e] == CR && e + 1 == |bs|) then
          NextStart(bs, e) <= |bs| &&
          r == Prefixed([line], ScanLines(bs, allowBareLF, Corrected, NextStart(bs, e), lineNo + 1, counted + (e - s) + 1))
        else
          r.value.lines == (if |line| > 0 then [line] else []) &&
          r.value.next == (if e == |bs| then e else NextStart(bs, e))
  {
  }

  lemma {:induction false} ScanLinesKeepBytes(bs: seq<Byte>, allowBareLF: bool, s: nat, lineNo: int, counted: nat)
    requires s <= |bs|
    ensures var r := ScanLines(bs, allowBareLF, Corrected, s, lineNo, counted);
      r.Ok? ==> s <= r.value.next <= |bs| && Concat(r.value.lines) == FromBytes(Payload(bs[s..r.value.next]))
    decreases |bs| - s
  {
    var r := ScanLines(bs, allowBareLF, Corrected, s, lineNo, counted);
    var e := LineEnd(bs, s);
    var line := FromBytes(bs[s..e]);
    CorrectedStep(bs, allowBareLF, s, lineNo, counted);
    if r.Ok? {
      if e == |bs| {
        JoinPayload(bs, s, e, e, e);
        SingleOrNone(line, r.value.lines);
      } else {
        var t := NextStart(bs, e);
        assert t == e + 2 ==> bs[e + 1] == LF;
        if |line| > 0 && !(bs[e] == CR && e + 1 == |bs|) {
          var c := counted + (e - s) + 1;
          ScanLinesKeepBytes(bs, allowBareLF, t, lineNo + 1, c);
          var rest := ScanLines(bs, allowBareLF, Corrected, t, lineNo + 1, c);
          ConcatCons(line, rest.value.lines);
          JoinPayload(bs, s, e, t, r.value.next);
        } else {
          JoinPayload(bs, s, e, t, t);
          SingleOrNone(line, r.value.lines);
        }
      }
    }
  }

  lemma ConcatCons(line: string, rest: seq<string>)
    ensures Concat([line] + rest) == line + Concat(rest)
  {
    assert ([line] + rest)[1..] == rest;
  }

  /** The lines of a final step: the line itself, or nothing when it is empty. */
  lemma SingleOrNone(line: string, lines: seq<string>)
    requires lines == (if |line| > 0 then [line] else [])
    ensures Concat(lines) == line
  {
    if |line| > 0 {
      ConcatCons(line, []);
    }
  }

  /** A line, then its terminator, then the rest: the payload is the line
      followed by the rest's payload. */
  lemma JoinPayload(bs: seq<Byte>, s: nat, e: nat, t: nat, n: nat)
    requires s <= e <= t <= n <= |bs|
    requires forall j :: s <= j < e ==> !IsTerminator(bs[j])
    requires forall j :: e <= j < t ==> IsTerminator(bs[j])
    ensures FromBytes(Payload(bs[s..n])) == FromBytes(bs[s..e]) + FromBytes(Payload(bs[t..n]))
  {
    assert bs[s..n] == bs[s..e] + (bs[e..t] + bs[t..n]);
    PayloadAppend(bs[e..t], bs[t..n]);
    PayloadAppend(bs[s..e], bs[e..t] + bs[t..n]);
    PayloadClean(bs[s..e]);
    PayloadOfTerminators(bs[e..t]);
    FromBytesAppend(bs[s..e], Payload(bs[t..n]));
  }

  /** Corrected variant: the lines are exactly the non-terminator bytes of the
      consumed metadata, in their original order. */
  lemma LinesKeepPayload(bs: seq<Byte>, allowBareLF: bool)
    ensures var r := Parse(bs, allowBareLF, Corrected);
      r.Ok? ==> r.value.next <= |bs| && Concat(r.value.lines) == FromBytes(Payload(bs[..r.value.next]))
  {
    ScanLinesKeepBytes(bs, allowBareLF, 0, 1, 0);
  }

  /** As written, a stream that ends right after a CR yields its last line
      twice, so the lines no longer match the bytes read. */
  lemma ReturnAtEndRepeatsLine(line: seq<Byte>)
    requires |line| > 0 && forall j :: 0 <= j < |line| ==> !IsTerminator(line[j])
    ensures Parse(line + [CR], false, AsWritten) ==
      Ok(Block([FromBytes(line), FromBytes(line)], |line| + 1))
    ensures Parse(line + [CR], false, Corrected) == Ok(Block([FromBytes(line)], |line| + 1))
    ensures Concat([FromBytes(line), FromBytes(line)]) != FromBytes(Payload((line + [CR])[..|line| + 1]))
  {
    var bs := line + [CR];
    LineEndSkips(bs, 0, |line|);
    assert bs[0..|line|] == line;
    var l := FromBytes(line);
    assert Concat([l, l]) == l + l by {
      assert Concat([l, l]) == l + Concat([l]);
      assert Concat([l]) == l + Concat([]);
    }
    assert bs[..|line| + 1] == line + [CR];
    PayloadAppend(line, [CR]);
    PayloadClean(line);
    assert Payload([CR]) == [];
    assert |FromBytes(Payload(bs))| == |line| < |l + l|;
  }

  lemma {:induction false} LineEndSkips(bs: seq<Byte>, i: nat, e: nat)
    requires i <= e < |bs| && IsTerminator(bs[e])
    requires forall j :: i <= j < e ==> !IsTerminator(bs[j])
    ensures LineEnd(bs, i) == e
    decreases e - i
  {
    if i < e {
      LineEndSkips(bs, i + 1, e);
    }
  }

  /** A CR that is followed by anything but LF is rejected; when it ends the
      first line the error names line 1. */
  lemma IllegalCharAfterReturn(bs: seq<Byte>, allowBareLF: bool, v: Variant, e: nat)
    requires e + 1 < |bs| && bs[e] == CR && bs[e + 1] != LF
    requires forall j :: 0 <= j < e ==> !IsTerminator(bs[j])
    ensures Parse(bs, allowBareLF, v) == Err(IllegalAfterReturn(1))
  {
    LineEndSkips(bs, 0, e);
  }

  /** With `allowBareLF` off, a LF ending the first line is rejected. */
  lemma BareNewLineRejected(bs: seq<Byte>, v: Variant, e: nat)
    requires e < |bs| && bs[e] == LF
    requires forall j :: 0 <= j < e ==> !IsTerminator(bs[j])
    ensures Parse(bs, false, v) == Err(BareNewLine(1))
  {
    LineEndSkips(bs, 0, e);
  }

  /** Each byte of `bs[s..n]` that is a LF directly follows a CR. */
  predicate NoBareLF(bs: seq<Byte>, s: nat, n: nat)
    requires s <= n <= |bs|
  {
    forall j :: s <= j < n && bs[j] == LF ==> s < j && bs[j - 1] == CR
  }

  lemma {:induction false} ScanLinesNoBareLF(bs: seq<Byte>, v: Variant, s: nat, lineNo: int, counted: nat)
    requires s <= |bs|
    ensures var r := ScanLines(bs, false, v, s, lineNo, counted);
      r.Ok? ==> s <= r.value.next <= |bs| && NoBareLF(bs, s, r.value.next)
    decreases |bs| - s
  {
    var e := LineEnd(bs, s);
    if e + 1 < |bs| {
      ScanLinesNoBareLF(bs, v, e + 2, lineNo + 1, counted + (e - s) + 1);
    }
    ScanLinesClean(bs, false, v, s, lineNo, counted);
  }

  /** With `allowBareLF` off (how `parseHttpRequest` calls it), a parsed block
      never contains a LF that is not preceded by a CR. */
  lemma StrictLineEndings(bs: seq<Byte>, v: Variant)
    ensures var r := Parse(bs, false, v);
      r.Ok? ==> r.value.next <= |bs| && NoBareLF(bs, 0, r.value.next)
  {
    ScanLinesNoBareLF(bs, v, 0, 1, 0);
  }

  /** Every `IllegalAfterReturn` error points at a CR followed by another byte
      that is not LF. */
  lemma {:induction false} IllegalAfterReturnHasWitness(bs: seq<Byte>, allowBareLF: bool, v: Variant, s: nat, lineNo: int, counted: nat)
    requires s <= |bs|
    requires ScanLines(bs, allowBareLF, v, s, lineNo, counted).Err?
    requires ScanLines(bs, allowBareLF, v, s, lineNo, counted).error.IllegalAfterReturn?
    ensures exists e :: s <= e && e + 1 < |bs| && bs[e] == CR && bs[e + 1] != LF
    decreases |bs| - s
  {
    var e := LineEnd(bs, s);
    if e < |bs| && !(e + 1 < |bs| && bs[e] == CR && bs[e + 1] != LF) {
      if bs[e] == CR {
        IllegalAfterReturnHasWitness(bs, allowBareLF, v, e + 2, lineNo + 1, counted + (e - s) + 1);
      } else {
        IllegalAfterReturnHasWitness(bs, allowBareLF, v, e + 1, lineNo + 1, counted + (e - s) + 1);
      }
    }
  }

  /** A blank line ends the block: whatever follows `line CR LF CR LF` is
      left unread for the body. */
  lemma BlankLineEndsBlock(line: seq<Byte>, rest: seq<Byte>, allowBareLF: bool, v: Variant)
    requires |line| > 0 && forall j :: 0 <= j < |line| ==> !IsTerminator(line[j])
    ensures Parse(line + [CR, LF, CR, LF] + rest, allowBareLF, v) ==
      Ok(Block([FromBytes(line)], |line| + 4))
  {
    var bs := line + [CR, LF, CR, LF] + rest;
    var e := |line|;
    assert bs[e] == CR && bs[e + 1] == LF && bs[e + 2] == CR && bs[e + 3] == LF;
    LineEndSkips(bs, 0, e);
    assert bs[0..e] == line;
    LineEndSkips(bs, e + 2, e + 2);
    assert bs[e + 2..e + 2] == [];
    assert ScanLines(bs, allowBareLF, v, e + 2, 2, e + 1) == Ok(Scan([], e + 4, e + 2));
    assert ScanLines(bs, allowBareLF, v, 0, 1, 0) == Ok(Scan([FromBytes(line)] + [], e + 4, e + 2));
    assert [FromBytes(line)] + [] == [FromBytes(line)];
  }

  /** A terminator as the very first byte ends the block at once, before the
      count reaches two, so such a request is empty (or, for a bare LF that is
      not allowed, malformed). */
  lemma LeadingTerminatorIsEmpty(bs: seq<Byte>, allowBareLF: bool, v: Variant)
    requires |bs| > 0 && IsTerminator(bs[0])
    requires |bs| > 1 && bs[0] == CR ==> bs[1] == LF
    ensures Parse(bs, allowBareLF, v) ==
      if bs[0] == LF && !allowBareLF then Err(BareNewLine(1)) else Err(EmptyRequest)
  {
  }

  /** Streams of at most one byte never make a request. */
  lemma ShortStreamIsEmpty(bs: seq<Byte>, allowBareLF: bool, v: Variant)
    requires |bs| <= 1
    requires bs == [LF] ==> allowBareLF
    ensures Parse(bs, allowBareLF, v) == Err(EmptyRequest)
  {
  }

  /** A successful parse yields at least one line, so the request line
      (`requestMetadata.get(0)`) always exists. */
  lemma SuccessHasRequestLine(bs: seq<Byte>, allowBareLF: bool, v: Variant)
    ensures var r := Parse(bs, allowBareLF, v); r.Ok? ==> |r.value.lines| >= 1
  {
    var r := Parse(bs, allowBareLF, v);
    if r.Ok? {
      assert |bs| > 0;
      if IsTerminator(bs[0]) {
        LeadingTerminatorIsEmpty(bs, allowBareLF, v);
        assert false;
      }
      var e := LineEnd(bs, 0);
      assert e > 0;
    }
  }
}

=== FILE: pairs.dfy ===
/** The `name=value` token parsing that the query-string, cookie and
    url-encoded body parsers share: split on `=`, percent-decode token 0 as the
    key and token 1, when there is one, as the value. The maps they fill are
    written with `put`, so a later pair wins. */
module UrlPairs {
  import opened Wrappers
  import opened Split
  import opened Http

  /** `URLDecoder.decode(s, UTF_8)`. Its algorithm is not part of this model;
      `None` stands for the `IllegalArgumentException` it raises on a
      malformed escape. */
  type Decoder = string -> Option<string>

  function Decode(dec: Decoder, s: string): (r: Result<string, Exn>)
    ensures r.Ok? <==> dec(s).Some?
    ensures r.Ok? ==> r.value == dec(s).value
  {
    match dec(s)
    case Some(t) => Ok(t)
    case None => Err(IllegalArgument(s))
  }

  /** One pair: the decoded first `=`-token, and the decoded second token or
      `None` (Java's `null`). An empty token list (the pair is only `=` signs)
      makes `tokens[0]` fail. */
  function ParsePair(dec: Decoder, pair: string): (r: Result<(string, Option<string>), Exn>)
    ensures var toks := JavaSplit(pair, Equals);
      r.Ok? <==> |toks| > 0 && dec(toks[0]).Some? && (|toks| > 1 ==> dec(toks[1]).Some?)
    ensures r.Ok? ==> var toks := JavaSplit(pair, Equals);
      r.value.0 == dec(toks[0]).value
      && r.value.1 == (if |toks| > 1 then Some(dec(toks[1]).value) else None)
  {
    var toks := JavaSplit(pair, Equals);
    if |toks| == 0 then Err(IndexOutOfBounds)
    else
      var key :- Decode(dec, toks[0]);
      if |toks| > 1 then
        var value :- Decode(dec, toks[1]);
        Ok((key, Some(value)))
      else Ok((key, None))
  }

  /** `ParsePair` over a list of pairs, stopping at the first failure. */
  function ParsePairs(dec: Decoder, pairs: seq<string>): (r: Result<seq<(string, Option<string>)>, Exn>)
    ensures r.Ok? ==> |r.value| == |pairs|
    ensures r.Ok? <==> forall i :: 0 <= i < |pairs| ==> ParsePair(dec, pairs[i]).Ok?
    ensures r.Ok? ==> forall i :: 0 <= i < |pairs| ==> r.value[i] == ParsePair(dec, pairs[i]).value
    decreases |pairs|
  {
    if |pairs| == 0 then Ok([])
    else
      var first :- ParsePair(dec, pairs[0]);
      var rest :- ParsePairs(dec, pairs[1..]);
      assert forall i :: 1 <= i < |pairs| ==> pairs[i] == pairs[1..][i - 1];
      Ok([first] + rest)
  }

  /** A run of `map.put` calls, in order. */
  function PutAll<K, V>(m: map<K, V>, kvs: seq<(K, V)>): map<K, V>
    decreases |kvs|
  {
    if |kvs| == 0 then m
    else PutAll(m, kvs[..|kvs| - 1])[kvs[|kvs| - 1].0 := kvs[|kvs| - 1].1]
  }

  /** The value of the last pair in `kvs` whose key is `k`. */
  function LastFor<K(==), V>(kvs: seq<(K, V)>, k: K): (r: Option<V>)
    ensures r.Some? ==>
      exists i :: (0 <= i < |kvs| && kvs[i].0 == k && kvs[i].1 == r.value &&
        forall j :: i < j < |kvs| ==> kvs[j].0 != k)
    ensures r.None? ==> forall j :: 0 <= j < |kvs| ==> kvs[j].0 != k
    decreases |kvs|
  {
    if |kvs| == 0 then None
    else if kvs[|kvs| - 1].0 == k then Some(kvs[|kvs| - 1].1)
    else LastFor(kvs[..|kvs| - 1], k)
  }

  /** Last write wins: after the puts, a key holds the value of its last pair,
      and a key without pairs keeps what it had. */
  lemma {:induction false} PutAllLastWins<K, V>(m: map<K, V>, kvs: seq<(K, V)>, k: K)
    ensures Get(PutAll(m, kvs), k) == if LastFor(kvs, k).Some? then LastFor(kvs, k) else Get(m, k)
    decreases |kvs|
  {
    if |kvs| > 0 {
      PutAllLastWins(m, kvs[..|kvs| - 1], k);
    }
  }

  // ---------------------------------------------------------------- shapes

  /** `k=v`, optionally followed by `=` and anything: the key and value come
      back decoded, and whatever follows a second `=` is ignored. */
  lemma PairWithValue(dec: Decoder, k: string, v: string, tail: string)
    requires '=' !in k && '=' !in v && v != []
    requires tail == [] || tail[0] == '='
    requires dec(k).Some? && dec(v).Some?
    ensures ParsePair(dec, k + "=" + v + tail) == Ok((dec(k).value, Some(dec(v).value)))
  {
    var s := k + "=" + v + tail;
    assert s == k + ['='] + (v + tail);
    LitPiecesCons(k, '=', v + tail);
    if tail == [] {
      assert v + tail == v;
      LitPiecesNone(v, '=');
    } else {
      assert v + tail == v + ['='] + tail[1..];
      LitPiecesCons(v, '=', tail[1..]);
    }
    var ps := Pieces(s, Equals);
    assert ps[0] == k && ps[1] == v;
    JavaSplitKeeps(s, Equals, 1);
  }

  /** A bare name, or a name followed by `=` with nothing after it, has a
      `null` value: `split` drops the trailing empty token. */
  lemma PairWithoutValue(dec: Decoder, k: string, eq: bool)
    requires '=' !in k && k != [] && dec(k).Some?
    ensures ParsePair(dec, if eq then k + "=" else k) == Ok((dec(k).value, None))
  {
    if eq {
      assert k + "=" == k + ['='] + [];
      LitPiecesCons(k, '=', []);
      assert Pieces([], Equals) == [[]];
      assert DropTrailingEmpty([k, []]) == DropTrailingEmpty([k]);
    } else {
      LitPiecesNone(k, '=');
    }
  }

  /** A pair that is a lone `=` has no tokens at all, so it fails. */
  lemma LoneEqualsFails(dec: Decoder)
    ensures ParsePair(dec, "=") == Err(IndexOutOfBounds)
  {
    assert "=" == [] + ['='] + [];
    LitPiecesCons([], '=', []);
    assert Pieces([], Equals) == [[]];
    assert DropTrailingEmpty([[], []]) == [];
  }
}

=== FILE: request_processor.dfy ===
/** `RequestProcessor`: the first handler of the chain. It parses the request
    from the socket, stores it with a fresh response in the shared data, and
    answers 400 itself when the request is malformed or too big. */
module RequestProcessor {
  import opened Wrappers
  import opened Text
  import opened Split
  import opened Http
  import opened SharedData
  import opened Exchange
  import opened Metadata
  import opened UrlPairs
  import opened FormData
  import opened ErrorHandling

  /** `order()` is `Integer.MIN_VALUE`: this handler runs first. */
  const Order: int := -2147483648

  const ContentLengthHeader := "Content-Length"
  const CookieHeader := "Cookie"
  const ContentTypeHeader := "Content-Type"
  const MultipartFormData := "multipart/form-data"

  /** What parsing needs from code outside this model: percent-decoding,
      `Integer.parseInt` (`None` is a `NumberFormatException`),
      `inputStream.available()` after the metadata, UTF-8 decoding, an
      `IOException` raised while the body is read, and the multipart parser. */
  datatype Env = Env(
    dec: Decoder,
    parseInt: string -> Option<int>,
    available: int,
    utf8: seq<Byte> -> string,
    bodyFault: Option<string>,
    multipart: (Body, Request) -> Result<Request, Exn>)

  /** `maxRequestSize` comes from `MAX_REQUEST_SIZE` at construction. */
  datatype Processor = Processor(maxRequestSize: int, errors: ErrorHandler)

  // ----------------------------------------------------------- request line

  /** `handlerMethodAndURL`: the method is token 0 of the line split on `\s`;
      the URL is token 1 of the line split on `[\s\?]`, percent-decoded. */
  function MethodAndUrl(dec: Decoder, line: string, req: Request): (r: Result<Request, Exn>)
    ensures var words := JavaSplit(line, Space); var parts := JavaSplit(line, SpaceOrQuestion);
      r.Ok? <==> |words| >= 1 && |parts| >= 2 && dec(parts[1]).Some?
    ensures r.Ok? ==> r.value == req.(verb := JavaSplit(line, Space)[0],
                                      url := dec(JavaSplit(line, SpaceOrQuestion)[1]).value)
  {
    var words := JavaSplit(line, Space);
    if |words| == 0 then Err(IndexOutOfBounds)
    else
      var parts := JavaSplit(line, SpaceOrQuestion);
      if |parts| < 2 then Err(IndexOutOfBounds)
      else
        var url :- Decode(dec, parts[1]);
        Ok(req.(verb := words[0], url := url))
  }

  /** The pairs of the `?`-segments after the first, in order: every
      segment's pairs must parse. */
  function SegmentPairs(dec: Decoder, segments: seq<string>): (r: Result<seq<(string, Option<string>)>, Exn>)
    ensures r.Ok? <==> forall i :: 0 <= i < |segments| ==> ParsePairs(dec, JavaSplit(segments[i], Amp)).Ok?
    ensures |segments| == 1 ==> r == ParsePairs(dec, JavaSplit(segments[0], Amp))
    decreases |segments|
  {
    if |segments| == 0 then Ok([])
    else
      assert forall i :: 1 <= i < |segments| ==> segments[i] == segments[1..][i - 1];
      var first :- ParsePairs(dec, JavaSplit(segments[0], Amp));
      var rest :- SegmentPairs(dec, segments[1..]);
      assert |segments| == 1 ==> rest == [] && first + rest == first;
      Ok(first + rest)
  }

  /** Segments contribute their pairs one after another: the pairs of
      `a + b` are those of `a` followed by those of `b`, and the first
      failure, in that order, is the one reported. */
  lemma {:induction false} SegmentPairsAppend(dec: Decoder, a: seq<string>, b: seq<string>)
    ensures SegmentPairs(dec, a).Err? ==> SegmentPairs(dec, a + b) == SegmentPairs(dec, a)
    ensures SegmentPairs(dec, a).Ok? && SegmentPairs(dec, b).Err? ==> SegmentPairs(dec, a + b) == SegmentPairs(dec, b)
    ensures SegmentPairs(dec, a).Ok? && SegmentPairs(dec, b).Ok? ==>
      SegmentPairs(dec, a + b) == Ok(SegmentPairs(dec, a).value + SegmentPairs(dec, b).value)
  {
    var f := s => ParsePairs(dec, JavaSplit(s, Amp));
    SegmentPairsAreChained(dec, a);
    SegmentPairsAreChained(dec, b);
    SegmentPairsAreChained(dec, a + b);
    ChainedAppend(f, a, b);
  }

  /** The pairs of each segment in turn, stopping at the first failure. */
  function Chained<T>(f: string -> Result<seq<T>, Exn>, segments: seq<string>): Result<seq<T>, Exn>
    decreases |segments|
  {
    if |segments| == 0 then Ok([])
    else
      var first :- f(segments[0]);
      var rest :- Chained(f, segments[1..]);
      Ok(first + rest)
  }

  lemma {:induction false} ChainedAppend<T>(f: string -> Result<seq<T>, Exn>, a: seq<string>, b: seq<string>)
    ensures Chained(f, a).Err? ==> Chained(f, a + b) == Chained(f, a)
    ensures Chained(f, a).Ok? && Chained(f, b).Err? ==> Chained(f, a + b) == Chained(f, b)
    ensures Chained(f, a).Ok? && Chained(f, b).Ok? ==> Chained(f, a + b) == Ok(Chained(f, a).value + Chained(f, b).value)
    decreases |a|
  {
    if |a| == 0 {
      assert a + b == b;
      if Chained(f, b).Ok? {
        assert [] + Chained(f, b).value == Chained(f, b).value;
      }
    } else {
      ChainedAppend(f, a[1..], b);
      assert (a + b)[0] == a[0] && (a + b)[1..] == a[1..] + b;
      if f(a[0]).Ok? && Chained(f, a[1..]).Ok? && Chained(f, b).Ok? {
        var x, y, z := f(a[0]).value, Chained(f, a[1..]).value, Chained(f, b).value;
        assert x + (y + z) == (x + y) + z;
      }
    }
  }

  lemma {:induction false} SegmentPairsAreChained(dec: Decoder, segments: seq<string>)
    ensures SegmentPairs(dec, segments) == Chained(s => ParsePairs(dec, JavaSplit(s, Amp)), segments)
    decreases |segments|
  {
    if |segments| > 0 {
      SegmentPairsAreChained(dec, segments[1..]);
    }
  }

  /** `handlerParamQuery`: token 1 of the line split on `\s` is the full URL;
      each of its `?`-segments after the first is split on `&`, each pair on
      `=`, and the pairs are put into the query map in order. */
  function ParamQuery(dec: Decoder, line: string, req: Request): (r: Result<Request, Exn>)
    ensures |JavaSplit(line, Space)| < 2 ==> r == Err(IndexOutOfBounds)
    ensures r.Ok? ==> r.value == req.(query := r.value.query)
    ensures r.Ok? && |JavaSplit(line, Space)| >= 2 && |JavaSplit(JavaSplit(line, Space)[1], Question)| < 2 ==>
      r.value == req
    ensures r.Ok? && |JavaSplit(line, Space)| >= 2 && |JavaSplit(JavaSplit(line, Space)[1], Question)| >= 2 ==>
      var segments := JavaSplit(JavaSplit(line, Space)[1], Question);
      SegmentPairs(dec, segments[1..]).Ok? &&
      r.value.query == PutAll(req.query, SegmentPairs(dec, segments[1..]).value)
  {
    var words := JavaSplit(line, Space);
    if |words| < 2 then Err(IndexOutOfBounds)
    else
      var segments := JavaSplit(words[1], Question);
      if |segments| < 2 then Ok(req)
      else
        var kvs :- SegmentPairs(dec, segments[1..]);
        Ok(req.(query := PutAll(req.query, kvs)))
  }

  /** `put` calls over `a + b` are those over `a`, then those over `b`. */
  lemma {:induction false} PutAllAppend<K, V>(m: map<K, V>, a: seq<(K, V)>, b: seq<(K, V)>)
    ensures PutAll(m, a + b) == PutAll(PutAll(m, a), b)
    decreases |b|
  {
    if |b| == 0 {
      assert a + b == a;
    } else {
      assert (a + b)[..|a + b| - 1] == a + b[..|b| - 1];
      assert (a + b)[|a + b| - 1] == b[|b| - 1];
      PutAllAppend(m, a, b[..|b| - 1]);
    }
  }

  // ---------------------------------------------------------------- headers

  /** One header line: token 0 and token 1 of the line split on `:\s+`. A line
      with fewer than two tokens makes `headerKeyValuePair[1]` fail. */
  function HeaderPair(line: string): (r: Result<(string, string), Exn>)
    ensures var toks := JavaSplit(line, ColonSpaces);
      (r.Ok? <==> |toks| >= 2) && (r.Ok? ==> r.value == (toks[0], toks[1]))
  {
    var toks := JavaSplit(line, ColonSpaces);
    if |toks| < 2 then Err(IndexOutOfBounds) else Ok((toks[0], toks[1]))
  }

  function HeaderPairs(lines: seq<string>): (r: Result<seq<(string, string)>, Exn>)
    ensures r.Ok? <==> forall i :: 0 <= i < |lines| ==> HeaderPair(lines[i]).Ok?
    ensures r.Ok? ==> |r.value| == |lines| && forall i :: 0 <= i < |lines| ==> r.value[i] == HeaderPair(lines[i]).value
    decreases |lines|
  {
    if |lines| == 0 then Ok([])
    else
      var first :- HeaderPair(lines[0]);
      var rest :- HeaderPairs(lines[1..]);
      assert forall i :: 1 <= i < |lines| ==> lines[i] == lines[1..][i - 1];
      Ok([first] + rest)
  }

  /** `handlerHeader`: every metadata line after the request line is a
      header, put into the header map in order. */
  function Headers(lines: seq<string>, req: Request): (r: Result<Request, Exn>)
    requires |lines| >= 1
    ensures r.Ok? <==> forall i :: 1 <= i < |lines| ==> HeaderPair(lines[i]).Ok?
    ensures r.Ok? ==> r.value == req.(headers := PutAll(req.headers, HeaderPairs(lines[1..]).value))
  {
    assert forall i :: 1 <= i < |lines| ==> lines[i] == lines[1..][i - 1];
    var kvs :- HeaderPairs(lines[1..]);
    Ok(req.(headers := PutAll(req.headers, kvs)))
  }

  /** `x: t` splits at the `: ` after `x` when `x` holds no `:` and `t` does
      not start with white space. */
  lemma ColonSpaceStep(x: string, t: string)
    requires ':' !in x && t != [] && !IsSpace(t[0])
    ensures Pieces(x + ": " + t, ColonSpaces) == [x] + Pieces(t, ColonSpaces)
  {
    var s := x + ": " + t;
    var n := |x|;
    assert s[n] == ':' && s[n + 1] == ' ' && s[n + 2..] == t && s[n + 2] == t[0];
    forall j | 0 <= j < n ensures MatchAt(s, ColonSpaces, j) == 0 {
      assert s[j] == x[j];
    }
    assert SpaceRun(s, n + 2) == 0;
    assert SpaceRun(s, n + 1) == 1;
    assert MatchAt(s, ColonSpaces, n) == 2;
    PiecesAtFirstMatch(s, ColonSpaces, n);
    assert s[..n] == x;
  }

  /** A string without `:` is never split on `:\s+`. */
  lemma NoColonOnePiece(s: string)
    requires ':' !in s
    ensures Pieces(s, ColonSpaces) == [s]
  {
    forall j | 0 <= j < |s| ensures MatchAt(s, ColonSpaces, j) == 0 {
    }
    PiecesWithoutMatch(s, ColonSpaces);
  }

  /** `Name: value` gives that header when the name holds no `:` and the
      value holds no `:` and does not start with white space. */
  lemma WellFormedHeader(name: string, value: string)
    requires ':' !in name && ':' !in value && value != [] && !IsSpace(value[0])
    ensures HeaderPair(name + ": " + value) == Ok((name, value))
  {
    ColonSpaceStep(name, value);
    NoColonOnePiece(value);
    JavaSplitKeeps(name + ": " + value, ColonSpaces, 1);
  }

  /** A header line without any `:` has one token, so the request fails. */
  lemma HeaderWithoutColon(line: string)
    requires ':' !in line
    ensures HeaderPair(line) == Err(IndexOutOfBounds)
  {
    NoColonOnePiece(line);
  }

  /** The header value is cut at a second `: ` inside it: the line is split on
      every `:\s+`, not only the first, and token 1 is kept. */
  lemma HeaderValueCutAtColon(name: string, a: string, b: string)
    requires ':' !in name && ':' !in a && a != [] && !IsSpace(a[0])
    requires ':' !in b && b != [] && !IsSpace(b[0])
    ensures HeaderPair(name + ": " + a + ": " + b) == Ok((name, a))
  {
    var t := a + ": " + b;
    assert name + ": " + a + ": " + b == name + ": " + t;
    ThreeColonPieces(name, a, b);
    JavaSplitKeeps(name + ": " + t, ColonSpaces, 1);
    var toks := JavaSplit(name + ": " + t, ColonSpaces);
    assert toks[..2] == [name, a];
    assert toks[0] == name && toks[1] == a;
  }

  /** The pieces of `name: a: b` on `:\s+`. */
  lemma ThreeColonPieces(name: string, a: string, b: string)
    requires ':' !in name && ':' !in a && a != [] && !IsSpace(a[0])
    requires ':' !in b && b != [] && !IsSpace(b[0])
    ensures Pieces(name + ": " + (a + ": " + b), ColonSpaces) == [name, a, b]
  {
    var t := a + ": " + b;
    ColonSpaceStep(name, t);
    ColonSpaceStep(a, b);
    NoColonOnePiece(b);
  }

  // ---------------------------------------------------------------- cookies

  function AsCookies(kvs: seq<(string, Option<string>)>): (cs: seq<(string, Cookie)>)
    ensures |cs| == |kvs|
    ensures forall i :: 0 <= i < |kvs| ==> cs[i] == (kvs[i].0, Cookie(kvs[i].0, kvs[i].1, None))
  {
    seq(|kvs|, i requires 0 <= i < |kvs| => (kvs[i].0, Cookie(kvs[i].0, kvs[i].1, None)))
  }

  /** `handlerCookies`: without a `Cookie` header nothing happens; otherwise
      the header is split on `;\s` and each `name=value` becomes a cookie
      stored under its decoded name. */
  function Cookies(dec: Decoder, req: Request): (r: Result<Request, Exn>)
    ensures CookieHeader !in req.headers ==> r == Ok(req)
    ensures r.Ok? ==> r.value == req.(cookies := r.value.cookies)
    ensures CookieHeader in req.headers ==>
      var pairs := ParsePairs(dec, JavaSplit(req.headers[CookieHeader], SemicolonSpace));
      r.Ok? == pairs.Ok? && (r.Ok? ==> r.value.cookies == PutAll(req.cookies, AsCookies(pairs.value)))
  {
    match Get(req.headers, CookieHeader)
    case None => Ok(req)
    case Some(h) =>
      var kvs :- ParsePairs(dec, JavaSplit(h, SemicolonSpace));
      Ok(req.(cookies := PutAll(req.cookies, AsCookies(kvs))))
  }

  /** Every cookie is stored under its own name. */
  predicate CookiesKeyedByName(cookies: map<string, Cookie>) {
    forall k :: k in cookies ==> cookies[k].name == k
  }

  lemma {:induction false} PutCookiesKeyedByName(m: map<string, Cookie>, kvs: seq<(string, Option<string>)>)
    requires CookiesKeyedByName(m)
    ensures CookiesKeyedByName(PutAll(m, AsCookies(kvs)))
    decreases |kvs|
  {
    if |kvs| > 0 {
      var cs := AsCookies(kvs);
      assert cs[..|cs| - 1] == AsCookies(kvs[..|kvs| - 1]);
      PutCookiesKeyedByName(m, kvs[..|kvs| - 1]);
    }
  }

  /** Parsing cookies keeps every cookie under its own name. */
  lemma CookiesStayKeyedByName(dec: Decoder, req: Request)
    requires CookiesKeyedByName(req.cookies)
    ensures Cookies(dec, req).Ok? ==> CookiesKeyedByName(Cookies(dec, req).value.cookies)
  {
    if CookieHeader in req.headers {
      var pairs := ParsePairs(dec, JavaSplit(req.headers[CookieHeader], SemicolonSpace));
      if pairs.Ok? {
        PutCookiesKeyedByName(req.cookies, pairs.value);
      }
    }
  }

  // --------------------------------------------------------- content length

  /** `handlerContentLength`: the parsed `Content-Length` header, or the
      bytes available on the stream when there is none. */
  function ContentLength(env: Env, req: Request): (r: Result<Request, Exn>)
    ensures ContentLengthHeader !in req.headers ==> r == Ok(req.(contentLength := env.available))
    ensures ContentLengthHeader in req.headers ==> var text := req.headers[ContentLengthHeader];
      r == match env.parseInt(text)
           case Some(n) => Ok(req.(contentLength := n))
           case None => Err(NumberFormat(text))
  {
    match Get(req.headers, ContentLengthHeader)
    case None => Ok(req.(contentLength := env.available))
    case Some(text) =>
      match env.parseInt(text)
      case Some(n) => Ok(req.(contentLength := n))
      case None => Err(NumberFormat(text))
  }

  /** A `Content-Length` header written in decimal declares that many bytes,
      when `parseInt` is Java's decimal reading. */
  lemma DecimalContentLength(env: Env, req: Request, n: nat)
    requires n <= MaxInt && Get(req.headers, ContentLengthHeader) == Some(NatToString(n))
    requires env.parseInt(NatToString(n)) == ParseDecimal(NatToString(n))
    ensures ContentLength(env, req) == Ok(req.(contentLength := n))
  {
    ParseDecimalRoundTrip(n);
  }

  // --------------------------------------------------------------- the path

  /** The length of the run of dots starting at `i`. */
  function DotRun(s: string, i: nat): (n: nat)
    requires i <= |s|
    ensures i + n <= |s|
    ensures forall j :: i <= j < i + n ==> s[j] == '.'
    ensures i + n < |s| ==> s[i + n] != '.'
    decreases |s| - i
  {
    if i < |s| && s[i] == '.' then 1 + DotRun(s, i + 1) else 0
  }

  /** `replaceAll("\\.{2,}\\/?", "")`: scanning left to right, every run of
      two or more dots is deleted together with one `/` right after it. */
  function StripDots(s: string): string
    decreases |s|
  {
    if |s| == 0 then []
    else if s[0] != '.' then [s[0]] + StripDots(s[1..])
    else
      var n := DotRun(s, 0);
      if n < 2 then [s[0]] + StripDots(s[1..])
      else StripDots(s[if n < |s| && s[n] == '/' then n + 1 else n..])
  }

  /** No two dots in a row. */
  predicate NoDotDot(s: string) {
    forall i :: 0 <= i < |s| - 1 ==> !(s[i] == '.' && s[i + 1] == '.')
  }

  /** A string's first character survives when it is not a dot. */
  lemma StripDotsKeepsHead(s: string)
    requires |s| > 0 && s[0] != '.'
    ensures |StripDots(s)| > 0 && StripDots(s)[0] == s[0]
  {
  }

  /** After `trimRequestPath` the URL holds no `..`. */
  lemma {:induction false} StripDotsLeavesNoDotDot(s: string)
    ensures NoDotDot(StripDots(s))
    decreases |s|
  {
    if |s| > 0 {
      var n := DotRun(s, 0);
      if s[0] != '.' || n < 2 {
        StripDotsLeavesNoDotDot(s[1..]);
        var rest := StripDots(s[1..]);
        if s[0] == '.' && |s| > 1 {
          assert s[1] != '.';
          StripDotsKeepsHead(s[1..]);
        }
        assert StripDots(s) == [s[0]] + rest;
      } else {
        StripDotsLeavesNoDotDot(s[if n < |s| && s[n] == '/' then n + 1 else n..]);
      }
    }
  }

  /** A URL without `..` is left exactly as it is. */
  lemma {:induction false} StripDotsKeepsClean(s: string)
    requires NoDotDot(s)
    ensures StripDots(s) == s
    decreases |s|
  {
    if |s| > 0 {
      if s[0] == '.' && |s| > 1 {
        assert s[1] != '.';
      }
      assert NoDotDot(s[1..]) by {
        forall i | 0 <= i < |s[1..]| - 1 ensures !(s[1..][i] == '.' && s[1..][i + 1] == '.') {
          assert s[1..][i] == s[i + 1] && s[1..][i + 1] == s[i + 2];
        }
      }
      StripDotsKeepsClean(s[1..]);
      assert s == [s[0]] + s[1..];
    }
  }

  /** Trimming twice is trimming once. */
  lemma StripDotsIdempotent(s: string)
    ensures StripDots(StripDots(s)) == StripDots(s)
  {
    StripDotsLeavesNoDotDot(s);
    StripDotsKeepsClean(StripDots(s));
  }

  // ----------------------------------------------------------- whole request

  /** `getContentType()` starts with `multipart/form-data`. */
  predicate IsMultipart(req: Request) {
    ContentTypeHeader in req.headers && StartsWith(req.headers[ContentTypeHeader], MultipartFormData)
  }

  /** `parseMetadataLines(inputStream, false)`, with its error as the
      exception the method throws. The server runs the loop as written
      (`v == AsWritten`); `Corrected` is the loop without the repeated line. */
  function MetadataLines(bs: seq<Byte>, v: Variant): (r: Result<Block, Exn>)
    ensures r.Ok? <==> Parse(bs, false, v).Ok?
    ensures r.Ok? ==> r.value == Parse(bs, false, v).value
  {
    match Parse(bs, false, v)
    case Ok(block) => Ok(block)
    case Err(e) => Err(CannotParseRequest(Message(e)))
  }

  /** The part of `parseHttpRequest` before the size check: the metadata,
      the request line, headers, cookies and content length. It yields the
      request so far and the offset where the body starts. */
  function ParseHead(env: Env, bs: seq<Byte>, v: Variant): (r: Result<(Request, nat), Exn>)
    ensures r.Ok? ==> Parse(bs, false, v).Ok? && r.value.1 == Parse(bs, false, v).value.next
    ensures r.Ok? ==> r.value.1 <= |bs|
    ensures Parse(bs, false, v).Err? ==> r == Err(CannotParseRequest(Message(Parse(bs, false, v).error)))
  {
    var block :- MetadataLines(bs, v);
    LinesAreClean(bs, false, v);
    if |block.lines| == 0 then Err(IndexOutOfBounds)
    else
      var line := block.lines[0];
      var r1 :- MethodAndUrl(env.dec, line, NewRequest());
      var r2 :- ParamQuery(env.dec, line, r1);
      var r3 :- Headers(block.lines, r2);
      var r4 :- Cookies(env.dec, r3);
      var r5 :- ContentLength(env, r4);
      Ok((r5, block.next))
  }

  /** The body parser `parseHttpRequest` picks for `req`. */
  function ParseBody(env: Env, body: Body, req: Request): Result<Request, Exn> {
    if IsMultipart(req) then env.multipart(body, req) else ParseBodyParams(env.dec, env.utf8, body, req)
  }

  /** `parseHttpRequest`: a request whose declared length exceeds the limit
      fails before its body is read; a parsed request has its path trimmed
      of `..` runs. */
  function ParseHttpRequest(maxRequestSize: int, env: Env, bs: seq<Byte>, v: Variant): (r: Result<Request, Exn>)
    ensures var head := ParseHead(env, bs, v); head.Err? ==> r == Err(head.error)
    ensures var head := ParseHead(env, bs, v);
      head.Ok? && head.value.0.contentLength > maxRequestSize ==> r == Err(RequestTooBig(head.value.0.contentLength))
    ensures var head := ParseHead(env, bs, v);
      head.Ok? && head.value.0.contentLength <= maxRequestSize ==>
        var parsed := ParseBody(env, Body(bs[head.value.1..], env.bodyFault), head.value.0);
        r.Ok? == parsed.Ok? && (r.Err? ==> r.error == parsed.error) &&
        (r.Ok? ==> r.value == parsed.value.(url := StripDots(parsed.value.url)))
    ensures r.Ok? ==> NoDotDot(r.value.url)
  {
    var (req, next) :- ParseHead(env, bs, v);
    if req.contentLength > maxRequestSize then Err(RequestTooBig(req.contentLength))
    else
      var parsed :- ParseBody(env, Body(bs[next..], env.bodyFault), req);
      StripDotsLeavesNoDotDot(parsed.url);
      Ok(parsed.(url := StripDots(parsed.url)))
  }

  /** The default body parser keeps the checked content length, so a parsed
      request never declares more than the limit. */
  lemma ParsedRequestFitsLimit(maxRequestSize: int, env: Env, bs: seq<Byte>, v: Variant)
    requires ParseHttpRequest(maxRequestSize, env, bs, v).Ok?
    requires ParseHead(env, bs, v).Ok? ==> !IsMultipart(ParseHead(env, bs, v).value.0)
    ensures ParseHttpRequest(maxRequestSize, env, bs, v).value.contentLength <= maxRequestSize
  {
  }

  /** `handleRequest`, with the three outcomes of the source:
      a parsed request is stored with a fresh response and the chain goes on;
      a request too big is answered 400 and the chain stops; any other
      failure is passed to `handleException` with 400. `v` picks the
      metadata loop; the server's is `AsWritten`. */
  function HandleRequest(p: Processor, env: Env, bs: seq<Byte>, conn: Conn, v: Variant): (r: (bool, Conn))
    ensures var parsed := ParseHttpRequest(p.maxRequestSize, env, bs, v);
      parsed.Ok? ==> !r.0 && r.1.out == conn.out
    ensures var parsed := ParseHttpRequest(p.maxRequestSize, env, bs, v);
      parsed.Ok? && GetObject(conn.data, HttpRequestKey).None? && GetObject(conn.data, HttpResponseKey).None? ==>
        RequestOf(r.1.data) == Some(parsed.value) && ResponseOf(r.1.data) == Some(NewResponse())
    ensures var parsed := ParseHttpRequest(p.maxRequestSize, env, bs, v);
      parsed.Err? && parsed.error.RequestTooBig? ==>
        r.0 && r.1.data == conn.data && |r.1.out| == |conn.out| + 1 &&
        r.1.out[..|conn.out|] == conn.out && WritesStatus(r.1.out[|conn.out|], BadRequest)
    ensures var parsed := ParseHttpRequest(p.maxRequestSize, env, bs, v);
      parsed.Err? && !parsed.error.RequestTooBig? ==>
        r.0 == p.errors.printStackTrace && r.1.data == conn.data
    ensures var parsed := ParseHttpRequest(p.maxRequestSize, env, bs, v);
      parsed.Err? && !parsed.error.RequestTooBig? && r.0 ==>
        |r.1.out| == |conn.out| + 1 && r.1.out[..|conn.out|] == conn.out && WritesStatus(r.1.out[|conn.out|], BadRequest)
    ensures var parsed := ParseHttpRequest(p.maxRequestSize, env, bs, v);
      parsed.Err? && !r.0 ==> r.1.out == conn.out
  {
    match ParseHttpRequest(p.maxRequestSize, env, bs, v)
    case Ok(req) =>
      var d1 := AddObject(conn.data, HttpRequestKey, RequestObj(req)).0;
      var d2 := AddObject(d1, HttpResponseKey, ResponseObj(NewResponse())).0;
      (false, conn.(data := d2))
    case Err(e) =>
      var h := if e.RequestTooBig? then HandleRequestTooBig(p.errors, e, NewResponse())
               else HandleException(p.errors, e, NewResponse(), BadRequest);
      (h.handled, conn.(out := conn.out + h.writes))
  }

  // ------------------------------------------------------------ the line

  /** A word for the request line: non-empty, without white space or `?`. */
  predicate Word(s: string) {
    s != [] && Free(s, SpaceOrQuestion)
  }

  lemma WordIsFree(s: string)
    requires Word(s)
    ensures Free(s, Space) && '?' !in s
  {
    forall i | 0 <= i < |s| ensures !IsSpace(s[i]) && s[i] != '?' {
      assert !InClass(SpaceOrQuestion.core, s[i]);
    }
  }

  /** `METHOD SP PATH SP VERSION`: the method and the decoded path come back
      exactly, and there are no query parameters. */
  lemma RequestLineWithoutQuery(dec: Decoder, m: string, path: string, v: string, req: Request)
    requires Word(m) && Word(path) && Word(v) && dec(path).Some?
    ensures var line := m + " " + path + " " + v;
      MethodAndUrl(dec, line, req) == Ok(req.(verb := m, url := dec(path).value))
      && ParamQuery(dec, line, req) == Ok(req)
  {
    var line := m + " " + path + " " + v;
    WordIsFree(m);
    WordIsFree(path);
    WordIsFree(v);
    assert line == m + [' '] + (path + [' '] + v);
    SingleCharPiecesCons(m, ' ', path + [' '] + v, Space);
    SingleCharPiecesCons(path, ' ', v, Space);
    SingleCharPiecesNone(v, Space);
    JavaSplitKeeps(line, Space, 1);
    SingleCharPiecesCons(m, ' ', path + [' '] + v, SpaceOrQuestion);
    SingleCharPiecesCons(path, ' ', v, SpaceOrQuestion);
    SingleCharPiecesNone(v, SpaceOrQuestion);
    JavaSplitKeeps(line, SpaceOrQuestion, 1);
    LitPiecesNone(path, '?');
  }

  /** `METHOD SP PATH?QUERY SP VERSION`: the method and decoded path come
      back exactly, and the query parameters are the pairs of `QUERY`. */
  lemma RequestLineWithQuery(dec: Decoder, m: string, path: string, query: string, v: string, req: Request)
    requires Word(m) && Word(path) && Word(query) && Word(v) && dec(path).Some?
    ensures var line := m + " " + path + "?" + query + " " + v;
      MethodAndUrl(dec, line, req) == Ok(req.(verb := m, url := dec(path).value))
      && ParamQuery(dec, line, req) ==
         (match ParsePairs(dec, JavaSplit(query, Amp))
          case Ok(kvs) => Ok(req.(query := PutAll(req.query, kvs)))
          case Err(e) => Err(e))
  {
    var line := m + " " + path + "?" + query + " " + v;
    var target := path + "?" + query;
    WordIsFree(m);
    WordIsFree(path);
    WordIsFree(query);
    WordIsFree(v);
    assert Free(target, Space) by {
      forall i | 0 <= i < |target| ensures !IsSpace(target[i]) {
        if i < |path| {
          assert target[i] == path[i];
        } else if i > |path| {
          assert target[i] == query[i - |path| - 1];
        }
      }
    }
    assert line == m + [' '] + (target + [' '] + v);
    SingleCharPiecesCons(m, ' ', target + [' '] + v, Space);
    SingleCharPiecesCons(target, ' ', v, Space);
    SingleCharPiecesNone(v, Space);
    JavaSplitKeeps(line, Space, 1);
    assert JavaSplit(line, Space)[1] == target;
    assert line == m + [' '] + (path + ['?'] + (query + [' '] + v));
    SingleCharPiecesCons(m, ' ', path + ['?'] + (query + [' '] + v), SpaceOrQuestion);
    SingleCharPiecesCons(path, '?', query + [' '] + v, SpaceOrQuestion);
    JavaSplitKeeps(line, SpaceOrQuestion, 1);
    assert target == path + ['?'] + query;
    LitPiecesCons(path, '?', query);
    LitPiecesNone(query, '?');
    JavaSplitKeeps(target, Question, 1);
    var segments := JavaSplit(target, Question);
    assert segments == [path, query];
    assert segments[1..] == [query];
  }

  /** `METHOD SP PATH?Q1?Q2 SP VERSION`: every `?`-segment after the path
      is read, so the pairs of `Q1` are put and then those of `Q2`. */
  lemma RequestLineWithTwoQueries(dec: Decoder, m: string, path: string, q1: string, q2: string, v: string, req: Request)
    requires Word(m) && Word(path) && Word(q1) && Word(q2) && Word(v)
    requires ParsePairs(dec, JavaSplit(q1, Amp)).Ok? && ParsePairs(dec, JavaSplit(q2, Amp)).Ok?
    ensures ParamQuery(dec, m + " " + path + "?" + q1 + "?" + q2 + " " + v, req) ==
      Ok(req.(query := PutAll(PutAll(req.query, ParsePairs(dec, JavaSplit(q1, Amp)).value),
                              ParsePairs(dec, JavaSplit(q2, Amp)).value)))
  {
    var line := m + " " + path + "?" + q1 + "?" + q2 + " " + v;
    var target := path + "?" + q1 + "?" + q2;
    TwoQueriesTarget(m, path, q1, q2, v);
    TwoQueriesSegments(path, q1, q2);
    var segments := JavaSplit(target, Question);
    assert segments[1..] == [q1] + [q2];
    SegmentPairsAppend(dec, [q1], [q2]);
    PutAllAppend(req.query, ParsePairs(dec, JavaSplit(q1, Amp)).value, ParsePairs(dec, JavaSplit(q2, Amp)).value);
  }

  /** The URL word of `M SP P?Q1?Q2 SP V` is `P?Q1?Q2`. */
  lemma TwoQueriesTarget(m: string, path: string, q1: string, q2: string, v: string)
    requires Word(m) && Word(path) && Word(q1) && Word(q2) && Word(v)
    ensures var line := m + " " + path + "?" + q1 + "?" + q2 + " " + v;
      |JavaSplit(line, Space)| >= 2 && JavaSplit(line, Space)[1] == path + "?" + q1 + "?" + q2
  {
    var line := m + " " + path + "?" + q1 + "?" + q2 + " " + v;
    var target := path + "?" + q1 + "?" + q2;
    WordIsFree(m);
    WordIsFree(path);
    WordIsFree(q1);
    WordIsFree(q2);
    WordIsFree(v);
    assert Free(target, Space) by {
      forall i | 0 <= i < |target| ensures !IsSpace(target[i]) {
        if i < |path| {
          assert target[i] == path[i];
        } else if |path| < i < |path| + 1 + |q1| {
          assert target[i] == q1[i - |path| - 1];
        } else if i > |path| + 1 + |q1| {
          assert target[i] == q2[i - |path| - |q1| - 2];
        }
      }
    }
    assert line == m + [' '] + (target + [' '] + v);
    SingleCharPiecesCons(m, ' ', target + [' '] + v, Space);
    SingleCharPiecesCons(target, ' ', v, Space);
    SingleCharPiecesNone(v, Space);
    JavaSplitKeeps(line, Space, 1);
  }

  /** `P?Q1?Q2` splits on `?` into its three parts. */
  lemma TwoQueriesSegments(path: string, q1: string, q2: string)
    requires Word(path) && Word(q1) && Word(q2)
    ensures JavaSplit(path + "?" + q1 + "?" + q2, Question) == [path, q1, q2]
  {
    WordIsFree(path);
    WordIsFree(q1);
    WordIsFree(q2);
    var target := path + "?" + q1 + "?" + q2;
    assert target == path + ['?'] + (q1 + ['?'] + q2);
    LitPiecesCons(path, '?', q1 + ['?'] + q2);
    LitPiecesCons(q1, '?', q2);
    LitPiecesNone(q2, '?');
    JavaSplitKeeps(target, Question, 2);
  }


  // ------------------------------------------------- a return before EOF

  /** A request line followed by a lone carriage return and the end of the
      stream. The loop as written hands the line over twice, so the copy is
      read as a header without `:` and the request is answered 400 (when
      stack traces are printed) or dropped; the corrected loop yields the
      request line alone and the head parses. */
  lemma ReturnAtEndAnswersBadRequest(p: Processor, env: Env, conn: Conn, line: seq<Byte>,
                                     m: string, path: string, ver: string)
    requires |line| > 0 && forall j :: 0 <= j < |line| ==> !IsTerminator(line[j])
    requires FromBytes(line) == m + " " + path + " " + ver
    requires Word(m) && Word(path) && Word(ver) && env.dec(path).Some?
    requires ':' !in FromBytes(line)
    ensures ParseHead(env, line + [CR], Corrected) ==
      Ok((NewRequest().(verb := m, url := env.dec(path).value, contentLength := env.available), |line| + 1))
    ensures ParseHttpRequest(p.maxRequestSize, env, line + [CR], AsWritten) == Err(IndexOutOfBounds)
    ensures var r := HandleRequest(p, env, line + [CR], conn, AsWritten);
      r.0 == p.errors.printStackTrace && r.1.data == conn.data &&
      (r.0 ==> |r.1.out| == |conn.out| + 1 && WritesStatus(r.1.out[|conn.out|], BadRequest)) &&
      (!r.0 ==> r.1.out == conn.out)
  {
    var l := FromBytes(line);
    Metadata.ReturnAtEndRepeatsLine(line);
    RequestLineWithoutQuery(env.dec, m, path, ver, NewRequest());
    HeaderWithoutColon(l);
    var r2 := NewRequest().(verb := m, url := env.dec(path).value);
    assert [l][1..] == [];
    assert Headers([l], r2) == Ok(r2);
    assert [l, l][1..] == [l];
    assert HeaderPair([l, l][1]).Err?;
    assert Headers([l, l], r2) == Err(IndexOutOfBounds);
  }

  /** With `parseInt` bounded to `int`, a parsed head never declares more
      than `Integer.MAX_VALUE`, so under the default limit the size check
      always passes and the request goes on to its body. */
  lemma DefaultLimitNeverTooBig(env: Env, bs: seq<Byte>, v: Variant)
    requires env.available <= MaxInt
    requires forall t :: env.parseInt(t).Some? ==> env.parseInt(t).value <= MaxInt
    ensures var head := ParseHead(env, bs, v);
      head.Ok? ==> head.value.0.contentLength <= MaxInt
    ensures var head := ParseHead(env, bs, v);
      head.Ok? ==> ParseHttpRequest(MaxInt, env, bs, v) == ParseHttpRequest(head.value.0.contentLength, env, bs, v)
  {
    var head := ParseHead(env, bs, v);
    if head.Ok? {
      var block := MetadataLines(bs, v).value;
      var line := block.lines[0];
      var r1 := MethodAndUrl(env.dec, line, NewRequest()).value;
      var r2 := ParamQuery(env.dec, line, r1).value;
      var r3 := Headers(block.lines, r2).value;
      var r4 := Cookies(env.dec, r3).value;
      assert head.value.0 == ContentLength(env, r4).value;
    }
  }

  // ---------------------------------------------------------------- disposal

  /** `Math.min(2048, inputStream.available())`. */
  function Min2048(available: nat): (r: nat)
    ensures r <= available && r <= 2048
    ensures available > 0 ==> r > 0
  {
    if available < 2048 then available else 2048
  }

  /** The state of the loop in `disposeInputStream`: the count still to
      read, the size of the next read, and the bytes the client has sent
      that are not read yet. Every byte sent counts as available. */
  datatype Disposal = Disposal(leftToRead: int, bytesRead: nat, unread: nat)

  /** The state before the first turn, for a declared length `length`. */
  function StartDisposal(length: int, unread: nat): (d: Disposal)
    ensures d.leftToRead == length && d.unread == unread && d.bytesRead <= unread
  {
    Disposal(length, Min2048(unread), unread)
  }

  /** One turn: `readNBytes(bytesRead)` reads up to `bytesRead` of what is
      there, `leftToRead` drops by `bytesRead`, and the next size comes from
      `available()`. */
  function DisposeStep(d: Disposal): (e: Disposal)
    ensures d.bytesRead <= d.unread ==>
      e.leftToRead - e.unread == d.leftToRead - d.unread && e.unread == d.unread - d.bytesRead
    ensures e.bytesRead == Min2048(e.unread)
  {
    var got := if d.bytesRead <= d.unread then d.bytesRead else d.unread;
    Disposal(d.leftToRead - d.bytesRead, Min2048(d.unread - got), d.unread - got)
  }

  /** The loop as written, run for at most `fuel` turns: `None` when it has
      not stopped by then. It stops only once `leftToRead` is not positive. */
  function DisposeAsWritten(d: Disposal, fuel: nat): (r: Option<Disposal>)
    ensures r.Some? ==> r.value.leftToRead <= 0
    decreases fuel
  {
    if d.leftToRead <= 0 then Some(d)
    else if fuel == 0 then None
    else DisposeAsWritten(DisposeStep(d), fuel - 1)
  }

  /** When the client sent fewer bytes than it declared, `leftToRead` stays
      above what is left to read: once the sent bytes are gone the loop reads
      nothing and subtracts nothing, and it never stops. */
  lemma {:induction false} DisposalNeverEnds(d: Disposal, fuel: nat)
    requires d.bytesRead <= d.unread && d.leftToRead > d.unread
    ensures DisposeAsWritten(d, fuel) == None
    decreases fuel
  {
    if fuel > 0 {
      DisposalNeverEnds(DisposeStep(d), fuel - 1);
    }
  }

  /** A too-big request whose body is shorter than its `Content-Length`
      keeps `disposeInputStream` spinning for any number of turns. */
  lemma ShortBodyNeverDisposed(length: int, unread: nat, fuel: nat)
    requires length > unread
    ensures DisposeAsWritten(StartDisposal(length, unread), fuel) == None
  {
    DisposalNeverEnds(StartDisposal(length, unread), fuel);
  }

  /** The loop with the read size checked too: it stops once nothing is left
      to read or nothing more is there, reading every byte it is owed. */
  function DisposeCorrected(d: Disposal): (e: Disposal)
    requires d.bytesRead == Min2048(d.unread)
    ensures e.leftToRead <= 0 || e.unread == 0
    ensures e.leftToRead - e.unread == d.leftToRead - d.unread
    ensures e.unread <= d.unread
    decreases d.unread
  {
    if d.leftToRead <= 0 || d.bytesRead == 0 then d
    else DisposeCorrected(DisposeStep(d))
  }

  /** When the whole declared body was sent, the corrected loop stops where
      the loop as written does, with nothing left to read; when it was not,
      the corrected loop stops after reading every byte sent. */
  lemma {:induction false} CorrectedDisposalAgrees(d: Disposal, fuel: nat)
    requires d.bytesRead == Min2048(d.unread)
    ensures d.leftToRead <= d.unread && fuel > d.unread ==>
      DisposeAsWritten(d, fuel) == Some(DisposeCorrected(d)) && DisposeCorrected(d).leftToRead <= 0
    ensures d.leftToRead > d.unread ==> DisposeCorrected(d).unread == 0
    decreases d.unread
  {
    if d.leftToRead <= d.unread && fuel > d.unread && d.leftToRead > 0 {
      assert d.bytesRead > 0;
      CorrectedDisposalAgrees(DisposeStep(d), fuel - 1);
    }
  }
}

=== FILE: resource_handler.dfy ===
/** `ResourceHandler`: serves static files. It resolves which application a
    URL belongs to, looks the file up in that application's webapps
    directory and then in its assets directory, and answers 200 with the
    file's media type, size and caching header. */
module ResourceHandler {
  import opened Wrappers
  import opened Text
  import opened Http
  import opened SharedData
  import opened Exchange
  import opened CachingExpression

  const CacheControlHeader := "Cache-Control"

  /** The file system and the media-type detector, which are outside this
      model: whether a path names an existing regular file, the two path
      templates (`createWebappsResourceDir`, `createAssetsResourceDir`, taking
      the URL and the application name), the detected media type, and the
      byte count `available()` reports for an opened file. */
  datatype Files = Files(
    isFile: string -> bool,
    webappsPath: (string, string) -> string,
    assetsPath: (string, string) -> string,
    mediaType: string -> string,
    size: string -> int)

  /** `appNames` is filled once, in `initialize`; `cacheMap` in `init`. */
  datatype Handler = Handler(appNames: seq<string>, mainApp: string, cachingEnabled: bool, cacheMap: map<string, string>)

  /** `initialize` then `init`: the only application name is the main one,
      and the caching expression is parsed, which may fail. */
  function NewHandler(mainApp: string, cachingEnabled: bool, expression: string): (r: Result<Handler, Exn>)
    ensures r.Ok? <==> ParseExpression(expression).Ok?
    ensures r.Ok? ==> r.value == Handler([mainApp], mainApp, cachingEnabled, ParseExpression(expression).value)
    ensures r.Err? ==> r.error == CannotParseExpression(expression)
  {
    var cacheMap :- ParseExpression(expression);
    Ok(Handler([mainApp], mainApp, cachingEnabled, cacheMap))
  }

  // ------------------------------------------------------ application name

  predicate Serves(url: string, name: string) {
    StartsWith(url, "/" + name)
  }

  /** `getAppNameForRequest`: the first name, in list order, whose `/name`
      prefixes the URL (not the longest one); the main application otherwise. */
  function AppNameForRequest(appNames: seq<string>, mainApp: string, url: string): (r: string)
    ensures (exists i :: 0 <= i < |appNames| && Serves(url, appNames[i]) && r == appNames[i]
               && forall j :: 0 <= j < i ==> !Serves(url, appNames[j]))
            || ((forall i :: 0 <= i < |appNames| ==> !Serves(url, appNames[i])) && r == mainApp)
    decreases |appNames|
  {
    if |appNames| == 0 then mainApp
    else if Serves(url, appNames[0]) then appNames[0]
    else
      var r := AppNameForRequest(appNames[1..], mainApp, url);
      assert forall i :: 1 <= i < |appNames| ==> appNames[i] == appNames[1..][i - 1];
      r
  }

  /** As loaded, the list holds only the main application, so every URL
      resolves to it. */
  lemma OnlyMainApp(mainApp: string, url: string)
    ensures AppNameForRequest([mainApp], mainApp, url) == mainApp
  {
  }

  /** First match, not longest: with `a` listed before `ab`, `/ab/x` belongs to `a`. */
  lemma FirstNameWins()
    ensures AppNameForRequest(["a", "ab"], "ROOT", "/ab/x") == "a"
  {
    assert Serves("/ab/x", "a");
  }

  // ------------------------------------------------------------ the lookup

  /** The URL with the first `/app` removed: `replaceFirst(quote("/" + app), "")`. */
  function RelativeUrl(url: string, app: string): string {
    ReplaceFirst(url, "/" + app, "")
  }

  /** When `/app` prefixes the URL, exactly that prefix is removed. */
  lemma RelativeUrlDropsPrefix(url: string, app: string)
    requires Serves(url, app)
    ensures RelativeUrl(url, app) == url[|app| + 1..]
  {
    assert OccursAt(url, "/" + app, 0);
  }

  /** `locateResource`: the webapps file when it exists, else the assets file
      when it exists, else `ResourceNotFoundException` about the relative URL. */
  function LocateResource(h: Handler, files: Files, url: string): (r: Result<string, Exn>)
    ensures var app := AppNameForRequest(h.appNames, h.mainApp, url); var rel := RelativeUrl(url, app);
      var w := files.webappsPath(rel, app); var a := files.assetsPath(rel, app);
      (files.isFile(w) ==> r == Ok(w)) &&
      (!files.isFile(w) && files.isFile(a) ==> r == Ok(a)) &&
      (!files.isFile(w) && !files.isFile(a) ==> r == Err(ResourceNotFound(rel)))
    ensures r.Ok? ==> files.isFile(r.value)
  {
    var app := AppNameForRequest(h.appNames, h.mainApp, url);
    var rel := RelativeUrl(url, app);
    var w := files.webappsPath(rel, app);
    if files.isFile(w) then Ok(w)
    else
      var a := files.assetsPath(rel, app);
      if files.isFile(a) then Ok(a) else Err(ResourceNotFound(rel))
  }

  // --------------------------------------------------------------- caching

  /** `addCachingHeader`: nothing when caching is off or the response already
      has `Cache-Control`; otherwise the request's own `Cache-Control` value,
      else the value configured for the media type, else nothing. */
  function AddCachingHeader(h: Handler, request: Request, response: Response, mediaType: string): (r: Response)
    ensures r.status == response.status && r.content == response.content && r.cookies == response.cookies
    ensures forall k :: k != CacheControlHeader ==> Get(r.headers, k) == Get(response.headers, k)
    ensures CacheControlHeader in response.headers ==> r == response
    ensures !h.cachingEnabled ==> r == response
    ensures CacheControlHeader in r.headers <==>
      CacheControlHeader in response.headers ||
      (h.cachingEnabled && (CacheControlHeader in request.headers || mediaType in h.cacheMap))
    ensures h.cachingEnabled && CacheControlHeader !in response.headers && CacheControlHeader in request.headers ==>
      r.headers[CacheControlHeader] == request.headers[CacheControlHeader]
    ensures h.cachingEnabled && CacheControlHeader !in response.headers && CacheControlHeader !in request.headers ==>
      (mediaType in h.cacheMap ==> r.headers[CacheControlHeader] == h.cacheMap[mediaType])
  {
    if !h.cachingEnabled || CacheControlHeader in response.headers then response
    else
      var value := match request.Header(CacheControlHeader)
                   case Some(v) => Some(v)
                   case None => Get(h.cacheMap, mediaType);
      if value.Some? then response.WithHeader(CacheControlHeader, value.value) else response
  }

  /** Adding the caching header twice is adding it once. */
  lemma AddCachingHeaderIdempotent(h: Handler, request: Request, response: Response, mediaType: string)
    ensures var once := AddCachingHeader(h, request, response, mediaType);
      AddCachingHeader(h, request, once, mediaType) == once
  {
  }

  // ------------------------------------------------------------ the answer

  /** `handleResourceFoundResponse`: 200, the media type, the size, `inline`,
      then the caching header. */
  function FoundResponse(h: Handler, request: Request, response: Response, mediaType: string, size: int): (r: Response)
    ensures r.status == Some(StatusOk) && r.content == response.content && r.cookies == response.cookies
    ensures Get(r.headers, "Content-Type") == Some(mediaType)
    ensures Get(r.headers, "Content-Length") == Some(IntToString(size))
    ensures Get(r.headers, "Content-Disposition") == Some("inline")
    ensures forall k :: k !in {"Content-Type", "Content-Length", "Content-Disposition", CacheControlHeader} ==>
      Get(r.headers, k) == Get(response.headers, k)
  {
    var base := response.WithStatus(StatusOk)
                        .WithHeader("Content-Type", mediaType)
                        .WithHeader("Content-Length", IntToString(size))
                        .WithHeader("Content-Disposition", "inline");
    AddCachingHeader(h, request, base, mediaType)
  }

  /** `handleRequest`: a missing request object fails as Java's
      `NullPointerException` would; a missing file declines the request and
      writes nothing; a found file is answered with the response and then
      the file's bytes, and ends the chain. */
  function HandleRequest(h: Handler, files: Files, conn: Conn): (r: Result<(bool, Conn), Exn>)
    ensures RequestOf(conn.data).None? ==> r == Err(NullPointer)
    ensures RequestOf(conn.data).Some? && LocateResource(h, files, RequestOf(conn.data).value.url).Err? ==>
      r == Ok((false, conn))
    ensures r.Ok? && r.value.0 ==>
      RequestOf(conn.data).Some? && ResponseOf(conn.data).Some? && ResponseOf(r.value.1.data).Some? &&
      LocateResource(h, files, RequestOf(conn.data).value.url).Ok?
    ensures (RequestOf(conn.data).Some? && ResponseOf(conn.data).Some? &&
             LocateResource(h, files, RequestOf(conn.data).value.url).Ok?) ==> r.Ok? && r.value.0
    ensures (r.Ok? && r.value.0 && RequestOf(conn.data).Some? && ResponseOf(conn.data).Some? &&
             ResponseOf(r.value.1.data).Some? && LocateResource(h, files, RequestOf(conn.data).value.url).Ok?) ==>
      var request := RequestOf(conn.data).value;
      var path := LocateResource(h, files, request.url).value;
      var response := ResponseOf(r.value.1.data).value;
      files.isFile(path) &&
      response == FoundResponse(h, request, ResponseOf(conn.data).value, files.mediaType(path), files.size(path)) &&
      r.value.1.out == conn.out + [ResponseBytes(response), FileBytes(path)] &&
      RequestOf(r.value.1.data) == RequestOf(conn.data)
  {
    match RequestOf(conn.data)
    case None => Err(NullPointer)
    case Some(request) =>
      match LocateResource(h, files, request.url)
      case Err(_) => Ok((false, conn))
      case Ok(path) =>
        match ResponseOf(conn.data)
        case None => Err(NullPointer)
        case Some(response) =>
          var answered := FoundResponse(h, request, response, files.mediaType(path), files.size(path));
          Ok((true, Conn(SetResponse(conn.data, answered), conn.out + [ResponseBytes(answered), FileBytes(path)])))
  }
}

=== FILE: session.dfy ===
/** `SessionManagement`: attaches a stored session to an incoming request by
    its cookie, and after the request is served stores the session and
    tells the browser to keep or drop the cookie. */
module Sessions {
  import opened Wrappers
  import opened Http

  const SessionCookieName := "JAVACHE_SESSION_ID"

  /** The session store, keyed by session id. Stored sessions are shared
      objects in the source: a session attached to a request and later
      invalidated is invalid in the store too. The model writes the
      request's session back when it is sent, which has the same effect. */
  datatype Manager = Manager(storage: map<string, Session>)

  /** `getSessionCookieName`: the fixed name followed by the context path. */
  function CookieName(request: Request): string {
    SessionCookieName + request.contextPath
  }

  /** `isSessionValid`: present and valid. */
  predicate IsValid(s: Option<Session>) {
    s.Some? && s.value.valid
  }

  /** The stored session a cookie points at; a cookie without a value
      (Java's `null`) points at none. */
  function Lookup(m: Manager, c: Cookie): Option<Session> {
    match c.value
    case None => None
    case Some(id) => Get(m.storage, id)
  }

  /** `initSessionIfExistent`. `newSession` is the `new HttpSessionImpl()` the
      source creates, whose id generation is outside this model. */
  function InitSession(m: Manager, request: Request, newSession: Session): (r: Request)
    ensures r.session.Some?
    ensures r == request.(session := r.session, cookies := r.cookies)
    ensures CookieName(request) !in request.cookies ==> r.session == Some(newSession) && r.cookies == request.cookies
    ensures CookieName(request) in request.cookies && IsValid(Lookup(m, request.cookies[CookieName(request)])) ==>
      r.session == Lookup(m, request.cookies[CookieName(request)]) && r.cookies == request.cookies
    ensures CookieName(request) in request.cookies && !IsValid(Lookup(m, request.cookies[CookieName(request)])) ==>
      r.session == Some(newSession) && r.cookies == request.cookies - {SessionCookieName}
  {
    match Get(request.cookies, CookieName(request))
    case None => request.(session := Some(newSession))
    case Some(c) =>
      var s := Lookup(m, c);
      if IsValid(s) then request.(session := s)
      else request.(cookies := request.cookies - {SessionCookieName}, session := Some(newSession))
  }

  /** The cookie that keeps a valid session: its id, with `expires` (an
      RFC 1123 date a day ahead, whose text is outside this model) in the path. */
  function KeepCookie(request: Request, s: Session, expires: string): Cookie {
    Cookie(CookieName(request), Some(s.id), Some("/; expires=" + expires))
  }

  /** The cookie that drops an invalid session; `epoch` is `new Date(0).toString()`. */
  function DropCookie(epoch: string): Cookie {
    Cookie(SessionCookieName, Some("removed; expires=" + epoch), None)
  }

  /** `sendSessionIfExistent`: nothing without a session; otherwise the
      session is stored under its id and one cookie is added. */
  function SendSession(m: Manager, request: Request, response: Response, expires: string, epoch: string): (r: (Manager, Response))
    ensures request.session.None? ==> r == (m, response)
    ensures request.session.Some? ==> var s := request.session.value;
      r.0.storage == m.storage[s.id := s] &&
      r.1 == response.WithCookie(if s.valid then KeepCookie(request, s, expires) else DropCookie(epoch))
    ensures request.session.Some? && request.session.value.id !in m.storage ==>
      r.0.storage == m.storage[request.session.value.id := request.session.value]
    ensures forall id :: id in m.storage ==> id in r.0.storage
  {
    match request.session
    case None => (m, response)
    case Some(s) =>
      var cookie := if s.valid then KeepCookie(request, s, expires) else DropCookie(epoch);
      (Manager(m.storage[s.id := s]), response.WithCookie(cookie))
  }

  /** `clearInvalidSessions` hands the store to `refreshSessions` once; the
      sweep itself is outside this model. */
  function ClearInvalidSessions(m: Manager, refresh: map<string, Session> -> map<string, Session>): (r: Manager)
    ensures r.storage == refresh(m.storage)
  {
    Manager(refresh(m.storage))
  }

  /** Sending then receiving: a valid session that was sent is found again
      by the next request of the same context that carries the cookie. */
  lemma SessionRoundTrip(m: Manager, request: Request, response: Response, expires: string, epoch: string,
                         next: Request, newSession: Session)
    requires IsValid(request.session)
    requires next.contextPath == request.contextPath
    requires var sent := SendSession(m, request, response, expires, epoch).1;
      next.cookies == map[CookieName(next) := sent.cookies[|sent.cookies| - 1]]
    ensures InitSession(SendSession(m, request, response, expires, epoch).0, next, newSession).session == request.session
  {
    var s := request.session.value;
    var sent := SendSession(m, request, response, expires, epoch);
    assert sent.1.cookies[|sent.1.cookies| - 1] == KeepCookie(request, s, expires);
    assert Lookup(sent.0, KeepCookie(request, s, expires)) == Some(s);
  }

  /** With a context path, a stale cookie is looked up under
      `JAVACHE_SESSION_ID` + path but removed under `JAVACHE_SESSION_ID`, so
      it stays on the request. */
  lemma StaleCookieKeptUnderContext(m: Manager, request: Request, newSession: Session)
    requires request.contextPath != []
    requires CookieName(request) in request.cookies && !IsValid(Lookup(m, request.cookies[CookieName(request)]))
    ensures CookieName(request) in InitSession(m, request, newSession).cookies
    ensures InitSession(m, request, newSession).session == Some(newSession)
  {
    assert CookieName(request) != SessionCookieName by {
      assert |CookieName(request)| > |SessionCookieName|;
    }
  }
}

=== FILE: shared_data.dfy ===
/** `RequestHandlerShareData`: the per-connection bag of request-scoped
    objects, keyed by string, in which a key is written at most once. */
module SharedData {
  import opened Wrappers

  const HttpRequestKey := "HTTP_REQUEST"
  const HttpResponseKey := "HTTP_RESPONSE"

  datatype Store<V> = Store(storage: map<string, V>)

  /** A fresh instance holds nothing. */
  function Empty<V>(): (d: Store<V>)
    ensures forall k :: GetObject(d, k) == None
  {
    Store(map[])
  }

  /** `getObject(key)`: the stored object, or `None` (Java's `null`). */
  function GetObject<V>(d: Store<V>, key: string): Option<V> {
    Get(d.storage, key)
  }

  /** `addObject(key, o)`: stores `o` and answers true only if `key` was absent;
      a present key keeps its value and the call answers false. */
  function AddObject<V>(d: Store<V>, key: string, o: V): (r: (Store<V>, bool))
    ensures r.1 <==> GetObject(d, key).None?
    ensures GetObject(r.0, key) == if r.1 then Some(o) else GetObject(d, key)
    ensures forall k :: k != key ==> GetObject(r.0, k) == GetObject(d, k)
  {
    if key in d.storage then (d, false) else (Store(d.storage[key := o]), true)
  }

  /** Replaces the object behind a key that is already present. This is not
      part of the API: it stands for a handler mutating, in place, the object
      it got from `getObject` (Java reference semantics). */
  function Mutate<V>(d: Store<V>, key: string, o: V): (r: Store<V>)
    requires key in d.storage
    ensures GetObject(r, key) == Some(o)
    ensures forall k :: k != key ==> GetObject(r, k) == GetObject(d, k)
  {
    Store(d.storage[key := o])
  }

  /** A run of `addObject` calls, in order. */
  function AddAll<V>(d: Store<V>, ops: seq<(string, V)>): Store<V>
    decreases |ops|
  {
    if |ops| == 0 then d else AddAll(AddObject(d, ops[0].0, ops[0].1).0, ops[1..])
  }

  /** The first object added under `key` among `ops`, if any. */
  function FirstAdded<V>(ops: seq<(string, V)>, key: string): Option<V>
    decreases |ops|
  {
    if |ops| == 0 then None
    else if ops[0].0 == key then Some(ops[0].1)
    else FirstAdded(ops[1..], key)
  }

  /** Write-once: after any run of `addObject` calls, a key holds what it held
      before, or else the first object ever added under it. */
  lemma {:induction false} FirstWriteWins<V>(d: Store<V>, ops: seq<(string, V)>, key: string)
    ensures GetObject(AddAll(d, ops), key) ==
      if GetObject(d, key).Some? then GetObject(d, key) else FirstAdded(ops, key)
    decreases |ops|
  {
    if |ops| > 0 {
      FirstWriteWins(AddObject(d, ops[0].0, ops[0].1).0, ops[1..], key);
    }
  }
}

=== FILE: split.dfy ===
/** `String.split(regex)` for the separator patterns the server uses.

    Every pattern has the shape `[\s*] C [tail]`: optional leading white space,
    one character from a class `C`, and an optional run of white space after it.
    Matches are found left to right, each as long as the greedy quantifiers make
    it; no pattern can match the empty string. `split` then returns the pieces
    between matches, `[s]` when nothing matched, and drops trailing empty pieces. */
module Split {
  import opened Text

  datatype CharClass = Exactly(c: char) | AnySpace | SpaceOr(c: char)

  datatype Tail =
    | NoTail          // nothing after C
    | OneSpace        // `\s`
    | SomeSpaces      // `\s+`
    | AnySpaces       // `\s*`

  /** The leading `\s*` is only ever combined with a non-space `Exactly` class,
      so greedy matching never needs to give a space back. */
  datatype Sep = Sep(leadingSpaces: bool, core: CharClass, tail: Tail)

  function Lit(c: char): Sep { Sep(false, Exactly(c), NoTail) }

  const Amp := Lit('&')                                      // "&"
  const Equals := Lit('=')                                   // "="
  const Question := Lit('?')                                 // "\\?"
  const Space := Sep(false, AnySpace, NoTail)                // "\\s"
  const SpaceOrQuestion := Sep(false, SpaceOr('?'), NoTail)  // "[\\s\\?]"
  const SemicolonSpace := Sep(false, Exactly(';'), OneSpace) // ";\\s"
  const ColonSpaces := Sep(false, Exactly(':'), SomeSpaces)  // ":\\s+"
  const CommaAnySpaces := Sep(false, Exactly(','), AnySpaces) // ",\\s*"
  const CommaSpaces := Sep(false, Exactly(','), SomeSpaces)  // ",\\s+"
  const SpacedAmp := Sep(true, Exactly('&'), AnySpaces)      // "\\s*&\\s*"
  const SpacedAt := Sep(true, Exactly('@'), AnySpaces)       // "\\s*@\\s*"

  predicate InClass(cc: CharClass, c: char) {
    match cc
    case Exactly(d) => c == d
    case AnySpace => IsSpace(c)
    case SpaceOr(d) => IsSpace(c) || c == d
  }

  /** Length of the run of white space starting at `i`. */
  function SpaceRun(s: string, i: nat): (n: nat)
    requires i <= |s|
    ensures i + n <= |s|
    decreases |s| - i
  {
    if i < |s| && IsSpace(s[i]) then 1 + SpaceRun(s, i + 1) else 0
  }

  /** Length of the match of `sep` starting exactly at `i`, or 0 if none starts there. */
  function MatchAt(s: string, sep: Sep, i: nat): (k: nat)
    requires i <= |s|
    ensures i + k <= |s|
  {
    var c := i + (if sep.leadingSpaces then SpaceRun(s, i) else 0);
    if c < |s| && InClass(sep.core, s[c]) then
      match sep.tail
      case NoTail => c + 1 - i
      case OneSpace => if c + 1 < |s| && IsSpace(s[c + 1]) then c + 2 - i else 0
      case SomeSpaces => if SpaceRun(s, c + 1) > 0 then c + 1 + SpaceRun(s, c + 1) - i else 0
      case AnySpaces => c + 1 + SpaceRun(s, c + 1) - i
    else 0
  }

  /** The pieces of `s` between successive matches, scanning from index `i`
      (the current piece starts at index 0 of `s`). */
  function PiecesFrom(s: string, sep: Sep, i: nat): (ps: seq<string>)
    requires i <= |s|
    ensures |ps| >= 1
    decreases |s|, |s| - i
  {
    if i == |s| then [s]
    else
      var k := MatchAt(s, sep, i);
      if k > 0 then [s[..i]] + PiecesFrom(s[i + k..], sep, 0)
      else PiecesFrom(s, sep, i + 1)
  }

  function Pieces(s: string, sep: Sep): seq<string> {
    PiecesFrom(s, sep, 0)
  }

  /** Drops the empty strings at the end of `ps`, as `split` with limit 0 does. */
  function DropTrailingEmpty(ps: seq<string>): (r: seq<string>)
    ensures |r| <= |ps| && r == ps[..|r|]
    ensures forall i :: |r| <= i < |ps| ==> ps[i] == []
    ensures |r| > 0 ==> r[|r| - 1] != []
  {
    if |ps| > 0 && ps[|ps| - 1] == [] then DropTrailingEmpty(ps[..|ps| - 1]) else ps
  }

  /** `s.split(regex)`. */
  function JavaSplit(s: string, sep: Sep): seq<string> {
    var ps := Pieces(s, sep);
    if |ps| == 1 then ps else DropTrailingEmpty(ps)
  }

  /** `String.join` with a one-character delimiter. */
  function Join(ps: seq<string>, c: char): string
    requires |ps| >= 1
  {
    if |ps| == 1 then ps[0] else ps[0] + [c] + Join(ps[1..], c)
  }

  /** `String.join` with a delimiter of any length. */
  function JoinWith(ps: seq<string>, d: string): string
    requires |ps| >= 1
  {
    if |ps| == 1 then ps[0] else ps[0] + d + JoinWith(ps[1..], d)
  }

  // ---------------------------------------------------------------- lemmas

  /** Splitting at the first match: the text before it is the first piece,
      and the rest is split on its own. */
  lemma PiecesAtFirstMatch(s: string, sep: Sep, i: nat)
    requires i < |s| && MatchAt(s, sep, i) > 0
    requires forall j :: 0 <= j < i ==> MatchAt(s, sep, j) == 0
    ensures Pieces(s, sep) == [s[..i]] + Pieces(s[i + MatchAt(s, sep, i)..], sep)
  {
    ScanToMatch(s, sep, i, 0);
  }

  lemma {:induction false} ScanToMatch(s: string, sep: Sep, i: nat, j: nat)
    requires j <= i < |s| && MatchAt(s, sep, i) > 0
    requires forall j' :: j <= j' < i ==> MatchAt(s, sep, j') == 0
    ensures PiecesFrom(s, sep, j) == [s[..i]] + PiecesFrom(s[i + MatchAt(s, sep, i)..], sep, 0)
    decreases i - j
  {
    if j < i {
      ScanToMatch(s, sep, i, j + 1);
    }
  }

  lemma {:induction false} ScanWithoutMatch(s: string, sep: Sep, j: nat)
    requires j <= |s|
    requires forall j' :: j <= j' < |s| ==> MatchAt(s, sep, j') == 0
    ensures PiecesFrom(s, sep, j) == [s]
    decreases |s| - j
  {
    if j < |s| {
      ScanWithoutMatch(s, sep, j + 1);
    }
  }

  /** Without any match the whole string is the single piece. */
  lemma PiecesWithoutMatch(s: string, sep: Sep)
    requires forall j :: 0 <= j < |s| ==> MatchAt(s, sep, j) == 0
    ensures Pieces(s, sep) == [s]
  {
    ScanWithoutMatch(s, sep, 0);
  }

  /** The separator matches exactly one character from its class. */
  predicate SingleChar(sep: Sep) {
    !sep.leadingSpaces && sep.tail == NoTail
  }

  /** No character of `a` belongs to the separator's class. */
  predicate Free(a: string, sep: Sep) {
    forall i :: 0 <= i < |a| ==> !InClass(sep.core, a[i])
  }

  lemma SingleCharMatch(s: string, sep: Sep, j: nat)
    requires SingleChar(sep) && j < |s|
    ensures MatchAt(s, sep, j) > 0 <==> InClass(sep.core, s[j])
    ensures InClass(sep.core, s[j]) ==> MatchAt(s, sep, j) == 1
  {
  }

  /** Splitting `a + [d] + t`, where `d` is a separator and `a` holds none. */
  lemma SingleCharPiecesCons(a: string, d: char, t: string, sep: Sep)
    requires SingleChar(sep) && Free(a, sep) && InClass(sep.core, d)
    ensures Pieces(a + [d] + t, sep) == [a] + Pieces(t, sep)
  {
    var s := a + [d] + t;
    forall j | 0 <= j < |a| ensures MatchAt(s, sep, j) == 0 {
      assert s[j] == a[j];
      SingleCharMatch(s, sep, j);
    }
    SingleCharMatch(s, sep, |a|);
    PiecesAtFirstMatch(s, sep, |a|);
    assert s[..|a|] == a;
    assert s[|a| + 1..] == t;
  }

  /** A string without separators is its own single piece. */
  lemma SingleCharPiecesNone(a: string, sep: Sep)
    requires SingleChar(sep) && Free(a, sep)
    ensures Pieces(a, sep) == [a]
  {
    forall j | 0 <= j < |a| ensures MatchAt(a, sep, j) == 0 {
      SingleCharMatch(a, sep, j);
    }
    PiecesWithoutMatch(a, sep);
  }

  lemma LitMatch(s: string, c: char, j: nat)
    requires j < |s|
    ensures MatchAt(s, Lit(c), j) > 0 <==> s[j] == c
    ensures s[j] == c ==> MatchAt(s, Lit(c), j) == 1
  {
  }

  /** Splitting `a + [c] + t` on `c`, where `a` holds no `c`. */
  lemma LitPiecesCons(a: string, c: char, t: string)
    requires c !in a
    ensures Pieces(a + [c] + t, Lit(c)) == [a] + Pieces(t, Lit(c))
  {
    SingleCharPiecesCons(a, c, t, Lit(c));
  }

  /** A string without `c` is its own single piece. */
  lemma LitPiecesNone(a: string, c: char)
    requires c !in a
    ensures Pieces(a, Lit(c)) == [a]
  {
    SingleCharPiecesNone(a, Lit(c));
  }

  /** A white-space run that starts before a non-space character ends before it. */
  lemma {:induction false} SpaceRunWithin(s: string, j: nat, n: nat)
    requires j < n <= |s| && !IsSpace(s[n - 1])
    ensures j + SpaceRun(s, j) < n
    decreases n - j
  {
    if IsSpace(s[j]) {
      SpaceRunWithin(s, j + 1, n);
    }
  }

  /** A string without the separator's character is a single piece. */
  lemma NoCoreOnePiece(s: string, c: char, sep: Sep)
    requires sep.core == Exactly(c) && c !in s
    ensures Pieces(s, sep) == [s]
  {
    forall j | 0 <= j < |s| ensures MatchAt(s, sep, j) == 0 {
    }
    PiecesWithoutMatch(s, sep);
  }

  /** No match of `\s*c\s*` starts inside `a` when `a` holds no `c` and does
      not end with white space. */
  lemma SpacedNoEarlyMatch(s: string, a: string, c: char, sep: Sep)
    requires sep.core == Exactly(c) && c !in a && a <= s
    requires a == [] || !IsSpace(a[|a| - 1])
    ensures forall j :: 0 <= j < |a| ==> MatchAt(s, sep, j) == 0
  {
    forall j | 0 <= j < |a| ensures MatchAt(s, sep, j) == 0 {
      SpaceRunWithin(s, j, |a|);
      var k := j + (if sep.leadingSpaces then SpaceRun(s, j) else 0);
      assert s[k] == a[k];
    }
  }

  /** Splitting `a + " " + [c] + " " + t` on `\s*c\s*`. */
  lemma SpacedPiecesCons(a: string, c: char, t: string, sep: Sep)
    requires sep == Sep(true, Exactly(c), AnySpaces) && !IsSpace(c)
    requires c !in a && (a == [] || !IsSpace(a[|a| - 1]))
    requires t == [] || !IsSpace(t[0])
    ensures Pieces(a + " " + [c] + " " + t, sep) == [a] + Pieces(t, sep)
  {
    var s := a + " " + [c] + " " + t;
    var n := |a|;
    assert s[..n] == a;
    SpacedNoEarlyMatch(s, a, c, sep);
    assert s[n] == ' ' && s[n + 1] == c && s[n + 2] == ' ' && s[n + 3..] == t;
    assert SpaceRun(s, n + 1) == 0;
    assert SpaceRun(s, n) == 1;
    assert SpaceRun(s, n + 3) == 0;
    assert SpaceRun(s, n + 2) == 1;
    assert MatchAt(s, sep, n) == 3;
    PiecesAtFirstMatch(s, sep, n);
  }

  /** Splitting `a + [c] + " " + t` on `c\s*`. */
  lemma TrailingSpacesPiecesCons(a: string, c: char, t: string, sep: Sep)
    requires sep == Sep(false, Exactly(c), AnySpaces)
    requires c !in a && (t == [] || !IsSpace(t[0]))
    ensures Pieces(a + [c] + " " + t, sep) == [a] + Pieces(t, sep)
  {
    var s := a + [c] + " " + t;
    var n := |a|;
    assert s[..n] == a;
    forall j | 0 <= j < n ensures MatchAt(s, sep, j) == 0 {
      assert s[j] == a[j];
    }
    assert s[n] == c && s[n + 1] == ' ' && s[n + 2..] == t;
    assert SpaceRun(s, n + 2) == 0;
    assert SpaceRun(s, n + 1) == 1;
    assert MatchAt(s, sep, n) == 2;
    PiecesAtFirstMatch(s, sep, n);
  }

  /** Splitting undoes joining: pieces that hold no `c`, joined with `c`,
      split back into exactly those pieces. */
  lemma {:induction false} LitPiecesOfJoin(ps: seq<string>, c: char)
    requires |ps| >= 1 && forall i :: 0 <= i < |ps| ==> c !in ps[i]
    ensures Pieces(Join(ps, c), Lit(c)) == ps
    decreases |ps|
  {
    if |ps| == 1 {
      LitPiecesNone(ps[0], c);
    } else {
      LitPiecesOfJoin(ps[1..], c);
      LitPiecesCons(ps[0], c, Join(ps[1..], c));
      assert ps == [ps[0]] + ps[1..];
    }
  }

  /** `split` on `c` undoes `String.join` on `c` when the last piece is not empty. */
  lemma LitSplitOfJoin(ps: seq<string>, c: char)
    requires |ps| >= 1 && forall i :: 0 <= i < |ps| ==> c !in ps[i]
    requires ps[|ps| - 1] != []
    ensures JavaSplit(Join(ps, c), Lit(c)) == ps
  {
    LitPiecesOfJoin(ps, c);
  }

  /** Splitting on a literal character loses nothing: no piece holds the
      character, and joining the pieces back with it restores the input. */
  lemma LitPiecesRoundTrip(s: string, c: char)
    ensures Join(Pieces(s, Lit(c)), c) == s
    ensures forall p :: p in Pieces(s, Lit(c)) ==> c !in p
  {
    LitScanRoundTrip(s, c, 0);
  }

  /** Splitting `a + [c] + " " + t` on `c\s+` when `t` starts with no space. */
  lemma SomeSpacesPiecesCons(a: string, c: char, t: string)
    requires c !in a && t != [] && !IsSpace(t[0])
    ensures Pieces(a + [c] + " " + t, Sep(false, Exactly(c), SomeSpaces)) == [a] + Pieces(t, Sep(false, Exactly(c), SomeSpaces))
  {
    var sep := Sep(false, Exactly(c), SomeSpaces);
    var s := a + [c] + " " + t;
    var n := |a|;
    assert s[..n] == a;
    forall j | 0 <= j < n ensures MatchAt(s, sep, j) == 0 {
      assert s[j] == a[j];
    }
    assert s[n] == c && s[n + 1] == ' ' && s[n + 2..] == t && s[n + 2] == t[0];
    assert SpaceRun(s, n + 2) == 0;
    assert SpaceRun(s, n + 1) == 1;
    assert MatchAt(s, sep, n) == 2;
    PiecesAtFirstMatch(s, sep, n);
  }

  /** Pieces that hold no `c`, are not empty and do not start with white
      space, joined with `c` and one space, split on `c\s+` back into
      exactly those pieces. */
  lemma {:induction false} SomeSpacesSplitOfJoin(ps: seq<string>, c: char)
    requires |ps| >= 1
    requires forall i :: 0 <= i < |ps| ==> c !in ps[i] && ps[i] != [] && !IsSpace(ps[i][0])
    ensures Pieces(JoinWith(ps, [c] + " "), Sep(false, Exactly(c), SomeSpaces)) == ps
    ensures JavaSplit(JoinWith(ps, [c] + " "), Sep(false, Exactly(c), SomeSpaces)) == ps
    decreases |ps|
  {
    var sep := Sep(false, Exactly(c), SomeSpaces);
    if |ps| == 1 {
      NoCoreOnePiece(ps[0], c, sep);
    } else {
      SomeSpacesSplitOfJoin(ps[1..], c);
      var t := JoinWith(ps[1..], [c] + " ");
      assert t[..|ps[1]|] == ps[1] by {
        JoinWithPrefix(ps[1..], [c] + " ");
      }
      assert t[0] == ps[1][0];
      assert ps[0] + ([c] + " ") + t == ps[0] + [c] + " " + t;
      SomeSpacesPiecesCons(ps[0], c, t);
      assert ps == [ps[0]] + ps[1..];
    }
  }

  /** The joined text starts with the first piece. */
  lemma JoinWithPrefix(ps: seq<string>, d: string)
    requires |ps| >= 1
    ensures |JoinWith(ps, d)| >= |ps[0]| && JoinWith(ps, d)[..|ps[0]|] == ps[0]
  {
  }

  /** Joining a piece before others puts one `c` between them, and adds no
      `c` to the pieces' own text. */
  lemma JoinCons(a: string, ps: seq<string>, c: char)
    requires |ps| >= 1 && c !in a
    requires forall p :: p in ps ==> c !in p
    ensures Join([a] + ps, c) == a + [c] + Join(ps, c)
    ensures forall p :: p in [a] + ps ==> c !in p
  {
    assert ([a] + ps)[1..] == ps;
  }

  /** The step at a separator, given the round trip of the text after it. */
  lemma LitMatchStep(s: string, c: char, i: nat)
    requires i < |s| && s[i] == c && c !in s[..i]
    requires Join(PiecesFrom(s[i + 1..], Lit(c), 0), c) == s[i + 1..]
    requires forall p :: p in PiecesFrom(s[i + 1..], Lit(c), 0) ==> c !in p
    ensures Join(PiecesFrom(s, Lit(c), i), c) == s
    ensures forall p :: p in PiecesFrom(s, Lit(c), i) ==> c !in p
  {
    LitMatch(s, c, i);
    var rest := s[i + 1..];
    assert PiecesFrom(s, Lit(c), i) == [s[..i]] + PiecesFrom(rest, Lit(c), 0);
    assert s == s[..i] + [c] + rest;
    JoinCons(s[..i], PiecesFrom(rest, Lit(c), 0), c);
  }

  lemma {:induction false} LitScanRoundTrip(s: string, c: char, i: nat)
    requires i <= |s| && c !in s[..i]
    ensures Join(PiecesFrom(s, Lit(c), i), c) == s
    ensures forall p :: p in PiecesFrom(s, Lit(c), i) ==> c !in p
    decreases |s|, |s| - i
  {
    if i == |s| {
      assert s[..i] == s;
    } else if s[i] == c {
      LitScanRoundTrip(s[i + 1..], c, 0);
      LitMatchStep(s, c, i);
    } else {
      LitMatch(s, c, i);
      assert s[..i + 1] == s[..i] + [s[i]];
      LitScanRoundTrip(s, c, i + 1);
    }
  }

  /** `split` keeps a prefix of the pieces, and every piece it drops is empty. */
  lemma JavaSplitPrefix(s: string, sep: Sep)
    ensures var r := JavaSplit(s, sep); var ps := Pieces(s, sep);
      |r| <= |ps| && r == ps[..|r|] && forall i :: |r| <= i < |ps| ==> ps[i] == []
  {
  }

  /** A non-empty piece and everything before it survive `split`. */
  lemma JavaSplitKeeps(s: string, sep: Sep, i: nat)
    requires i < |Pieces(s, sep)| && Pieces(s, sep)[i] != []
    ensures i < |JavaSplit(s, sep)|
    ensures JavaSplit(s, sep)[..i + 1] == Pieces(s, sep)[..i + 1]
  {
  }
}

=== FILE: text.dfy ===
/** The `java.lang.String` operations the server relies on, over `seq<char>`.
    Only ASCII case mapping is modelled; see README. */
module Text {
  import opened Wrappers

  /** One byte read from a socket stream (`InputStream.read()` without the -1). */
  type Byte = b: int | 0 <= b < 256

  const CR: Byte := 13
  const LF: Byte := 10

  /** Java regex class `\s`: space, tab, line feed, vertical tab, form feed, return. */
  predicate IsSpace(c: char) {
    c == ' ' || c == '\t' || c == '\n' || c as int == 11 || c as int == 12 || c == '\r'
  }

  /** `String.trim()` removes every leading and trailing code unit <= U+0020. */
  predicate Trimmable(c: char) {
    c <= ' '
  }

  /** `(char) b` applied to each byte. */
  function FromBytes(bs: seq<Byte>): (s: string)
    ensures |s| == |bs|
    ensures forall i :: 0 <= i < |bs| ==> s[i] as int == bs[i]
  {
    seq(|bs|, i requires 0 <= i < |bs| => bs[i] as char)
  }

  function TrimStart(s: string): (r: string)
    ensures |r| <= |s| && r == s[|s| - |r|..]
    ensures forall i :: 0 <= i < |s| - |r| ==> Trimmable(s[i])
    ensures |r| > 0 ==> !Trimmable(r[0])
  {
    if |s| > 0 && Trimmable(s[0]) then TrimStart(s[1..]) else s
  }

  function TrimEnd(s: string): (r: string)
    ensures |r| <= |s| && r == s[..|r|]
    ensures forall i :: |r| <= i < |s| ==> Trimmable(s[i])
    ensures |r| > 0 ==> !Trimmable(r[|r| - 1])
  {
    if |s| > 0 && Trimmable(s[|s| - 1]) then TrimEnd(s[..|s| - 1]) else s
  }

  /** `String.trim()`: the slice of `s` left after dropping trimmable code units at both ends. */
  function Trim(s: string): (r: string)
    ensures exists a :: OccursAt(s, r, a)
    ensures |r| > 0 ==> !Trimmable(r[0]) && !Trimmable(r[|r| - 1])
  {
    var t := TrimStart(s);
    var r := TrimEnd(t);
    var a := |s| - |t|;
    assert r == t[..|r|] == s[a..][..|r|] == s[a..a + |r|];
    assert OccursAt(s, r, a);
    r
  }

  /** A string that starts and ends with a non-trimmable code unit is its own trim. */
  lemma TrimKeeps(s: string)
    requires s == [] || (!Trimmable(s[0]) && !Trimmable(s[|s| - 1]))
    ensures Trim(s) == s
  {
  }

  /** `s.trim().isEmpty()` holds exactly when every code unit of `s` is trimmable. */
  lemma TrimEmptyIff(s: string)
    ensures Trim(s) == [] <==> forall i :: 0 <= i < |s| ==> Trimmable(s[i])
  {
    var t := TrimStart(s);
    if Trim(s) == [] {
      assert |t| == 0;
    } else {
      assert !Trimmable(Trim(s)[0]);
    }
  }

  predicate StartsWith(s: string, prefix: string) {
    |prefix| <= |s| && s[..|prefix|] == prefix
  }

  /** `t` occurs in `s` starting at index `j`. */
  predicate OccursAt(s: string, t: string, j: int) {
    0 <= j && j + |t| <= |s| && s[j..j + |t|] == t
  }

  /** `String.indexOf(t, from)`: the first occurrence of `t` at or after `from`. */
  function IndexOf(s: string, t: string, from: nat): (r: Option<nat>)
    ensures r.Some? ==> from <= r.value && OccursAt(s, t, r.value)
    ensures r.Some? ==> forall j :: from <= j < r.value ==> !OccursAt(s, t, j)
    ensures r.None? ==> forall j :: from <= j ==> !OccursAt(s, t, j)
    decreases |s| - from
  {
    if from + |t| > |s| then None
    else if s[from..from + |t|] == t then Some(from)
    else IndexOf(s, t, from + 1)
  }

  predicate Contains(s: string, t: string) {
    IndexOf(s, t, 0).Some?
  }

  /** `s.replaceFirst(Pattern.quote(t), r)`: the first occurrence of `t` replaced by `r`. */
  function ReplaceFirst(s: string, t: string, r: string): (u: string)
    ensures IndexOf(s, t, 0).None? ==> u == s
    ensures IndexOf(s, t, 0).Some? ==>
      var i := IndexOf(s, t, 0).value; u == s[..i] + r + s[i + |t|..]
  {
    match IndexOf(s, t, 0)
    case None => s
    case Some(i) => s[..i] + r + s[i + |t|..]
  }

  function UpperChar(c: char): char {
    if 'a' <= c <= 'z' then (c as int - 32) as char else c
  }

  /** `String.toUpperCase()` on ASCII letters. */
  function Upper(s: string): (u: string)
    ensures |u| == |s|
    ensures forall i :: 0 <= i < |s| ==> u[i] == UpperChar(s[i])
  {
    seq(|s|, i requires 0 <= i < |s| => UpperChar(s[i]))
  }

  /** `Integer.MAX_VALUE`. */
  const MaxInt := 0x7fff_ffff

  predicate IsDigit(c: char) {
    '0' <= c <= '9'
  }

  function DigitChar(d: nat): char
    requires d < 10
  {
    ('0' as int + d) as char
  }

  /** Decimal value of a digit string; the reading side of `NatToString`. */
  function DigitsValue(s: string): nat
    requires forall i :: 0 <= i < |s| ==> IsDigit(s[i])
  {
    if |s| == 0 then 0
    else
      assert IsDigit(s[|s| - 1]);
      DigitsValue(s[..|s| - 1]) * 10 + (s[|s| - 1] as int - '0' as int)
  }

  /** Decimal rendering, as `Integer.toString` / `"" + n` print a non-negative number. */
  function NatToString(n: nat): (s: string)
    ensures |s| > 0
    ensures forall i :: 0 <= i < |s| ==> IsDigit(s[i])
  {
    if n < 10 then [DigitChar(n)] else NatToString(n / 10) + [DigitChar(n % 10)]
  }

  /** Decimal rendering of any integer, with a leading '-' for negatives. */
  function IntToString(n: int): (s: string)
    ensures |s| > 0
  {
    if n < 0 then "-" + NatToString(-n) else NatToString(n)
  }

  /** The rendering is read back exactly: `NatToString` loses nothing. */
  lemma {:induction false} NatToStringRoundTrip(n: nat)
    ensures DigitsValue(NatToString(n)) == n
  {
    var s := NatToString(n);
    if n >= 10 {
      NatToStringRoundTrip(n / 10);
      assert s[..|s| - 1] == NatToString(n / 10);
    }
  }

  /** `Integer.parseInt` on an unsigned decimal string: its value when it
      fits an `int`, `None` (a `NumberFormatException`) otherwise. A leading
      sign is not read. */
  function ParseDecimal(s: string): (r: Option<int>)
    ensures r.Some? ==> 0 <= r.value <= MaxInt
    ensures r.Some? ==> s != [] && forall i :: 0 <= i < |s| ==> IsDigit(s[i])
  {
    if s != [] && (forall i :: 0 <= i < |s| ==> IsDigit(s[i])) && DigitsValue(s) <= MaxInt
    then Some(DigitsValue(s)) else None
  }

  /** Every `int` that is not negative reads back from its decimal text. */
  lemma ParseDecimalRoundTrip(n: nat)
    requires n <= MaxInt
    ensures ParseDecimal(NatToString(n)) == Some(n)
  {
    NatToStringRoundTrip(n);
  }
}

=== FILE: wrappers.dfy ===
/** Failure-compatible datatypes used throughout the model: Java's `null`
    becomes `None`, and a thrown exception becomes `Err`. */
module Wrappers {

  datatype Option<+T> = None | Some(value: T) {

    function GetOr(default: T): T {
      match this
      case Some(v) => v
      case None => default
    }
  }

  datatype Result<+T, +E> = Ok(value: T) | Err(error: E) {

    predicate IsFailure() {
      Err?
    }

    function PropagateFailure<U>(): Result<U, E>
      requires Err?
    {
      Err(error)
    }

    function Extract(): T
      requires Ok?
    {
      value
    }
  }

  /** `Map.get`: the value stored under `k`, or `None` (Java's `null`). */
  function Get<K, V>(m: map<K, V>, k: K): (r: Option<V>)
    ensures r.Some? <==> k in m
    ensures r.Some? ==> r.value == m[k]
  {
    if k in m then Some(m[k]) else None
  }

  /** Java's `list.get(i)` / `array[i]`: out-of-range indices raise. */
  function At<T>(xs: seq<T>, i: nat): (r: Option<T>)
    ensures r.Some? <==> i < |xs|
    ensures i < |xs| ==> r == Some(xs[i])
  {
    if i < |xs| then Some(xs[i]) else None
  }
}
